=== FILE: README.md ===
# KMPOfficial core, modelled in Dafny

KMPOfficial is a Kotlin Multiplatform application: a Compose client (Android, iOS, desktop, web) and a Ktor server backed by MySQL. This project models the parts of it that decide things, as pure Dafny functions over immutable data, and proves what they promise.

- **Pull to refresh** (`PullRefresh`, `PullRefreshView`): the drag state machine of `PullRefreshState` and its nested-scroll hooks, and what `PullRefreshIndicator`/`PullRefreshBox` derive from that state. The damping curve `0.7·(1−p)^1.5` is a configuration field. The predicate `DampingOk` constrains it to its two properties: its range is [0, 0.7], and it never increases on [0, 1). Animations are collapsed to their end value and duration.
- **Server users** (`UserValidation`, `UserService`, `UserRoutes`): the `CreateUserRequest.validate()` rules, the users table as a map from id to row, the `UserService` reads and writes, and the `GET`/`POST /users` handlers with their status codes and messages.
- **App-run records** (`AppRun`): the lookup by app name and date, the insert of a new run, the `LocalDate` text of `runDate`, and `toInfoResponse`.
- **Error mapping** (`ErrorHandling`): the `StatusPages` mapping from exception class to status code and message, and the production-mode message hiding.
- **Schema check** (`DatabaseFactory`): `isTableStructureCompatible` over the column metadata, and the branch structure of `init`.
- **Client plumbing** (`ApiResponse`, `BaseViewModel`, `CommonPager`, `MultiStateLayout`, `RouterRegistry`): the response envelope, the view model's load trigger and result handling, the paging source's keys, the multi-state layout's transitions and slots, and the route registry.
- **Navigation** (`AppNavigation`, `WebHistory`, `DoubleBack`): the Decompose screen stack and its derived `State`, the web history sync, and double-back-to-exit on Android.
- **Logging** (`Logging`): kmplog's level filter and sink fan-out, shared by `KLog` and `LogManager`.

The database, the clock, the network, the UI runtime and the browser are not modelled as code. Each one becomes a value:

- a table is a `map`;
- "now" is an `int` parameter;
- a fresh auto-increment id is a parameter that is required not to be in use;
- a loader or a sink is a function value;
- the browser history is a list of entries with a current index, each a path, a query string and a fragment.

## Model

| member | source | states |
|---|---|---|
| PullRefresh.Initial | composeApp/src/commonMain/kotlin/org/example/project/pullrefresh/PullRefreshState.kt:28-41 | A new state holds the caller's refreshing flag, is not releasing, and has zero drag and zero progress. |
| PullRefresh.ProgressOf | composeApp/src/commonMain/kotlin/org/example/project/pullrefresh/PullRefreshState.kt:205-207 | Progress is drag divided by threshold, clamped to [0, 1]. It is 1 at or past the threshold and 0 with no drag. |
| PullRefresh.ProgressMonotone | composeApp/src/commonMain/kotlin/org/example/project/pullrefresh/PullRefreshState.kt:205-207 | More drag never means less progress. |
| PullRefresh.OnPull | composeApp/src/commonMain/kotlin/org/example/project/pullrefresh/PullRefreshState.kt:117-141 | While refreshing, nothing is consumed and the state is unchanged. Otherwise the whole delta is consumed. Nothing moves once the drag has reached maxDrag. The drag stays within [0, maxDrag]. |
| PullRefresh.PullBounded | composeApp/src/commonMain/kotlin/org/example/project/pullrefresh/PullRefreshState.kt:128-134 | A downward pull never retracts, and it moves the indicator by at most 0.7 of the finger's movement. |
| PullRefresh.IncrementShrinks | composeApp/src/commonMain/kotlin/org/example/project/pullrefresh/PullRefreshState.kt:125-134 | Resistance grows with the drag: the same pull moves the indicator no more from a longer drag than from a shorter one. |
| PullRefresh.SnapMs | composeApp/src/commonMain/kotlin/org/example/project/pullrefresh/PullRefreshState.kt:162-165 | The snap-back tween lasts 180 to 300 ms, and 300 ms once the overshoot is 120 px or more. |
| PullRefresh.OnRelease | composeApp/src/commonMain/kotlin/org/example/project/pullrefresh/PullRefreshState.kt:146-203 | At or past the threshold, the state pins at the threshold with progress 1 and then calls onRefresh once, already refreshing and pinned. Below the threshold, it returns to rest without calling onRefresh. While refreshing, it does nothing. |
| PullRefresh.ReleaseIdempotent | composeApp/src/commonMain/kotlin/org/example/project/pullrefresh/PullRefreshState.kt:146-203 | A second release right after a first changes nothing and calls nothing. |
| PullRefresh.FinishRefresh | composeApp/src/commonMain/kotlin/org/example/project/pullrefresh/PullRefreshState.kt:212-228 | Finishing a refresh clears the flag, the drag and the progress. Finishing when not refreshing does nothing. |
| PullRefresh.SyncRefreshing | composeApp/src/commonMain/kotlin/org/example/project/pullrefresh/PullRefreshState.kt:263-271 | The caller's `refreshing` value is adopted. An unchanged value changes nothing. Turning refreshing on keeps the drag. |
| PullRefresh.OnPreScrollAsWritten | composeApp/src/commonMain/kotlin/org/example/project/pullrefresh/PullRefreshState.kt:49-71 | The pre-scroll hook as written: it reports the retracted drag as a positive amount consumed. |
| PullRefresh.PreScrollAsWrittenOverscrolls | composeApp/src/commonMain/kotlin/org/example/project/pullrefresh/PullRefreshState.kt:60-66 | With 30 px dragged and an upward delta of 10 px, the child is offered 40 px upwards. |
| PullRefresh.OnPreScroll | composeApp/src/commonMain/kotlin/org/example/project/pullrefresh/PullRefreshState.kt:49-71 | Corrected hook: for an upward delta, the consumed amount has the delta's sign and is no larger than the delta. Releasing or a downward delta consumes nothing. |
| PullRefresh.PreScrollNeverOverscrolls | composeApp/src/commonMain/kotlin/org/example/project/pullrefresh/PullRefreshState.kt:49-71 | The child is never offered more than the delta that was available. |
| PullRefresh.OnPostScroll | composeApp/src/commonMain/kotlin/org/example/project/pullrefresh/PullRefreshState.kt:73-97 | While refreshing or releasing, a downward remainder is swallowed and the state is unchanged. Otherwise a downward remainder the child left untouched becomes a pull. Anything else changes nothing. |
| PullRefresh.OnPreFling | composeApp/src/commonMain/kotlin/org/example/project/pullrefresh/PullRefreshState.kt:99-108 | A fling with drag and no refresh or release in progress performs a release under the releasing flag and then clears the flag. Otherwise it does nothing. |
| PullRefresh.RefreshOnlyWhenPinned | composeApp/src/commonMain/kotlin/org/example/project/pullrefresh/PullRefreshState.kt:151-189 | Over any sequence of inputs, every onRefresh call sees the indicator pinned at the threshold with refreshing already on. |
| PullRefresh.NoRefreshWhileRefreshing | composeApp/src/commonMain/kotlin/org/example/project/pullrefresh/PullRefreshState.kt:117-203 | Once refreshing, and until the caller turns it off, no input calls onRefresh and refreshing stays on. |
| PullRefresh.FullCycleReturnsToRest | composeApp/src/commonMain/kotlin/org/example/project/pullrefresh/PullRefreshState.kt:263-271 | A fling past the threshold starts refreshing. The caller's `false` then returns the indicator to rest. |
| PullRefreshView.IndicatorScale | composeApp/src/commonMain/kotlin/org/example/project/pullrefresh/PullRefresh.kt:48-52 | The scale is 0.5 + 0.5·progress while pulling with scaling on, and 1 otherwise. |
| PullRefreshView.SpinnerFor | composeApp/src/commonMain/kotlin/org/example/project/pullrefresh/PullRefresh.kt:56-75 | The spinner is indeterminate exactly while refreshing, determinate exactly with positive progress and no refresh, and absent otherwise. |
| PullRefreshView.SpinnerVisibleIffAlpha | composeApp/src/commonMain/kotlin/org/example/project/pullrefresh/PullRefresh.kt:54-75 | The spinner is drawn exactly when the indicator is opaque. |
| PullRefreshView.SnapDurationMs | composeApp/src/commonMain/kotlin/org/example/project/pullrefresh/PullRefresh.kt:103-117 | The box's snap duration is 0 unless refreshing with an offset. Then it is 180 ms plus the overshoot, capped at 120. |
| PullRefreshView.SnapDurationAgreesWithRelease | composeApp/src/commonMain/kotlin/org/example/project/pullrefresh/PullRefresh.kt:103-117 | The box's snap duration equals the one the state's release uses. |
| PullRefreshView.IndicatorTweenMs | composeApp/src/commonMain/kotlin/org/example/project/pullrefresh/PullRefresh.kt:119-135 | The 400 ms return tween is used exactly at full rest. While refreshing with an offset, the snap duration is used. |
| PullRefreshView.ContentTarget | composeApp/src/commonMain/kotlin/org/example/project/pullrefresh/PullRefresh.kt:138-142 | With content offset enabled, the content follows the drag while the indicator is visible. Otherwise it stays at 0. |
| PullRefreshView.ContentTweenMs | composeApp/src/commonMain/kotlin/org/example/project/pullrefresh/PullRefresh.kt:144-163 | The content uses the 400 ms tween exactly when both target and progress are 0. While refreshing with a positive target, it uses the snap duration. |
| PullRefreshView.Render | composeApp/src/commonMain/kotlin/org/example/project/pullrefresh/PullRefresh.kt:83-190 | The indicator sits the drag distance below its hidden position −56, within [−56, maxDrag − 56], and the content is at 0 or at the drag. The indicator's spinner is indeterminate exactly when the `refreshing` argument the caller passes is true; the content offset follows the state's own flag. |
| PullRefreshView.StaleFlagShowsFullRing | composeApp/src/commonMain/kotlin/org/example/project/pullrefresh/PullRefresh.kt:48-90 | When the caller passes refreshing = false while the state is still refreshing at the threshold, the indicator draws a full determinate ring at full size and opacity, and the content stays offset by the threshold. |
| PullRefreshView.RestFrameIsHidden | composeApp/src/commonMain/kotlin/org/example/project/pullrefresh/PullRefresh.kt:54-185 | At rest, the indicator is transparent, spinnerless and hidden, and the content is not offset. |
| PullRefreshView.PulledFrameFollowsDrag | composeApp/src/commonMain/kotlin/org/example/project/pullrefresh/PullRefresh.kt:54-142 | The indicator is opaque exactly when dragged or refreshing, and then the content follows the drag. |
| UserValidation.EmailScanMatchesShape | server/src/main/kotlin/org/example/project/db/user/dto/CreateUserRequest.kt:43-47 | The scan that checks an email accepts exactly the strings of the shape local@domain.tld: local from [A-Za-z0-9+_.-] and non-empty, domain from [A-Za-z0-9.-] and non-empty, tld at least two letters. |
| UserValidation.ValidateSpec | server/src/main/kotlin/org/example/project/db/user/dto/CreateUserRequest.kt:22-64 | validate() returns null exactly for acceptable requests. Each group of messages (username, password) and each later message (email, phone, nickname) is returned exactly when its field fails and every field checked earlier passes. |
| UserValidation.ValidateMessages | server/src/main/kotlin/org/example/project/db/user/dto/CreateUserRequest.kt:24-40 | Each of the five username and password messages is returned exactly when its own check is the first to fail: blank, then length, then charset for the username; blank, then length for the password. |
| UserValidation.Utf16Len | server/src/main/kotlin/org/example/project/db/user/dto/CreateUserRequest.kt:27-40 | Lengths are counted in UTF-16 code units, as Kotlin's `String.length` does: between the number of characters and twice that. |
| UserValidation.Utf16LenIsLength | server/src/main/kotlin/org/example/project/db/user/dto/CreateUserRequest.kt:27-40 | The UTF-16 length equals the character count exactly when every character is in the Basic Multilingual Plane. |
| UserValidation.SupplementaryCountsTwice | server/src/main/kotlin/org/example/project/db/user/dto/CreateUserRequest.kt:27-29 | A character outside the Basic Multilingual Plane counts twice: five characters ending in an emoji are six units long. |
| UserValidation.BlankUsernameFirst | server/src/main/kotlin/org/example/project/db/user/dto/CreateUserRequest.kt:24-26 | A blank username reports "username empty" before anything else. |
| UserValidation.UsernameLengthChecked | server/src/main/kotlin/org/example/project/db/user/dto/CreateUserRequest.kt:27-29 | A non-blank username outside 3..50 UTF-16 code units reports the length message. |
| UserValidation.UsernameCharsetChecked | server/src/main/kotlin/org/example/project/db/user/dto/CreateUserRequest.kt:30-32 | A username of 3..50 code units with a character outside [A-Za-z0-9_] reports the charset message, unless it is blank. |
| UserValidation.BlankEmailAccepted | server/src/main/kotlin/org/example/project/db/user/dto/CreateUserRequest.kt:43-47 | A missing or blank email is never a format error. |
| UserValidation.EmailShapeEndsInLetters | server/src/main/kotlin/org/example/project/db/user/dto/CreateUserRequest.kt:44 | Every string the email pattern matches ends in at least two letters, the end of its top-level domain. |
| UserValidation.ShortTldRejected | server/src/main/kotlin/org/example/project/db/user/dto/CreateUserRequest.kt:43-47 | Once username and password pass, a non-blank email ending in a dot or in a dot and one character is reported as malformed. |
| UserValidation.PhonePrefixRejected | server/src/main/kotlin/org/example/project/db/user/dto/CreateUserRequest.kt:50-54 | Once the earlier fields pass, a non-blank phone whose second character is not 3 to 9 is reported. |
| ApiResponse.GetMessage | shared/src/commonMain/kotlin/org/example/project/network/model/BaseApiResponse.kt:19-21 | The message, or the empty string when there is none. |
| ApiResponse.SuccessTrueIsStronger | shared/src/commonMain/kotlin/org/example/project/network/model/BaseApiResponse.kt:15-17 | isSuccessTrue is isCodeSuccess with non-null data. A 2xx response without data is not "success true". |
| UserService.RowUserRoundTrip | server/src/main/kotlin/org/example/project/db/UserService.kt:198-211 | Reading a row into a User and back loses nothing, and a User is its id plus its row. |
| UserService.GetAllUsers | server/src/main/kotlin/org/example/project/db/UserService.kt:18-20 | One User per listed id, in listing order, each equal to its row. |
| UserService.ListingHasEveryRowOnce | server/src/main/kotlin/org/example/project/db/UserService.kt:18-20 | The listing has exactly as many entries as the table has rows, and every row appears. |
| UserService.GetUserById | server/src/main/kotlin/org/example/project/db/UserService.kt:27-31 | A user comes back exactly when the id exists, with that id and that row. |
| UserService.SingleOrNull | server/src/main/kotlin/org/example/project/db/UserService.kt:38-53 | singleOrNull returns a row exactly when one row matches. |
| UserService.UsernameLookupFinds | server/src/main/kotlin/org/example/project/db/UserService.kt:38-42 | With unique usernames, the lookup finds a user exactly when the username is in use. |
| UserService.EmailLookupFinds | server/src/main/kotlin/org/example/project/db/UserService.kt:49-53 | With unique emails, the lookup finds a user exactly when the email is in use. |
| UserService.CreateUser | server/src/main/kotlin/org/example/project/db/UserService.kt:61-92 | Exactly one row is added, and the others are untouched. The new user carries the request's fields and the hash as password. It is INACTIVE with role USER, has no last login, and both timestamps are now. Reading it back gives the returned user. |
| UserService.CreateUserFromMirrorsRow | server/src/main/kotlin/org/example/project/db/UserService.kt:99-121 | The legacy overload writes no lastLoginAt, so its returned user equals the stored row exactly when the input had no last login. |
| UserService.Patched | server/src/main/kotlin/org/example/project/db/UserService.kt:150-163 | An update keeps each field the patch leaves null, and keeps the password when the patch's is blank. Status and role are overwritten, updatedAt becomes now, and username, createdAt and lastLoginAt are kept. |
| UserService.EmptyPatchKeepsProfile | server/src/main/kotlin/org/example/project/db/UserService.kt:150-163 | A patch with only nulls and a blank password changes only status, role and updatedAt. |
| UserService.UpdateUser | server/src/main/kotlin/org/example/project/db/UserService.kt:150-163 | Null comes back exactly for an unknown id, which changes nothing. Otherwise only that row changes, and the result is the row as stored. |
| UserService.UpdateLastLogin | server/src/main/kotlin/org/example/project/db/UserService.kt:169-175 | Only that row's lastLoginAt and updatedAt change, both to the same instant. |
| UserService.DeleteUser | server/src/main/kotlin/org/example/project/db/UserService.kt:182-191 | A hard delete removes the row. A soft delete keeps it as BANNED with updatedAt now. No other row changes. |
| UserService.SoftDeleteKeepsRow | server/src/main/kotlin/org/example/project/db/UserService.kt:182-191 | After a soft delete the user is still found, banned. After a hard delete it is not found. |
| UserService.WritesKeepUniqueKeys | server/src/main/kotlin/org/example/project/db/user/User.kt:73-76 | Recording a login and deleting keep usernames and emails unique. |
| UserService.ToUserResponse | server/src/main/kotlin/org/example/project/db/UserService.kt:128-142 | The response copies each of the user's fields but the password into the field of the same name: id, username, email, nickname, avatar, phone, status, role and the three timestamps. |
| UserService.ResponseForgetsOnlyPassword | server/src/main/kotlin/org/example/project/db/UserService.kt:128-142 | Two users give the same response exactly when they differ at most in the password. |
| UserRoutes.GetUsers | server/src/main/kotlin/org/example/project/routes/UserRoutes.kt:20-24 | GET answers 200 with "成功" and the response of every user, in listing order. |
| UserRoutes.GetListsEveryUserOnce | server/src/main/kotlin/org/example/project/routes/UserRoutes.kt:20-24 | The GET listing has every user exactly once. |
| UserRoutes.PostUser | server/src/main/kotlin/org/example/project/routes/UserRoutes.kt:28-74 | POST answers 201, 400 or 409, with the status repeated in the body. Anything but 201 leaves the table unchanged and carries no data. A 201 adds exactly one row. |
| UserRoutes.PostDecision | server/src/main/kotlin/org/example/project/routes/UserRoutes.kt:31-66 | 400 with the validation message exactly when validation fails. 409 "用户名已存在" exactly when valid and the username is taken. 409 "邮箱已被注册" exactly when valid, the username is free, and the email is taken. 201 otherwise. |
| UserRoutes.PostCreatesOneUser | server/src/main/kotlin/org/example/project/routes/UserRoutes.kt:63-73 | A 201 stores the request's password unchanged as the "hash", marks the user INACTIVE, and answers "创建成功" with the stored user's response. |
| UserRoutes.PostKeepsUniqueKeys | server/src/main/kotlin/org/example/project/routes/UserRoutes.kt:41-61 | The POST checks keep usernames and emails unique in the table. |
| AppRun.GetAppRunInfo | server/src/main/kotlin/org/example/project/db/apprun/AppRunService.kt:10-18 | The lookup returns only rows with that app name and date, and no more rows than there are listed keys. |
| AppRun.GetAppRunInfoSelectsTable | server/src/main/kotlin/org/example/project/db/apprun/AppRunService.kt:10-18 | Over a listing of the whole table, a record is returned exactly when it is in the table and matches the app name and date, and none is returned twice. |
| AppRun.GetAppRunInfoExact | server/src/main/kotlin/org/example/project/db/apprun/AppRunService.kt:10-18 | A row is returned exactly when it is the row of some key listed in `order` and matches the app name and date. |
| AppRun.NewRun | server/src/main/kotlin/org/example/project/db/apprun/AppRunService.kt:20-26 | A new run has the app name, today's date, startup and finish times both now, and every other column null. |
| AppRun.InsertedRunIsFound | server/src/main/kotlin/org/example/project/db/apprun/AppRunService.kt:10-26 | After appRun, the lookup for that app and today returns the old matches followed by the new run. |
| AppRun.PaddedRoundTrip | server/src/main/kotlin/org/example/project/db/apprun/AppRunService.kt:28-40 | Zero-padded digits read back as the number. |
| AppRun.DateTextRoundTrip | server/src/main/kotlin/org/example/project/db/apprun/AppRunService.kt:28-40 | A four-digit-year date renders as yyyy-MM-dd and parses back to itself. |
| AppRun.ToInfoResponse | server/src/main/kotlin/org/example/project/db/apprun/AppRunService.kt:28-40 | Null maps to null. Otherwise name and balances are copied and the date is rendered. checkIn is true only when stored true, and a missing mainTaskCount becomes 0. |
| AppRun.NewRunResponse | server/src/main/kotlin/org/example/project/db/apprun/AppRunService.kt:20-40 | A fresh run's response has no balances, checkIn false and mainTaskCount 0. |
| ErrorHandling.AncestorsFollowParents | server/src/main/kotlin/org/example/project/util/ErrorHandler.kt:23-38 | The subclass relation used by the `when` is the JDK's parent chain. |
| ErrorHandling.KindIsNearestHandledAncestor | server/src/main/kotlin/org/example/project/util/ErrorHandler.kt:23-38 | An exception takes the first matching branch: each handled kind is chosen exactly for its subclasses, and everything else is internal. |
| ErrorHandling.SubclassInheritsKind | server/src/main/kotlin/org/example/project/util/ErrorHandler.kt:23-38 | A subclass of a handled class is handled the same way. |
| ErrorHandling.StatusOf | server/src/main/kotlin/org/example/project/util/ErrorHandler.kt:23-38 | IllegalArgument and IllegalState map to 400, NoSuchElement to 404, Security to 403, UnsupportedOperation to 501, and anything else to 500. |
| ErrorHandling.Respond | server/src/main/kotlin/org/example/project/util/ErrorHandler.kt:23-47 | The body repeats the status, has no data, and carries the prefix plus the message ("null" when there is none). An internal error in production shows only the fixed text. |
| ErrorHandling.ProductionHidesMessage | server/src/main/kotlin/org/example/project/util/ErrorHandler.kt:29-36 | In production, any two internal errors give identical responses. |
| ErrorHandling.MessageIsShown | server/src/main/kotlin/org/example/project/util/ErrorHandler.kt:23-47 | Outside that case, different messages give different responses. |
| ErrorHandling.StatusPage | server/src/main/kotlin/org/example/project/util/ErrorHandler.kt:51-71 | Only 404 and 405 have a status page, each with its own fixed message. |
| ErrorHandling.ErrorRepliesReadAsFailures | server/src/main/kotlin/org/example/project/util/ErrorHandler.kt:23-71 | Every error reply, for an uncaught exception or a bare 404/405, is a failure on the client (isCodeSuccess() is false) with a non-empty getMessage(). |
| DatabaseFactory.VarcharMatchIsCharMatch | server/src/main/kotlin/org/example/project/db/DatabaseFactory.kt:53-58 | A VARCHAR column matches exactly when its type name contains CHAR. |
| DatabaseFactory.ExistingColumnsLookup | server/src/main/kotlin/org/example/project/db/DatabaseFactory.kt:38-42 | A folded name is present exactly when some column has it, and the last such column's upper-cased type wins. |
| DatabaseFactory.CompatibleIffAllRequired | server/src/main/kotlin/org/example/project/db/DatabaseFactory.kt:22-67 | A table is compatible exactly when each of the seven required columns is present with a matching type. |
| DatabaseFactory.MissingColumnIncompatible | server/src/main/kotlin/org/example/project/db/DatabaseFactory.kt:46-50 | A missing required column makes the table incompatible. |
| DatabaseFactory.ExtraColumnIrrelevant | server/src/main/kotlin/org/example/project/db/DatabaseFactory.kt:22-67 | A column with a name that is not required never changes the verdict. |
| DatabaseFactory.CaseInsensitive | server/src/main/kotlin/org/example/project/db/DatabaseFactory.kt:38-42 | Column names and types are compared without regard to ASCII case. |
| DatabaseFactory.InitAsWritten | server/src/main/kotlin/org/example/project/db/DatabaseFactory.kt:80-190 | As written, init never lets the "migration required" exception escape. |
| DatabaseFactory.IncompatibleTableSilentlyAccepted | server/src/main/kotlin/org/example/project/db/DatabaseFactory.kt:158-185 | For an incompatible table whose update fails once, the inner branch raises "migration required". The as-written init swallows it, succeeds on the retry, and reports nothing. |
| DatabaseFactory.Init | server/src/main/kotlin/org/example/project/db/DatabaseFactory.kt:124-175 | Corrected init: "migration required" is raised exactly for an existing, kept, incompatible table whose update fails. Only a requested drop drops. |
| DatabaseFactory.InitBranchSelection | server/src/main/kotlin/org/example/project/db/DatabaseFactory.kt:124-175 | A missing table is created, a drop request drops first, and a kept table is only updated incrementally. With working statements nothing is raised. |
| BaseViewModel.Trigger | composeApp/src/commonMain/kotlin/org/example/project/common/BaseViewModel.kt:26-41 | A refresh raises the flag, and a plain load shows Loading first. Afterwards the flag is always down. An Exception becomes the error state. Any other throwable escapes and leaves the page in whatever state the loader set before throwing. |
| BaseViewModel.TriggerAlwaysSettles | composeApp/src/commonMain/kotlin/org/example/project/common/BaseViewModel.kt:26-41 | A refresh or a retry never leaves Loading behind unless the loader set it, whether it returned or threw a non-Exception. |
| BaseViewModel.PullRefresh | composeApp/src/commonMain/kotlin/org/example/project/common/BaseViewModel.kt:83-85 | Pull to refresh keeps the shown state and raises the flag. |
| BaseViewModel.MultiStateRetry | composeApp/src/commonMain/kotlin/org/example/project/common/BaseViewModel.kt:87-89 | Retry shows Loading while it reloads. |
| BaseViewModel.OnCommonRequestFail | composeApp/src/commonMain/kotlin/org/example/project/common/BaseViewModel.kt:76-81 | The failure is logged. Only a multi-state page shows it as the error state. |
| BaseViewModel.HandleRequestFail | composeApp/src/commonMain/kotlin/org/example/project/common/BaseViewModel.kt:64-74 | A supplied onFail replaces the common handling. |
| BaseViewModel.HandleResultSpec | composeApp/src/commonMain/kotlin/org/example/project/common/BaseViewModel.kt:43-62 | Exactly one callback runs. onSuccess runs, with the possibly-null data, exactly for a 2xx response. The failure otherwise goes to onFail, or to the logger and the error state. |
| BaseViewModel.ResponseFail | shared/src/commonMain/kotlin/org/example/project/network/exception/ResponseFailException.kt:5-6 | The exception is a new object carrying the response's code and getMessage(). |
| BaseViewModel.SameFailedResponseFadesAgain | composeApp/src/commonMain/kotlin/org/example/project/common/BaseViewModel.kt:43-62 | Handling the same failing response twice on a multi-state page gives two different error states, since each wraps a new exception object, and the layout fades between them. |
| CommonPager.RefreshLoadsFirstPage | composeApp/src/commonMain/kotlin/org/example/project/common/paging/CommonPager.kt:16-37 | A refresh loads exactly what an explicit load of the start index loads, and any page it returns has no previous key. |
| CommonPager.Load | composeApp/src/commonMain/kotlin/org/example/project/common/paging/CommonPager.kt:24-37 | An Exception becomes LoadResult.Error, and any other throwable escapes load. A page at index i has prevKey i−1, or none at the start index, and nextKey i+1, or none when the page is empty. |
| CommonPager.WalkVisitsConsecutiveIndexes | composeApp/src/commonMain/kotlin/org/example/project/common/paging/CommonPager.kt:24-37 | Following nextKey from the first load visits startIndex, startIndex+1, … in turn, each page pointing back to the previous index. |
| CommonPager.EmptyPageIsLast | composeApp/src/commonMain/kotlin/org/example/project/common/paging/CommonPager.kt:31-32 | An empty page ends the paging. |
| MultiStateLayout.GetMultiStateTransition | composeApp/src/commonMain/kotlin/org/example/project/multiplestate/MultiStateLayout.kt:120-145 | Content entering scales in from 0.8, content leaving scales out to 0.8, and every other change fades. Each case holds exactly when its condition does. |
| MultiStateLayout.TransitionMirrors | composeApp/src/commonMain/kotlin/org/example/project/multiplestate/MultiStateLayout.kt:120-145 | Reversing a change picks the mirror transition, with its scales swapped. |
| MultiStateLayout.StateContainer | composeApp/src/commonMain/kotlin/org/example/project/multiplestate/MultiStateLayout.kt:147-172 | Error and Offline get the retry callback, and the error slot gets the state's throwable. |
| MultiStateLayout.SlotShowsItsState | composeApp/src/commonMain/kotlin/org/example/project/multiplestate/MultiStateLayout.kt:163-170 | Each state is shown by its own slot: the slot determines the state. |
| MultiStateLayout.Layout | composeApp/src/commonMain/kotlin/org/example/project/multiplestate/MultiStateLayout.kt:61-110 | The slot is always the state's own. A transition is used exactly when animation is enabled and the state changed, and it is the one chosen for that change. Error states differ whenever their throwables are different objects. |
| MultiStateLayout.RepeatedFailureFades | composeApp/src/commonMain/kotlin/org/example/project/multiplestate/MultiStateLayout.kt:39-83 | An error page replaced by an error with another throwable object fades, even when code and message agree; the same object again runs no transition. |
| RouterRegistry.Register | composeApp/src/commonMain/kotlin/org/example/project/navigation/RouterRegistry.kt:12-15 | After registering, the route resolves to the new handler and every other route is unchanged. |
| RouterRegistry.GetHandler | composeApp/src/commonMain/kotlin/org/example/project/navigation/RouterRegistry.kt:27-30 | A handler comes back exactly for a registered route. |
| RouterRegistry.RegisterAllLastWins | composeApp/src/commonMain/kotlin/org/example/project/navigation/RouterRegistry.kt:17-19 | After registerAll, each route has its last handler in the list. A route not in the list keeps what it had. |
| RouterRegistry.RegisterAllRoutes | composeApp/src/commonMain/kotlin/org/example/project/navigation/RouterRegistry.kt:17-38 | The routes after registerAll are the old routes plus the listed ones. |
| RouterRegistry.GetAllRoutes | composeApp/src/commonMain/kotlin/org/example/project/navigation/RouterRegistry.kt:36-38 | Exactly the registered routes. |
| AppNavigation.ComputeState | composeApp/src/commonMain/kotlin/org/example/project/navigation/AppNavigation.kt:137-153 | With Home active, back is offered exactly when the stack has more than one screen. With Detail active, back is offered and the state carries its title and message. |
| AppNavigation.Initial | composeApp/src/commonMain/kotlin/org/example/project/navigation/AppNavigation.kt:85-104 | The start is a lone Home screen, without back. |
| AppNavigation.OpenDetail | composeApp/src/commonMain/kotlin/org/example/project/navigation/AppNavigation.kt:106-108 | The detail screen is pushed on top of the unchanged stack and becomes the active state. |
| AppNavigation.NavigateBack | composeApp/src/commonMain/kotlin/org/example/project/navigation/AppNavigation.kt:110-112 | The top screen is popped, and the state is recomputed. |
| AppNavigation.OpenThenBackRestores | composeApp/src/commonMain/kotlin/org/example/project/navigation/AppNavigation.kt:106-112 | Opening a detail and going back restores the stack and the state. |
| AppNavigation.CanNavigateBackIffPoppable | composeApp/src/commonMain/kotlin/org/example/project/navigation/AppNavigation.kt:137-153 | On stacks with Home at the bottom, back is offered exactly when there is something to pop. |
| WebHistory.PushState | composeApp/src/webMain/kotlin/org/example/project/navigation/AppRoot.web.kt:27-31 | A push drops the forward entries and appends the new one, which becomes current. |
| WebHistory.ReplaceState | composeApp/src/webMain/kotlin/org/example/project/navigation/AppRoot.web.kt:32-37 | A replace overwrites only the current entry, and the length is unchanged. |
| WebHistory.OnEmission | composeApp/src/webMain/kotlin/org/example/project/navigation/AppRoot.web.kt:22-40 | An unchanged size changes nothing. A larger stack pushes the active route's URL, and a smaller one replaces with it. The new size is remembered. |
| WebHistory.WritesDropQuery | composeApp/src/webMain/kotlin/org/example/project/navigation/AppRoot.web.kt:30-57 | Every URL the effect writes, at start, on a push or replace, or from popstate, is the current path plus the route as fragment, with no query string: `location.pathname` leaves `?search` out. |
| WebHistory.Start | composeApp/src/webMain/kotlin/org/example/project/navigation/AppRoot.web.kt:43-47 | At start, the URL is replaced with the active route's only when the hash differs. |
| WebHistory.OnPopState | composeApp/src/webMain/kotlin/org/example/project/navigation/AppRoot.web.kt:50-60 | popstate rewrites the URL exactly when its hash, without the '#', is not the active route. |
| WebHistory.PopStateMatchesActiveRoute | composeApp/src/webMain/kotlin/org/example/project/navigation/AppRoot.web.kt:50-60 | After popstate, the hash names the active route. |
| WebHistory.RunTracksSizeAndKeepsPath | composeApp/src/webMain/kotlin/org/example/project/navigation/AppRoot.web.kt:22-40 | Over any run of emissions, the remembered size is the last one emitted, and the path part of the URL never changes. |
| WebHistory.PushThenPop | composeApp/src/webMain/kotlin/org/example/project/navigation/AppRoot.web.kt:26-38 | Opening a page and going back through the stack leaves one entry more than before the push: the entries up to the starting one are kept, and the current, last entry names the returned-to route. No forward entry remains. |
| WebHistory.BrowserBackNeedsNoRewrite | composeApp/src/webMain/kotlin/org/example/project/navigation/AppRoot.web.kt:26-60 | After opening a page, the browser's back returns to the entry the push left, and once the stack is back on the starting route popstate leaves the history unchanged. |
| DoubleBack.Enabled | composeApp/src/commonMain/kotlin/org/example/project/common/backhandler/BlockBackHandler.kt:24-31 | Interception is on exactly while the main-page route is in the current destination's hierarchy. |
| DoubleBack.OnBackPressed | composeApp/src/androidMain/kotlin/org/example/project/common/backhandler/BlockBackHandler.android.kt:15-44 | Disabled presses are not intercepted and change nothing. A press at most 2000 ms after the recorded one exits and clears. A later press re-records and hints. With no record, the press records, hints and schedules the reset. |
| DoubleBack.ExitIffWithinWindow | composeApp/src/androidMain/kotlin/org/example/project/common/backhandler/BlockBackHandler.android.kt:28-32 | A press exits exactly when it is enabled, in an activity, with a record at most 2000 ms old. |
| DoubleBack.OnlyFreshPressSchedules | composeApp/src/androidMain/kotlin/org/example/project/common/backhandler/BlockBackHandler.android.kt:33-42 | Only a press with no record schedules the reset. An enabled press clears the record exactly when it exits. |
| DoubleBack.TwoPresses | composeApp/src/androidMain/kotlin/org/example/project/common/backhandler/BlockBackHandler.android.kt:30 | Two presses exit exactly when the gap is at most 2000 ms. A gap of exactly 2000 ms exits. |
| DoubleBack.ResetStartsOver | composeApp/src/androidMain/kotlin/org/example/project/common/backhandler/BlockBackHandler.android.kt:37-42 | After the reset fires, the next press starts over and does not exit. |
| Logging.Emit | kmplog/src/commonMain/kotlin/com/jdcr/kmplog/KLog.kt:16-41 | A record is built exactly when the level's priority reaches the minimum. It copies level, tag, message, throwable and context, with the clock's time, and goes to the sinks. |
| Logging.WriteAll | kmplog/src/commonMain/kotlin/com/jdcr/kmplog/base/LogManager.kt:35-39 | Every sink is attempted once, in order. The successful writes are those of the non-throwing sinks. |
| Logging.DeliverAppend | kmplog/src/commonMain/kotlin/com/jdcr/kmplog/base/LogManager.kt:35-39 | Delivery to a list is delivery to its parts in turn. |
| Logging.ThrowingSinkIsSkipped | kmplog/src/commonMain/kotlin/com/jdcr/kmplog/KLog.kt:35-39 | A throwing sink neither stops the later sinks nor makes emit fail. |
| Logging.AllHealthyAllWritten | kmplog/src/commonMain/kotlin/com/jdcr/kmplog/KLog.kt:35-39 | When no sink throws, sink i receives the i-th write. |
| Logging.WrittenIffHealthy | kmplog/src/commonMain/kotlin/com/jdcr/kmplog/base/LogManager.kt:35-39 | With distinct sink ids, a sink receives the record exactly when it does not throw. |
| Logging.FilterMonotone | kmplog/src/commonMain/kotlin/com/jdcr/kmplog/KLog.kt:24 | Lowering the minimum never suppresses a record that got through. |
| Logging.Log | kmplog/src/commonMain/kotlin/com/jdcr/kmplog/KLog.kt:43-77 | The shorthand calls emit at their level and drop the throwable and the context. |

## Left out

- I/O of every kind is left out: Ktor routing, JSON, JDBC, Hikari and Exposed SQL, MySQL's own unique-index enforcement, browser DOM calls, Toasts and Android activities. Each is replaced by a value or by a returned action.
- Animations (`animateFloatAsState`, `AnimatedContent`, the tweens) are left out. They are collapsed to their end value and their duration.
- Coroutines, `@Volatile` and concurrency are left out. Each launched coroutine runs as one atomic step.
- PullRefresh.DampingOk: the curve `0.7·(1−p)^1.5` is not computed, because real powers are not available. Only its range and monotonicity are assumed, as a precondition on the configuration.
- Pixel density conversion of thresholds, and `Float` rounding, are left out. Distances are reals.
- PullRefresh.OnPreFling: the returned velocity is not modelled, only the state change.
- `registerAllFromMap` and the route table it reads are not part of this model.
- `createCommonPager`'s `PagingConfig` values are not modelled. They are library configuration, not logic.
- UserService.CreateUser: the database assigns the id. Here it is a parameter required to be unused, and VARCHAR length limits are not checked.
- UserService.GetUserByUsername: rows are not required to be unique by username. A lookup that matches several rows returns none, as `singleOrNull` does.
- Timestamps are left out as text. `Instant`/`LocalDateTime` are integers; only `runDate`'s `LocalDate` text is rendered.
- AppRun.DateTextRoundTrip: proved only for years 0..9999. Other years get a sign, as in ISO 8601. Calendar validity is not checked beyond month and day ranges.
- UserValidation.Utf16Len: lengths are UTF-16 code units, each character outside the Basic Multilingual Plane counting two. A Dafny character is a Unicode scalar value, so strings holding an unpaired surrogate, which Kotlin allows, are not modelled.
- DatabaseFactory.CaseInsensitive: only ASCII case folding is modelled. Kotlin's `lowercase()`/`uppercase()` fold all of Unicode.
- The logging of `DatabaseFactory`, `BaseViewModel` (KSLog), `ErrorHandler`, `RouterRegistry.register` (`KSLog.iRouter`) and `MultiStateLayout` (`KSLog.iMultiState`) is left out.
- The platform `performLog`, the kmplog platform actuals and `Logger.kt` are left out. `LogConfig.defaultCOntext` is carried but never read, as in the source.
- WebHistory.Start: an empty route is always rewritten at start, because its hash is "" and never "#". The URL percent-encoding of fragments is not modelled.
- The web history effect's disposal (listener removal) is left out.
- DoubleBack.OnBackPressed: it is decided per press from the current record. A reset scheduled by an earlier press is modelled by the helper `OnResetTimeoutFires`, not by a timer queue.
- AppNavigation.NavigateBack: popping a one-element stack is Decompose's behaviour, so the model requires a second screen.
- iOS, desktop and web lifecycle owners, WebView wrappers, settings and status-bar shims, and every composable page are left out.

## Notes on the source

- `MultiStateLayoutState.Error` takes a non-null `Throwable`, but `BaseViewModel.showMultiStateError` passes a nullable one. The model gives the error state an optional throwable.
- `isTableStructureCompatible` lists VARCHAR with a check for "VARCHAR" or "CHAR". Any type containing VARCHAR contains CHAR, so the check reduces to CHAR (`VarcharMatchIsCharMatch`). The `else` branch of the type check is never reached for the seven required columns.
- `UserResponse.updatedAt` is non-null while `User.updatedAt` is nullable. The model keeps the user's optional value.
- `onRefresh` is called after the indicator is pinned and `isRefreshing` is set. The maximum drag may equal the threshold.
- The POST handler stores `request.password` as the "hash" (`UserRoutes.kt:63-64`). The model keeps this.

## Findings

| source | as written | input that shows it | evidently intended | confidence | as-written member | corrected member |
|---|---|---|---|---|---|---|
| composeApp/src/commonMain/kotlin/org/example/project/pullrefresh/PullRefreshState.kt:60-66 | `onPreScroll` returns the retracted drag as a positive `y` while `available.y` is negative. | threshold 80, maxDrag 140, dragDistance 30, available.y −10: it returns +30, so the child is offered −10 − 30 = −40. | The consumed amount has the sign of `available` and is no larger than it, so the child never gets more than the finger moved. | not executed | PullRefresh.OnPreScrollAsWritten, PullRefresh.PreScrollAsWrittenOverscrolls | PullRefresh.OnPreScroll, PullRefresh.PreScrollNeverOverscrolls |
| server/src/main/kotlin/org/example/project/db/DatabaseFactory.kt:158-185 | The `IllegalStateException` thrown for an incompatible table whose incremental update failed is caught by the enclosing `catch (e: Exception)`, which runs the same update again. | Existing table, dropExistingTable false, incompatible, first update fails and the retry succeeds: init returns normally. | The "use a migration tool" exception reaches the caller. | not executed | DatabaseFactory.InitAsWritten, DatabaseFactory.IncompatibleTableSilentlyAccepted | DatabaseFactory.Init, DatabaseFactory.InitBranchSelection |

=== FILE: app_navigation.dfy ===
/**
 * `DecomposeAppNavigation`: the screen stack (bottom first) and the `State`
 * the UI reads, which the stack subscription keeps equal to `computeState` of
 * the current stack. Popping the last screen is Decompose's business, so
 * `navigateBack` requires a second screen.
 */
module AppNavigation {
  /** The stack configurations. */
  datatype Screen = Home | Detail(title: string, message: string)

  /** `State.ScreenState`. */
  datatype ScreenState = HomeState | DetailState(title: string, message: string)

  /** `AppNavigation.State`. */
  datatype State = State(canNavigateBack: bool, activeScreen: ScreenState)

  /** The navigation: the stack and the state last computed from it. */
  datatype Nav = Nav(stack: seq<Screen>, state: State)

  /** `computeState`: derived from the active (top) screen. */
  function ComputeState(stack: seq<Screen>): (s: State)
    requires |stack| > 0
    ensures stack[|stack| - 1].Home? ==> s == State(|stack| > 1, HomeState)
    ensures stack[|stack| - 1].Detail? ==>
      s == State(true, DetailState(stack[|stack| - 1].title, stack[|stack| - 1].message))
  {
    match stack[|stack| - 1]
    case Home => State(|stack| > 1, HomeState)
    case Detail(title, message) => State(true, DetailState(title, message))
  }

  /** The state is the one computed from the stack. */
  ghost predicate Valid(nav: Nav) {
    |nav.stack| > 0 && nav.state == ComputeState(nav.stack)
  }

  /** The initial configuration is a lone Home screen. */
  function Initial(): (nav: Nav)
    ensures Valid(nav) && nav.stack == [Home]
    ensures !nav.state.canNavigateBack && nav.state.activeScreen == HomeState
  {
    Nav([Home], ComputeState([Home]))
  }

  /** `openDetail(title, message)`: push a Detail screen. */
  function OpenDetail(nav: Nav, title: string, message: string): (nav': Nav)
    requires Valid(nav)
    ensures Valid(nav')
    ensures |nav'.stack| == |nav.stack| + 1 && nav'.stack[..|nav.stack|] == nav.stack
    ensures nav'.state == State(true, DetailState(title, message))
  {
    var stack := nav.stack + [Detail(title, message)];
    Nav(stack, ComputeState(stack))
  }

  /** `navigateBack()`: pop the top screen. */
  function NavigateBack(nav: Nav): (nav': Nav)
    requires Valid(nav) && |nav.stack| > 1
    ensures Valid(nav')
    ensures nav'.stack == nav.stack[..|nav.stack| - 1]
  {
    var stack := nav.stack[..|nav.stack| - 1];
    Nav(stack, ComputeState(stack))
  }

  /** Opening a detail and going back restores the stack and the state. */
  lemma OpenThenBackRestores(nav: Nav, title: string, message: string)
    requires Valid(nav)
    ensures NavigateBack(OpenDetail(nav, title, message)) == nav
  {
    assert (nav.stack + [Detail(title, message)])[..|nav.stack|] == nav.stack;
  }

  /** Stacks reached from the initial one by these operations keep Home at the bottom. */
  ghost predicate Reachable(nav: Nav) {
    Valid(nav) && nav.stack[0] == Home
  }

  lemma OperationsKeepHomeAtBottom(nav: Nav, title: string, message: string)
    requires Reachable(nav)
    ensures Reachable(OpenDetail(nav, title, message))
    ensures |nav.stack| > 1 ==> Reachable(NavigateBack(nav))
  {
  }

  /** On such stacks the back button is offered exactly when there is something to pop. */
  lemma CanNavigateBackIffPoppable(nav: Nav)
    requires Reachable(nav)
    ensures nav.state.canNavigateBack <==> |nav.stack| > 1
  {
  }
}

=== FILE: app_run.dfy ===
/**
 * `AppRunService` over the `app_run` table: the lookup by app name and run
 * date, the insert of a new run, and the conversion to `AppRunInfoResponse`
 * with `LocalDate.toString()` rendering the run date as ISO-8601 text.
 */
module AppRun {
  import opened Wrappers

  type Instant = int

  /** A `java.time.LocalDate`; only the field ranges are constrained, not the calendar. */
  datatype Date = Date(year: int, month: int, day: int)

  predicate DateOk(d: Date) {
    1 <= d.month <= 12 && 1 <= d.day <= 31
  }

  /** The `AppRunInfo` record: one row of `app_run`. */
  datatype AppRunInfo = AppRunInfo(
    id: int,
    appName: string,
    runDate: Date,
    startBalance: Option<string>,
    endBalance: Option<string>,
    checkIn: Option<bool>,
    startupTime: Instant,
    finishTime: Option<Instant>,
    mainTaskCount: Option<int>,
    branchTaskCount: Option<int>,
    runDuration: Option<int>)

  /** The `AppRunInfoResponse` DTO. */
  datatype AppRunInfoResponse = AppRunInfoResponse(
    appName: string,
    runDate: string,
    startBalance: Option<string>,
    endBalance: Option<string>,
    checkIn: bool,
    mainTaskCount: int)

  type Table = map<int, AppRunInfo>

  /** Rows are stored under their own id. */
  ghost predicate WellKeyed(t: Table) {
    forall k | k in t :: t[k].id == k
  }

  // ---------------------------------------------------------------------------
  // Queries and inserts

  predicate Matches(info: AppRunInfo, appName: string, date: Date) {
    info.appName == appName && info.runDate == date
  }

  /**
   * `getAppRunInfo(appName, date)`: the rows whose app name and run date both
   * match, in the order the database lists them (`order`, a list of keys).
   */
  function GetAppRunInfo(t: Table, order: seq<int>, appName: string, date: Date): (r: seq<AppRunInfo>)
    requires forall i | 0 <= i < |order| :: order[i] in t
    ensures |r| <= |order|
    ensures forall x | x in r :: Matches(x, appName, date)
  {
    if |order| == 0 then []
    else
      var front := GetAppRunInfo(t, order[..|order| - 1], appName, date);
      var row := t[order[|order| - 1]];
      if Matches(row, appName, date) then front + [row] else front
  }

  /** A row is returned exactly when it is listed and matches both keys. */
  lemma {:induction false} GetAppRunInfoExact(t: Table, order: seq<int>, appName: string, date: Date, x: AppRunInfo)
    requires forall i | 0 <= i < |order| :: order[i] in t
    ensures x in GetAppRunInfo(t, order, appName, date) <==>
      Matches(x, appName, date) && exists i :: 0 <= i < |order| && t[order[i]] == x
  {
    if |order| > 0 {
      var front := order[..|order| - 1];
      GetAppRunInfoExact(t, front, appName, date, x);
      if exists i :: 0 <= i < |order| && t[order[i]] == x {
        var i :| 0 <= i < |order| && t[order[i]] == x;
        if i < |order| - 1 {
          assert t[front[i]] == x;
        }
      }
      if exists i :: 0 <= i < |front| && t[front[i]] == x {
        var i :| 0 <= i < |front| && t[front[i]] == x;
        assert t[order[i]] == x;
      }
    }
  }

  /**
   * Over a listing of the whole table, the lookup selects each matching row of
   * the table, and nothing else, exactly once.
   */
  lemma GetAppRunInfoSelectsTable(t: Table, order: seq<int>, appName: string, date: Date)
    requires IsListing(t, order) && WellKeyed(t)
    ensures forall i | 0 <= i < |order| :: order[i] in t
    ensures var r := GetAppRunInfo(t, order, appName, date);
      forall x :: x in r <==> x in t.Values && Matches(x, appName, date)
    ensures NoRepeats(GetAppRunInfo(t, order, appName, date))
  {
    assert forall i | 0 <= i < |order| :: order[i] in t;
    var r := GetAppRunInfo(t, order, appName, date);
    forall x
      ensures x in r <==> x in t.Values && Matches(x, appName, date)
    {
      GetAppRunInfoExact(t, order, appName, date, x);
      if x in t.Values {
        var k :| k in t && t[k] == x;
        assert k in order;
        var i :| 0 <= i < |order| && order[i] == k;
        assert t[order[i]] == x;
      }
    }
    LookupHasNoRepeats(t, order, appName, date);
  }

  /** No record appears twice in the list. */
  predicate NoRepeats(r: seq<AppRunInfo>) {
    forall i, j | 0 <= i < j < |r| :: r[i] != r[j]
  }

  /** Rows listed under distinct keys are distinct rows, so the lookup repeats none. */
  lemma {:induction false} LookupHasNoRepeats(t: Table, order: seq<int>, appName: string, date: Date)
    requires forall i | 0 <= i < |order| :: order[i] in t
    requires forall i, j | 0 <= i < j < |order| :: order[i] != order[j]
    requires WellKeyed(t)
    ensures NoRepeats(GetAppRunInfo(t, order, appName, date))
  {
    if |order| > 0 {
      var front := order[..|order| - 1];
      var last := order[|order| - 1];
      LookupHasNoRepeats(t, front, appName, date);
      var before := GetAppRunInfo(t, front, appName, date);
      forall x | x in before
        ensures x.id != last
      {
        GetAppRunInfoExact(t, front, appName, date, x);
        var i :| 0 <= i < |front| && t[front[i]] == x;
        assert front[i] == order[i];
      }
      var row := t[last];
      assert row.id == last;
      if Matches(row, appName, date) {
        var r := before + [row];
        assert GetAppRunInfo(t, order, appName, date) == r;
        assert NoRepeats(before);
        forall i, j | 0 <= i < j < |r|
          ensures r[i] != r[j]
        {
          if j == |before| {
            assert r[i] == before[i] && r[j] == row;
            assert before[i] in before;
          } else {
            assert r[i] == before[i] && r[j] == before[j];
          }
        }
      }
    }
  }

  /** The row `appRun(appName)` inserts: today's date, started and finished now, every optional column null. */
  function NewRun(id: int, appName: string, today: Date, now: Instant): (r: AppRunInfo)
    ensures r.id == id && Matches(r, appName, today)
    ensures r.startupTime == now && r.finishTime == Some(now)
    ensures r.startBalance.None? && r.endBalance.None? && r.checkIn.None?
    ensures r.mainTaskCount.None? && r.branchTaskCount.None? && r.runDuration.None?
  {
    AppRunInfo(id, appName, today, None, None, None, now, Some(now), None, None, None)
  }

  /** `appRun(appName)`: insert a new run under a fresh id; no other row changes. */
  function AppRunInsert(t: Table, appName: string, today: Date, now: Instant, freshId: int): (t': Table)
    requires freshId !in t
    ensures t'.Keys == t.Keys + {freshId}
    ensures forall k | k in t :: t'[k] == t[k]
    ensures WellKeyed(t) ==> WellKeyed(t')
  {
    t[freshId := NewRun(freshId, appName, today, now)]
  }

  /** A run recorded today is the last entry of today's lookup for that app, after the runs already there. */
  lemma InsertedRunIsFound(t: Table, order: seq<int>, appName: string, today: Date, now: Instant, freshId: int)
    requires freshId !in t
    requires forall i | 0 <= i < |order| :: order[i] in t
    ensures var t' := AppRunInsert(t, appName, today, now, freshId);
      GetAppRunInfo(t', order + [freshId], appName, today) ==
      GetAppRunInfo(t, order, appName, today) + [NewRun(freshId, appName, today, now)]
  {
    var t' := AppRunInsert(t, appName, today, now, freshId);
    assert (order + [freshId])[..|order|] == order;
    UnchangedRowsSameLookup(t, t', order, appName, today);
  }

  /** The lookup only reads the listed rows. */
  lemma {:induction false} UnchangedRowsSameLookup(t: Table, t': Table, order: seq<int>, appName: string, date: Date)
    requires forall i | 0 <= i < |order| :: order[i] in t && order[i] in t' && t'[order[i]] == t[order[i]]
    ensures GetAppRunInfo(t', order, appName, date) == GetAppRunInfo(t, order, appName, date)
  {
    if |order| > 0 {
      UnchangedRowsSameLookup(t, t', order[..|order| - 1], appName, date);
    }
  }

  // ---------------------------------------------------------------------------
  // Date rendering

  function Pow10(w: nat): (p: nat)
    ensures p >= 1
  {
    if w == 0 then 1 else 10 * Pow10(w - 1)
  }

  function DigitChar(d: nat): (c: char)
    requires d < 10
    ensures '0' <= c <= '9'
  {
    ('0' as int + d) as char
  }

  function DigitValue(c: char): (d: nat)
    requires '0' <= c <= '9'
    ensures d < 10
  {
    (c - '0') as nat
  }

  /** `n` written with exactly `w` decimal digits, zero-padded on the left. */
  function Padded(n: nat, w: nat): (s: string)
    requires n < Pow10(w)
    ensures |s| == w
    ensures forall i | 0 <= i < |s| :: '0' <= s[i] <= '9'
  {
    if w == 0 then ""
    else Padded(n / 10, w - 1) + [DigitChar(n % 10)]
  }

  /** The decimal number a string of digits denotes. */
  function ValueOf(s: string): nat
    requires forall i | 0 <= i < |s| :: '0' <= s[i] <= '9'
  {
    if |s| == 0 then 0
    else 10 * ValueOf(s[..|s| - 1]) + DigitValue(s[|s| - 1])
  }

  /** Reading back a padded number gives the number. */
  lemma {:induction false} PaddedRoundTrip(n: nat, w: nat)
    requires n < Pow10(w)
    ensures ValueOf(Padded(n, w)) == n
  {
    if w > 0 {
      var s := Padded(n, w);
      assert s[..|s| - 1] == Padded(n / 10, w - 1);
      PaddedRoundTrip(n / 10, w - 1);
      assert DigitValue(s[|s| - 1]) == n % 10;
      assert 10 * (n / 10) + n % 10 == n;
    }
  }

  /** Decimal digits of `n` without padding. */
  function Decimal(n: nat): (s: string)
    ensures |s| >= 1
    decreases n
  {
    if n < 10 then [DigitChar(n)] else Decimal(n / 10) + [DigitChar(n % 10)]
  }

  /**
   * The year as `LocalDate.toString()` writes it: zero-padded to four digits
   * when its magnitude is below 10000 (with a '-' before negative years), and
   * otherwise all its digits after a '+' or '-' sign.
   */
  function YearText(y: int): (s: string)
    ensures 0 <= y <= 9999 ==> s == Padded(y, 4)
    ensures y < 0 ==> |s| >= 2 && s[0] == '-'
    ensures y > 9999 ==> |s| >= 2 && s[0] == '+'
  {
    if 0 <= y <= 9999 then Padded(y, 4)
    else if -10000 < y < 0 then "-" + Padded(-y, 4)
    else if y > 9999 then "+" + Decimal(y)
    else "-" + Decimal(-y)
  }

  /** `LocalDate.toString()`: `yyyy-MM-dd`. */
  function DateText(d: Date): (s: string)
    requires DateOk(d)
    ensures 0 <= d.year <= 9999 ==> |s| == 10 && s[4] == '-' && s[7] == '-'
  {
    YearText(d.year) + "-" + Padded(d.month, 2) + "-" + Padded(d.day, 2)
  }

  /** Reading `yyyy-MM-dd` back: the inverse of `DateText` for years 0..9999. */
  function ParseDate(s: string): (d: Date)
    requires |s| == 10
    requires forall i | 0 <= i < 10 && i != 4 && i != 7 :: '0' <= s[i] <= '9'
  {
    Date(ValueOf(s[0..4]), ValueOf(s[5..7]), ValueOf(s[8..10]))
  }

  /** `DateText` loses nothing for four-digit years: distinct run dates give distinct strings. */
  lemma DateTextRoundTrip(d: Date)
    requires DateOk(d) && 0 <= d.year <= 9999
    ensures var s := DateText(d);
      (forall i | 0 <= i < 10 && i != 4 && i != 7 :: '0' <= s[i] <= '9') && ParseDate(s) == d
  {
    var y := Padded(d.year, 4);
    var m := Padded(d.month, 2);
    var dd := Padded(d.day, 2);
    var s := DateText(d);
    assert s == y + "-" + m + "-" + dd;
    assert s[0..4] == y;
    assert s[5..7] == m;
    assert s[8..10] == dd;
    PaddedRoundTrip(d.year, 4);
    PaddedRoundTrip(d.month, 2);
    PaddedRoundTrip(d.day, 2);
  }

  // ---------------------------------------------------------------------------
  // Responses

  /** `toInfoResponse`: null for null; absent check-in reads false and absent main-task count 0. */
  function ToInfoResponse(data: Option<AppRunInfo>): (r: Option<AppRunInfoResponse>)
    requires data.Some? ==> DateOk(data.value.runDate)
    ensures r.None? <==> data.None?
    ensures data.Some? ==> r.value.appName == data.value.appName
    ensures data.Some? ==> r.value.runDate == DateText(data.value.runDate)
    ensures data.Some? ==> r.value.startBalance == data.value.startBalance && r.value.endBalance == data.value.endBalance
    ensures data.Some? ==> (r.value.checkIn <==> data.value.checkIn == Some(true))
    ensures data.Some? && data.value.mainTaskCount.Some? ==> r.value.mainTaskCount == data.value.mainTaskCount.value
    ensures data.Some? && data.value.mainTaskCount.None? ==> r.value.mainTaskCount == 0
  {
    match data
    case None => None
    case Some(info) =>
      Some(AppRunInfoResponse(
        info.appName,
        DateText(info.runDate),
        info.startBalance,
        info.endBalance,
        info.checkIn.GetOr(false),
        info.mainTaskCount.GetOr(0)))
  }

  /** A freshly recorded run reports no check-in and no main tasks, under its app name and date. */
  lemma NewRunResponse(id: int, appName: string, today: Date, now: Instant)
    requires DateOk(today)
    ensures var r := ToInfoResponse(Some(NewRun(id, appName, today, now))).value;
      r == AppRunInfoResponse(appName, DateText(today), None, None, false, 0)
  {
  }
}

=== FILE: base_api_response.dfy ===
/** `BaseApiResponse`, the envelope every server reply and client request result uses. */
module ApiResponse {
  import opened Wrappers

  datatype BaseApiResponse<T> = BaseApiResponse(code: int, message: Option<string>, data: Option<T>) {

    /** `isCodeSuccess()`: the code is in 200..299. */
    predicate IsCodeSuccess() {
      200 <= code <= 299
    }

    /** `isSuccessTrue()`: a 2xx code that also carries data. */
    predicate IsSuccessTrue() {
      IsCodeSuccess() && data.Some?
    }

    /** `getMessage()`: the message, with null read as the empty string. */
    function GetMessage(): (m: string)
      ensures message.Some? ==> m == message.value
      ensures message.None? ==> m == ""
    {
      message.GetOr("")
    }
  }

  /** Success-true is code-success with data; a 2xx reply without data is not success-true. */
  lemma SuccessTrueIsStronger<T>(r: BaseApiResponse<T>)
    ensures r.IsSuccessTrue() ==> r.IsCodeSuccess()
    ensures r.IsSuccessTrue() <==> r.IsCodeSuccess() && r.data.Some?
    ensures r.IsCodeSuccess() && r.data.None? ==> !r.IsSuccessTrue()
  {
  }
}

=== FILE: base_view_model.dfy ===
/**
 * `BaseViewModel`: the page's `(multiState, isRefreshing)` pair, the load
 * trigger, and the classification of a request result into the success or
 * failure callbacks. Each launched coroutine runs as one step; what the
 * loader does is an input.
 */
module BaseViewModel {
  import opened Wrappers
  import opened ApiResponse
  import opened MultiStateLayout

  datatype VmState = VmState(multiState: MultiStateLayoutState, isRefreshing: bool)

  /** A new view model shows the loading state and is not refreshing. */
  const Initial: VmState := VmState(Loading, false)

  /**
   * What `loadStateContentData` did: returned, or threw. Either way
   * `multiState` is the state it left the page in (it may set the multi-state
   * itself, also before throwing).
   */
  datatype LoadOutcome =
    | Returned(multiState: MultiStateLayoutState)
    | Threw(e: Throwable, multiState: MultiStateLayoutState)

  /** The state while loading runs, and after the coroutine is done. */
  datatype TriggerSteps = TriggerSteps(during: VmState, after: VmState, escaped: Option<Throwable>)

  /** The state the loader starts from: a refresh raises the flag, a plain load shows Loading. */
  function BeforeLoad(s: VmState, isRefresh: bool): (r: VmState)
    ensures isRefresh ==> r.isRefreshing && r.multiState == s.multiState
    ensures !isRefresh ==> r.multiState == Loading && r.isRefreshing == s.isRefreshing
  {
    if isRefresh then s.(isRefreshing := true) else s.(multiState := Loading)
  }

  /**
   * `triggerLoadStateContentData(isRefresh)`. `outcome` is what the loader did
   * when started from `BeforeLoad`; an `Exception` becomes the error state, any
   * other throwable escapes and leaves what the loader set; the flag is cleared
   * either way.
   */
  function Trigger(s: VmState, isRefresh: bool, outcome: LoadOutcome): (r: TriggerSteps)
    ensures r.during == BeforeLoad(s, isRefresh)
    ensures !r.after.isRefreshing
    ensures outcome.Returned? ==> r.after.multiState == outcome.multiState && r.escaped.None?
    ensures outcome.Threw? && IsException(outcome.e) ==> r.after.multiState == Error(Some(outcome.e)) && r.escaped.None?
    ensures outcome.Threw? && !IsException(outcome.e) ==>
      r.after.multiState == outcome.multiState && r.escaped == Some(outcome.e)
  {
    var during := BeforeLoad(s, isRefresh);
    match outcome
    case Returned(m) => TriggerSteps(during, VmState(m, false), None)
    case Threw(e, m) =>
      if IsException(e) then TriggerSteps(during, VmState(Error(Some(e)), false), None)
      else TriggerSteps(during, VmState(m, false), Some(e))
  }

  /** `catch (e: Exception)`: the response failure is an `Exception`; other throwables say whether they are. */
  predicate IsException(e: Throwable) {
    match e
    case ResponseFailException(_, _, _) => true
    case OtherThrowable(_, _, isException) => isException
  }

  /** `pullRefresh` refreshes in place; `multiStateRetry` reloads through the Loading state. */
  function PullRefresh(s: VmState, outcome: LoadOutcome): (r: TriggerSteps)
    ensures r.during.isRefreshing && r.during.multiState == s.multiState
  {
    Trigger(s, true, outcome)
  }

  function MultiStateRetry(s: VmState, outcome: LoadOutcome): (r: TriggerSteps)
    ensures r.during.multiState == Loading
  {
    Trigger(s, false, outcome)
  }

  /** Whatever the loader does, a refresh or a retry ends with the flag down and no Loading left behind unless the loader set it. */
  lemma TriggerAlwaysSettles(s: VmState, isRefresh: bool, outcome: LoadOutcome)
    requires outcome.Returned? || !IsException(outcome.e) ==> outcome.multiState != Loading
    ensures !Trigger(s, isRefresh, outcome).after.isRefreshing
    ensures !Trigger(s, isRefresh, outcome).after.multiState.Loading?
  {
  }

  // ---------------------------------------------------------------------------
  // Request results

  /** A `Result<BaseApiResponse<T>>`: a response, or the failure the call threw. */
  datatype RequestResult<T> = Success(response: BaseApiResponse<T>) | Failure(t: Throwable)

  /** The callbacks `commonHandleRequestResult` makes, in order. */
  datatype Call<T> = OnSuccess(data: Option<T>) | OnFail(t: Option<Throwable>) | LoggedFailure(t: Option<Throwable>)

  datatype Handled<T> = Handled(state: VmState, calls: seq<Call<T>>)

  /**
   * `ResponseFailException(response)`: a new object, whose identity is
   * `identity`, with the response's code and `getMessage()`.
   */
  function ResponseFail<T>(response: BaseApiResponse<T>, identity: nat): (e: Throwable)
    ensures e.ResponseFailException? && e.identity == identity
    ensures e.code == response.code && e.message == response.GetMessage()
  {
    ResponseFailException(identity, response.code, response.GetMessage())
  }

  /** `onCommonRequestFail`: the error state only for a multi-state page; the failure is logged. */
  function OnCommonRequestFail<T>(s: VmState, exception: Option<Throwable>, isMultiStateContent: bool): (r: Handled<T>)
    ensures r.calls == [LoggedFailure(exception)]
    ensures r.state.isRefreshing == s.isRefreshing
    ensures isMultiStateContent ==> r.state.multiState == Error(exception)
    ensures !isMultiStateContent ==> r.state == s
  {
    Handled(if isMultiStateContent then s.(multiState := Error(exception)) else s, [LoggedFailure(exception)])
  }

  /** `handleRequestFail`: a supplied `onFail` replaces the common handling. */
  function HandleRequestFail<T>(s: VmState, isMultiStateContent: bool, t: Option<Throwable>, hasOnFail: bool): (r: Handled<T>)
    ensures hasOnFail ==> r == Handled(s, [OnFail(t)])
    ensures !hasOnFail ==> r == OnCommonRequestFail(s, t, isMultiStateContent)
  {
    if hasOnFail then Handled(s, [OnFail(t)]) else OnCommonRequestFail(s, t, isMultiStateContent)
  }

  /** `commonHandleRequestResult`; `newId` is the identity a new `ResponseFailException` gets. */
  function CommonHandleRequestResult<T>(s: VmState, result: RequestResult<T>, isMultiStateContent: bool, hasOnFail: bool,
                                        newId: nat)
    : (r: Handled<T>)
    ensures |r.calls| == 1
    ensures r.state.isRefreshing == s.isRefreshing
  {
    match result
    case Success(response) =>
      if response.IsCodeSuccess() then
        Handled(if isMultiStateContent then s.(multiState := Content) else s, [OnSuccess(response.data)])
      else HandleRequestFail(s, isMultiStateContent, Some(ResponseFail(response, newId)), hasOnFail)
    case Failure(t) => HandleRequestFail(s, isMultiStateContent, Some(t), hasOnFail)
  }

  /** Whether the result counts as a success: a response with a 2xx code, whatever its data. */
  predicate Succeeded<T>(result: RequestResult<T>) {
    result.Success? && result.response.IsCodeSuccess()
  }

  /** The failure a non-successful result reports; a failed response is wrapped in a new object. */
  function FailureOf<T>(result: RequestResult<T>, newId: nat): Throwable
    requires !Succeeded(result)
  {
    match result
    case Success(response) => ResponseFail(response, newId)
    case Failure(t) => t
  }

  /**
   * Exactly one callback runs. `onSuccess` runs, with the data even when it is
   * null, exactly for a 2xx response; then only a multi-state page changes, to
   * Content. Otherwise a supplied `onFail` gets the failure and the state stays;
   * without one the failure is logged and a multi-state page shows it.
   */
  lemma HandleResultSpec<T>(s: VmState, result: RequestResult<T>, isMultiStateContent: bool, hasOnFail: bool, newId: nat)
    ensures var r := CommonHandleRequestResult(s, result, isMultiStateContent, hasOnFail, newId);
      (r.calls[0].OnSuccess? <==> Succeeded(result)) &&
      (Succeeded(result) ==> r.calls[0].data == result.response.data) &&
      (Succeeded(result) ==> r.state.multiState == (if isMultiStateContent then Content else s.multiState)) &&
      (!Succeeded(result) && hasOnFail ==> r.calls == [OnFail(Some(FailureOf(result, newId)))] && r.state == s) &&
      (!Succeeded(result) && !hasOnFail ==> r.calls == [LoggedFailure(Some(FailureOf(result, newId)))]) &&
      (!Succeeded(result) && !hasOnFail ==>
        r.state.multiState == (if isMultiStateContent then Error(Some(FailureOf(result, newId))) else s.multiState))
  {
  }

  /**
   * The same failing response handled twice on a multi-state page yields two
   * different exception objects, so the error page is a new target and
   * `MultiStateLayout` fades to it.
   */
  lemma SameFailedResponseFadesAgain<T>(s: VmState, response: BaseApiResponse<T>, first: nat, second: nat, onRetry: Retry)
    requires !response.IsCodeSuccess() && first != second
    ensures var once := CommonHandleRequestResult(s, Success(response), true, false, first).state;
      var twice := CommonHandleRequestResult(once, Success(response), true, false, second).state;
      twice.multiState.Error? && once.multiState != twice.multiState &&
      Layout(once.multiState, twice.multiState, true, onRetry).transition == Some(Fade)
  {
  }
}

=== FILE: common_pager.dfy ===
/**
 * `CommonPagingSource`: page keys are consecutive page indexes starting at
 * `startIndex`. The loader is a function of `(index, loadSize)` that returns
 * a list or throws.
 */
module CommonPager {
  import opened Wrappers

  /**
   * What `loadData(index, pageSize)` does: return a list, or throw. A thrown
   * `Exception` is told apart from other throwables (an `Error` such as
   * `NotImplementedError`).
   */
  datatype Fetch<Item> = Items(items: seq<Item>) | Thrown(error: string, isException: bool)

  /**
   * The outcome of `load`: `LoadResult.Page` with its neighbour keys,
   * `LoadResult.Error`, or `Escaped` when the throwable is not an `Exception`
   * and propagates out of `load` instead of being returned.
   */
  datatype LoadResult<Item> =
    | Page(data: seq<Item>, prevKey: Option<int>, nextKey: Option<int>)
    | LoadError(error: string)
    | Escaped(error: string)

  /** `getRefreshKey`: a refresh always starts over from the first page. */
  function GetRefreshKey(): (k: Option<int>)
    ensures k.None?
  {
    None
  }

  /** The page index a load uses: its key, or `startIndex` for the first load. */
  function IndexFor(startIndex: int, key: Option<int>): (index: int)
    ensures key.None? ==> index == startIndex
    ensures key.Some? ==> index == key.value
  {
    key.GetOr(startIndex)
  }

  /** `load(params)`: its `catch (e: Exception)` turns only an `Exception` into `LoadResult.Error`. */
  function Load<Item>(startIndex: int, key: Option<int>, loadSize: int, loadData: (int, int) -> Fetch<Item>)
    : (r: LoadResult<Item>)
    ensures var index := IndexFor(startIndex, key);
      match loadData(index, loadSize)
      case Thrown(e, isException) => r == (if isException then LoadError(e) else Escaped(e))
      case Items(items) =>
        r.Page? && r.data == items &&
        (r.prevKey.None? <==> index == startIndex) &&
        (r.prevKey.Some? ==> r.prevKey.value == index - 1) &&
        (r.nextKey.None? <==> |items| == 0) &&
        (r.nextKey.Some? ==> r.nextKey.value == index + 1)
  {
    var index := key.GetOr(startIndex);
    match loadData(index, loadSize)
    case Thrown(e, isException) => if isException then LoadError(e) else Escaped(e)
    case Items(items) =>
      Page(items,
           if index == startIndex then None else Some(index - 1),
           if |items| == 0 then None else Some(index + 1))
  }

  /**
   * A refresh loads the first page: with the refresh key, `load` does what an
   * explicit load of `startIndex` does, and a page it returns has no previous key.
   */
  lemma RefreshLoadsFirstPage<Item>(startIndex: int, loadSize: int, loadData: (int, int) -> Fetch<Item>)
    ensures Load(startIndex, GetRefreshKey(), loadSize, loadData) == Load(startIndex, Some(startIndex), loadSize, loadData)
    ensures Load(startIndex, GetRefreshKey(), loadSize, loadData).Page? ==>
      Load(startIndex, GetRefreshKey(), loadSize, loadData).prevKey.None?
  {
  }

  /**
   * Following `nextKey` from the first load, `n` times at most: the results
   * in order, stopping after an error, an escaped throwable or the last page.
   */
  function Walk<Item>(startIndex: int, key: Option<int>, loadSize: int, loadData: (int, int) -> Fetch<Item>, n: nat)
    : (pages: seq<LoadResult<Item>>)
    ensures 1 <= |pages| <= n + 1
    decreases n
  {
    var r := Load(startIndex, key, loadSize, loadData);
    if n == 0 || !r.Page? || r.nextKey.None? then [r]
    else [r] + Walk(startIndex, r.nextKey, loadSize, loadData, n - 1)
  }

  /**
   * The `k`-th page of a walk from the first load is page `startIndex + k`: it
   * was loaded at that index, and its `prevKey` is the index before it.
   */
  lemma {:induction false} WalkVisitsConsecutiveIndexes<Item>(
    startIndex: int, loadSize: int, loadData: (int, int) -> Fetch<Item>, n: nat, k: nat)
    requires k < |Walk(startIndex, None, loadSize, loadData, n)|
    ensures var page := Walk(startIndex, None, loadSize, loadData, n)[k];
      page == Load(startIndex, Some(startIndex + k), loadSize, loadData) &&
      (page.Page? ==> page.prevKey == (if k == 0 then None else Some(startIndex + k - 1)))
  {
    WalkFrom(startIndex, 0, loadSize, loadData, n, k);
  }

  /** The same, for a walk that starts `offset` pages after the first. */
  lemma {:induction false} WalkFrom<Item>(
    startIndex: int, offset: nat, loadSize: int, loadData: (int, int) -> Fetch<Item>, n: nat, k: nat)
    requires k < |Walk(startIndex, if offset == 0 then None else Some(startIndex + offset), loadSize, loadData, n)|
    ensures var page := Walk(startIndex, if offset == 0 then None else Some(startIndex + offset), loadSize, loadData, n)[k];
      page == Load(startIndex, Some(startIndex + offset + k), loadSize, loadData) &&
      (page.Page? ==> page.prevKey == (if offset + k == 0 then None else Some(startIndex + offset + k - 1)))
    decreases k
  {
    var key: Option<int> := if offset == 0 then None else Some(startIndex + offset);
    var r := Load(startIndex, key, loadSize, loadData);
    assert IndexFor(startIndex, key) == startIndex + offset;
    assert r == Load(startIndex, Some(startIndex + offset), loadSize, loadData);
    var pages := Walk(startIndex, key, loadSize, loadData, n);
    if k == 0 {
      assert pages[0] == r;
    } else {
      assert n > 0 && r.Page? && r.nextKey.Some?;
      assert pages == [r] + Walk(startIndex, r.nextKey, loadSize, loadData, n - 1);
      assert pages[k] == Walk(startIndex, r.nextKey, loadSize, loadData, n - 1)[k - 1];
      assert r.nextKey == Some(startIndex + offset + 1);
      WalkFrom(startIndex, offset + 1, loadSize, loadData, n - 1, k - 1);
    }
  }

  /** An empty page ends the walk: nothing after it is loaded. */
  lemma EmptyPageIsLast<Item>(startIndex: int, key: Option<int>, loadSize: int, loadData: (int, int) -> Fetch<Item>, n: nat)
    requires loadData(IndexFor(startIndex, key), loadSize) == Items([])
    ensures Walk(startIndex, key, loadSize, loadData, n) == [Page([], if IndexFor(startIndex, key) == startIndex then None else Some(IndexFor(startIndex, key) - 1), None)]
  {
  }
}

=== FILE: create_user_request.dfy ===
/**
 * `CreateUserRequest.validate()`: a first-failing-check validator. Each regular
 * expression of the source is stated twice, once as the shape it accepts
 * (`...Shape`, a predicate over positions) and once as a scan (`Is...`), and the
 * two are proved to agree.
 */
module UserValidation {
  import opened Wrappers

  /** The body of `POST /users`. */
  datatype CreateUserRequest = CreateUserRequest(
    username: string,
    email: Option<string>,
    password: string,
    nickname: Option<string>,
    avatar: Option<string>,
    phone: Option<string>)

  // ---------------------------------------------------------------------------
  // Character classes

  /** Kotlin's `Char.isWhitespace()` on the JVM: Java whitespace plus the space separators. */
  predicate IsWhitespace(ch: char) {
    || ch == ' ' || ch == '\t' || ch == '\n' || ch == '\r'
    || ch == '\U{B}' || ch == '\U{C}'
    || ('\U{1C}' <= ch <= '\U{1F}')
    || ch == '\U{A0}' || ch == '\U{1680}'
    || ('\U{2000}' <= ch <= '\U{200A}')
    || ch == '\U{2028}' || ch == '\U{2029}' || ch == '\U{202F}' || ch == '\U{205F}' || ch == '\U{3000}'
  }

  /** `isBlank()`: empty or whitespace only. */
  predicate IsBlank(s: string) {
    forall i | 0 <= i < |s| :: IsWhitespace(s[i])
  }

  predicate IsLetter(ch: char) { 'a' <= ch <= 'z' || 'A' <= ch <= 'Z' }
  predicate IsDigit(ch: char) { '0' <= ch <= '9' }

  /** `[a-zA-Z0-9_]` */
  predicate IsWordChar(ch: char) { IsLetter(ch) || IsDigit(ch) || ch == '_' }
  /** `[A-Za-z0-9+_.-]` */
  predicate IsLocalChar(ch: char) { IsLetter(ch) || IsDigit(ch) || ch == '+' || ch == '_' || ch == '.' || ch == '-' }
  /** `[A-Za-z0-9.-]` */
  predicate IsDomainChar(ch: char) { IsLetter(ch) || IsDigit(ch) || ch == '.' || ch == '-' }

  predicate All(s: string, p: char -> bool) {
    forall i | 0 <= i < |s| :: p(s[i])
  }

  /** A character the JVM stores as one UTF-16 code unit: it lies in the Basic Multilingual Plane. */
  predicate IsBmp(ch: char) { ch as int <= 0xFFFF }

  /**
   * Kotlin's `String.length`: UTF-16 code units, so a character outside the
   * Basic Multilingual Plane (an emoji, say) counts twice.
   */
  function Utf16Len(s: string): (n: nat)
    ensures |s| <= n <= 2 * |s|
  {
    if |s| == 0 then 0
    else Utf16Len(s[..|s| - 1]) + (if IsBmp(s[|s| - 1]) then 1 else 2)
  }

  /** The UTF-16 length is the character count exactly when every character is in the Basic Multilingual Plane. */
  lemma {:induction false} Utf16LenIsLength(s: string)
    ensures Utf16Len(s) == |s| <==> All(s, IsBmp)
    decreases |s|
  {
    if |s| > 0 {
      var front := s[..|s| - 1];
      Utf16LenIsLength(front);
      if All(s, IsBmp) {
        assert forall i | 0 <= i < |front| :: front[i] == s[i];
      } else if All(front, IsBmp) {
        forall i | 0 <= i < |s| - 1 ensures IsBmp(s[i]) {
          assert s[i] == front[i];
        }
        assert !IsBmp(s[|s| - 1]);
      }
    }
  }

  /** An emoji makes a five-character password six code units long. */
  lemma SupplementaryCountsTwice()
    ensures |"1234\U{1F600}"| == 5 && Utf16Len("1234\U{1F600}") == 6
  {
    var s := "1234\U{1F600}";
    assert s[..4] == "1234" && !IsBmp(s[4]);
    assert All("1234", IsBmp);
    Utf16LenIsLength("1234");
  }

  // ---------------------------------------------------------------------------
  // The three regular expressions

  /** `^[a-zA-Z0-9_]+$` */
  predicate IsUsername(s: string) {
    |s| > 0 && All(s, IsWordChar)
  }

  /** `^1[3-9]\d{9}$`: eleven ASCII digits, a leading 1 and a second digit from 3 to 9. */
  predicate IsPhone(s: string) {
    |s| == 11 && s[0] == '1' && '3' <= s[1] <= '9' && All(s[2..], IsDigit)
  }

  /**
   * The shape `^[A-Za-z0-9+_.-]+@[A-Za-z0-9.-]+\.[A-Za-z]{2,}$`: some '@' at `at`
   * and some '.' at `dot` split the text into a non-empty local part, a non-empty
   * domain and a top-level domain of at least two letters.
   */
  ghost predicate EmailShape(s: string) {
    exists at, dot | 0 <= at < dot < |s| :: EmailSplit(s, at, dot)
  }

  ghost predicate EmailSplit(s: string, at: int, dot: int)
    requires 0 <= at < dot < |s|
  {
    && s[at] == '@' && s[dot] == '.'
    && at > 0 && All(s[..at], IsLocalChar)
    && dot > at + 1 && All(s[at + 1..dot], IsDomainChar)
    && |s| - dot - 1 >= 2 && All(s[dot + 1..], IsLetter)
  }

  /** Position of the last `c` in `s`, if any. */
  function LastIndexOf(s: string, c: char): (r: Option<nat>)
    ensures r.None? ==> forall i | 0 <= i < |s| :: s[i] != c
    ensures r.Some? ==> r.value < |s| && s[r.value] == c && forall i | r.value < i < |s| :: s[i] != c
  {
    if |s| == 0 then None
    else if s[|s| - 1] == c then Some(|s| - 1)
    else LastIndexOf(s[..|s| - 1], c)
  }

  /** Position of the first `c` in `s`, if any. */
  function IndexOf(s: string, c: char): (r: Option<nat>)
    ensures r.None? ==> forall i | 0 <= i < |s| :: s[i] != c
    ensures r.Some? ==> r.value < |s| && s[r.value] == c && forall i | 0 <= i < r.value :: s[i] != c
  {
    if |s| == 0 then None
    else if s[0] == c then Some(0)
    else match IndexOf(s[1..], c)
      case None => None
      case Some(k) => Some(k + 1)
  }

  /**
   * The email regex as a scan: the top-level domain must follow the LAST dot
   * (letters contain no dot) and the '@' must be the FIRST one (neither part
   * before the dot may contain another).
   */
  function IsEmail(s: string): bool {
    match LastIndexOf(s, '.')
    case None => false
    case Some(dot) =>
      match IndexOf(s[..dot], '@')
      case None => false
      case Some(at) =>
        && at > 0 && All(s[..at], IsLocalChar)
        && dot > at + 1 && All(s[at + 1..dot], IsDomainChar)
        && |s| - dot - 1 >= 2 && All(s[dot + 1..], IsLetter)
  }

  /** The scan accepts exactly the strings the regular expression matches. */
  lemma EmailScanMatchesShape(s: string)
    ensures IsEmail(s) <==> EmailShape(s)
  {
    if IsEmail(s) {
      var dot := LastIndexOf(s, '.').value;
      var at := IndexOf(s[..dot], '@').value;
      assert EmailSplit(s, at, dot);
    }
    if EmailShape(s) {
      var at, dot :| 0 <= at < dot < |s| && EmailSplit(s, at, dot);
      // The dot before the top-level domain is the last one: only letters follow it.
      var last := LastIndexOf(s, '.');
      assert last == Some(dot) by {
        assert last.Some?;
        forall i | dot < i < |s| ensures s[i] != '.' {
          assert s[i] == s[dot + 1..][i - dot - 1];
        }
      }
      // The '@' is the first one before that dot: the local part holds none.
      var first := IndexOf(s[..dot], '@');
      assert s[..dot][at] == '@';
      assert first == Some(at) by {
        assert first.Some?;
        forall i | 0 <= i < at ensures s[..dot][i] != '@' {
          assert s[..dot][i] == s[..at][i];
        }
      }
    }
  }

  // ---------------------------------------------------------------------------
  // Messages, in the order the checks run

  const UsernameEmpty := "用户名不能为空"
  const UsernameLength := "用户名长度必须在 3-50 个字符之间"
  const UsernameCharset := "用户名只能包含字母、数字和下划线"
  const PasswordEmpty := "密码不能为空"
  const PasswordLength := "密码长度必须在 6-100 个字符之间"
  const EmailFormat := "邮箱格式不正确"
  const PhoneFormat := "手机号格式不正确（需要11位中国大陆手机号）"
  const NicknameLength := "昵称长度不能超过 50 个字符"

  /**
   * `validate()`: `None` when the request is acceptable, else the first failing
   * check's message. Lengths are `String.length`, in UTF-16 code units.
   */
  function Validate(r: CreateUserRequest): Option<string> {
    if IsBlank(r.username) then Some(UsernameEmpty)
    else if Utf16Len(r.username) < 3 || Utf16Len(r.username) > 50 then Some(UsernameLength)
    else if !IsUsername(r.username) then Some(UsernameCharset)
    else if IsBlank(r.password) then Some(PasswordEmpty)
    else if Utf16Len(r.password) < 6 || Utf16Len(r.password) > 100 then Some(PasswordLength)
    else if r.email.Some? && !IsBlank(r.email.value) && !IsEmail(r.email.value) then Some(EmailFormat)
    else if r.phone.Some? && !IsBlank(r.phone.value) && !IsPhone(r.phone.value) then Some(PhoneFormat)
    else if r.nickname.Some? && Utf16Len(r.nickname.value) > 50 then Some(NicknameLength)
    else None
  }

  // Each field's own acceptance condition, stated against the regular expressions.

  ghost predicate UsernameOk(u: string) { !IsBlank(u) && 3 <= Utf16Len(u) <= 50 && IsUsername(u) }
  ghost predicate PasswordOk(p: string) { !IsBlank(p) && 6 <= Utf16Len(p) <= 100 }
  ghost predicate EmailOk(e: Option<string>) { e.None? || IsBlank(e.value) || EmailShape(e.value) }
  ghost predicate PhoneOk(ph: Option<string>) { ph.None? || IsBlank(ph.value) || IsPhone(ph.value) }
  ghost predicate NicknameOk(n: Option<string>) { n.None? || Utf16Len(n.value) <= 50 }

  ghost predicate Acceptable(r: CreateUserRequest) {
    UsernameOk(r.username) && PasswordOk(r.password) && EmailOk(r.email) && PhoneOk(r.phone) && NicknameOk(r.nickname)
  }

  /**
   * `validate()` returns null exactly for acceptable requests, and a message
   * names a field only when every field checked before it is acceptable and
   * that field is not.
   */
  lemma ValidateSpec(r: CreateUserRequest)
    ensures Validate(r).None? <==> Acceptable(r)
    ensures Validate(r) in {Some(UsernameEmpty), Some(UsernameLength), Some(UsernameCharset)} <==> !UsernameOk(r.username)
    ensures Validate(r) in {Some(PasswordEmpty), Some(PasswordLength)} <==>
      UsernameOk(r.username) && !PasswordOk(r.password)
    ensures Validate(r) == Some(EmailFormat) <==>
      UsernameOk(r.username) && PasswordOk(r.password) && !EmailOk(r.email)
    ensures Validate(r) == Some(PhoneFormat) <==>
      UsernameOk(r.username) && PasswordOk(r.password) && EmailOk(r.email) && !PhoneOk(r.phone)
    ensures Validate(r) == Some(NicknameLength) <==>
      UsernameOk(r.username) && PasswordOk(r.password) && EmailOk(r.email) && PhoneOk(r.phone) && !NicknameOk(r.nickname)
  {
    if r.email.Some? {
      EmailScanMatchesShape(r.email.value);
    }
  }

  /**
   * Each username and password message, exactly when its own check fails and
   * every check before it passes.
   */
  lemma ValidateMessages(r: CreateUserRequest)
    ensures Validate(r) == Some(UsernameEmpty) <==> IsBlank(r.username)
    ensures Validate(r) == Some(UsernameLength) <==>
      !IsBlank(r.username) && !(3 <= Utf16Len(r.username) <= 50)
    ensures Validate(r) == Some(UsernameCharset) <==>
      !IsBlank(r.username) && 3 <= Utf16Len(r.username) <= 50 && !IsUsername(r.username)
    ensures Validate(r) == Some(PasswordEmpty) <==> UsernameOk(r.username) && IsBlank(r.password)
    ensures Validate(r) == Some(PasswordLength) <==>
      UsernameOk(r.username) && !IsBlank(r.password) && !(6 <= Utf16Len(r.password) <= 100)
  {
    MessagesDistinct();
  }

  /** The eight messages are pairwise different. */
  lemma MessagesDistinct()
    ensures |{UsernameEmpty, UsernameLength, UsernameCharset, PasswordEmpty, PasswordLength,
              EmailFormat, PhoneFormat, NicknameLength}| == 8
  {
    assert UsernameEmpty[0] == '用' && UsernameLength[0] == '用' && UsernameCharset[0] == '用';
    assert PasswordEmpty[0] == '密' && PasswordLength[0] == '密';
    assert EmailFormat[0] == '邮' && PhoneFormat[0] == '手' && NicknameLength[0] == '昵';
    assert UsernameEmpty[3] == '不' && UsernameLength[3] == '长' && UsernameCharset[3] == '只';
    assert PasswordEmpty[2] == '不' && PasswordLength[2] == '长';
  }

  /** A blank username is reported as empty even when its length and charset are wrong too. */
  lemma BlankUsernameFirst(r: CreateUserRequest)
    requires IsBlank(r.username)
    ensures Validate(r) == Some(UsernameEmpty)
  {
  }

  /** A non-blank username outside 3..50 UTF-16 code units is rejected for its length. */
  lemma UsernameLengthChecked(r: CreateUserRequest)
    requires !IsBlank(r.username) && (Utf16Len(r.username) < 3 || Utf16Len(r.username) > 50)
    ensures Validate(r) == Some(UsernameLength)
  {
  }

  /**
   * Any character outside `[A-Za-z0-9_]` rejects a username of acceptable
   * length: as empty when it is all whitespace, otherwise for its characters.
   */
  lemma UsernameCharsetChecked(r: CreateUserRequest, i: int)
    requires 3 <= Utf16Len(r.username) <= 50 && 0 <= i < |r.username|
    requires !IsWordChar(r.username[i])
    ensures Validate(r) == if IsBlank(r.username) then Some(UsernameEmpty) else Some(UsernameCharset)
  {
  }

  /** A null or blank email never causes a rejection. */
  lemma BlankEmailAccepted(r: CreateUserRequest)
    requires r.email.None? || IsBlank(r.email.value)
    ensures Validate(r) != Some(EmailFormat)
  {
  }

  /** The username and password the examples below share pass their own checks. */
  lemma SampleCredentialsOk()
    ensures UsernameOk("alice_01") && PasswordOk("secret1")
  {
    assert IsUsername("alice_01");
    AsciiLength("alice_01");
    AsciiLength("secret1");
    assert !IsBlank("alice_01") by { assert !IsWhitespace("alice_01"[0]); }
    assert !IsBlank("secret1") by { assert !IsWhitespace("secret1"[0]); }
  }

  /** A plain request with a dotted email and a mobile number passes every check. */
  lemma ValidAcceptedExample()
    ensures Validate(CreateUserRequest("alice_01", Some("a.b@x.y.cn"), "secret1", None, None, Some("13800138000"))) == None
  {
    SampleCredentialsOk();
    GoodEmail();
    GoodPhone();
    assert !IsBlank("a.b@x.y.cn") by { assert !IsWhitespace("a.b@x.y.cn"[0]); }
  }

  /** Text made of word characters has one code unit per character. */
  lemma AsciiLength(s: string)
    requires All(s, IsWordChar)
    ensures Utf16Len(s) == |s|
  {
    Utf16LenIsLength(s);
  }

  lemma GoodPhone()
    ensures IsPhone("13800138000") && !IsBlank("13800138000")
  {
    assert "13800138000"[2..] == "800138000";
    assert All("800138000", IsDigit);
    assert !IsWhitespace("13800138000"[0]);
  }

  lemma GoodEmail()
    ensures IsEmail("a.b@x.y.cn")
  {
    var good := "a.b@x.y.cn";
    GoodEmailLastDot();
    assert good[..7] == "a.b@x.y";
    GoodEmailFirstAt();
    GoodEmailParts();
    assert good[..3] == "a.b";
    assert good[4..7] == "x.y";
    assert good[8..] == "cn";
  }

  lemma GoodEmailParts()
    ensures All("a.b", IsLocalChar) && All("x.y", IsDomainChar) && All("cn", IsLetter)
  {
  }

  lemma GoodEmailLastDot()
    ensures LastIndexOf("a.b@x.y.cn", '.') == Some(7)
  {
    var good := "a.b@x.y.cn";
    assert good[7] == '.' && good[8] != '.' && good[9] != '.';
  }

  lemma GoodEmailFirstAt()
    ensures IndexOf("a.b@x.y", '@') == Some(3)
  {
    var front := "a.b@x.y";
    assert front[3] == '@' && front[0] != '@' && front[1] != '@' && front[2] != '@';
  }

  /** An email of the regular expression's shape ends in two letters, the end of its top-level domain. */
  lemma EmailShapeEndsInLetters(e: string)
    ensures EmailShape(e) ==> |e| >= 2 && IsLetter(e[|e| - 1]) && IsLetter(e[|e| - 2])
  {
    if EmailShape(e) {
      var at, dot :| 0 <= at < dot < |e| && EmailSplit(e, at, dot);
      assert e[dot + 1..][|e| - dot - 2] == e[|e| - 1];
      assert e[dot + 1..][|e| - dot - 3] == e[|e| - 2];
    }
  }

  /**
   * A non-blank email whose last or second-to-last character is a dot has a
   * top-level domain shorter than two letters, and is reported once the
   * username and the password pass.
   */
  lemma ShortTldRejected(r: CreateUserRequest, e: string)
    requires UsernameOk(r.username) && PasswordOk(r.password)
    requires r.email == Some(e) && !IsBlank(e)
    requires |e| >= 2 && (e[|e| - 1] == '.' || e[|e| - 2] == '.')
    ensures Validate(r) == Some(EmailFormat)
  {
    EmailShapeEndsInLetters(e);
    ValidateSpec(r);
  }

  /** A non-blank phone whose second character is not 3 to 9 is reported once the earlier fields pass. */
  lemma PhonePrefixRejected(r: CreateUserRequest, p: string)
    requires UsernameOk(r.username) && PasswordOk(r.password) && EmailOk(r.email)
    requires r.phone == Some(p) && !IsBlank(p)
    requires |p| >= 2 && !('3' <= p[1] <= '9')
    ensures Validate(r) == Some(PhoneFormat)
  {
    ValidateSpec(r);
  }
}

=== FILE: database_factory.dfy ===
/**
 * `DatabaseFactory`: the compatibility check of an existing `users` table
 * against the seven columns the server needs, and the choice `init` makes
 * between creating, dropping and incrementally updating the table. The JDBC
 * metadata is a list of (column name, type name) pairs; each DDL statement's
 * success is an input.
 */
module DatabaseFactory {
  import opened Wrappers

  // ---------------------------------------------------------------------------
  // Text helpers

  /** ASCII `lowercase()`. */
  function LowerChar(c: char): char {
    if 'A' <= c <= 'Z' then (c as int + 32) as char else c
  }

  /** ASCII `uppercase()`. */
  function UpperChar(c: char): char {
    if 'a' <= c <= 'z' then (c as int - 32) as char else c
  }

  function Lower(s: string): (r: string)
    ensures |r| == |s| && forall i | 0 <= i < |s| :: r[i] == LowerChar(s[i])
  {
    seq(|s|, i requires 0 <= i < |s| => LowerChar(s[i]))
  }

  function Upper(s: string): (r: string)
    ensures |r| == |s| && forall i | 0 <= i < |s| :: r[i] == UpperChar(s[i])
  {
    seq(|s|, i requires 0 <= i < |s| => UpperChar(s[i]))
  }

  /** Two strings that agree up to ASCII case have the same lowercase form. */
  lemma LowerIgnoresCase(a: string, b: string)
    requires |a| == |b| && forall i | 0 <= i < |a| :: LowerChar(a[i]) == LowerChar(b[i])
    ensures Lower(a) == Lower(b)
  {
  }

  lemma UpperIgnoresCase(a: string, b: string)
    requires |a| == |b| && forall i | 0 <= i < |a| :: UpperChar(a[i]) == UpperChar(b[i])
    ensures Upper(a) == Upper(b)
  {
  }

  predicate OccursAt(s: string, sub: string, i: int) {
    0 <= i <= |s| - |sub| && s[i..i + |sub|] == sub
  }

  /** `String.contains`. */
  predicate Contains(s: string, sub: string) {
    exists i | 0 <= i <= |s| - |sub| :: OccursAt(s, sub, i)
  }

  // ---------------------------------------------------------------------------
  // The compatibility check

  datatype ExpectedType = IntType | VarcharType | DatetimeType

  /** The required columns, in the order the check visits them. */
  const Required: seq<(string, ExpectedType)> := [
    ("id", IntType),
    ("username", VarcharType),
    ("password", VarcharType),
    ("status", VarcharType),
    ("role", VarcharType),
    ("created_at", DatetimeType),
    ("updated_at", DatetimeType)
  ]

  predicate IsRequiredName(name: string) {
    exists k | 0 <= k < |Required| :: Required[k].0 == name
  }

  /** The type-variant rule: substring tests on the upper-cased type name. */
  predicate TypeMatches(expected: ExpectedType, actual: string) {
    match expected
    case VarcharType => Contains(actual, "VARCHAR") || Contains(actual, "CHAR")
    case IntType => Contains(actual, "INT")
    case DatetimeType => Contains(actual, "DATETIME") || Contains(actual, "TIMESTAMP")
  }

  /** The VARCHAR test is just a CHAR test: every type containing VARCHAR contains CHAR. */
  lemma VarcharMatchIsCharMatch(actual: string)
    ensures TypeMatches(VarcharType, actual) <==> Contains(actual, "CHAR")
  {
    if Contains(actual, "VARCHAR") {
      var i :| 0 <= i <= |actual| - 7 && OccursAt(actual, "VARCHAR", i);
      assert actual[i + 3..i + 7] == actual[i..i + 7][3..7] == "CHAR";
      assert OccursAt(actual, "CHAR", i + 3);
    }
  }

  /**
   * `existingColumns`: each column under its lowercased name with its
   * uppercased type; a later column with the same lowercased name overwrites.
   */
  function ExistingColumns(columns: seq<(string, string)>): (m: map<string, string>)
  {
    if |columns| == 0 then map[]
    else
      var last := columns[|columns| - 1];
      ExistingColumns(columns[..|columns| - 1])[Lower(last.0) := Upper(last.1)]
  }

  /** The last column whose lowercased name is `name`. */
  function LastColumnNamed(columns: seq<(string, string)>, name: string): (r: Option<nat>)
    ensures r.Some? ==> r.value < |columns| && Lower(columns[r.value].0) == name
    ensures r.Some? ==> forall j | r.value < j < |columns| :: Lower(columns[j].0) != name
    ensures r.None? ==> forall j | 0 <= j < |columns| :: Lower(columns[j].0) != name
  {
    if |columns| == 0 then None
    else if Lower(columns[|columns| - 1].0) == name then Some(|columns| - 1)
    else LastColumnNamed(columns[..|columns| - 1], name)
  }

  /** A name is present exactly when some column has it, and its type is the last such column's. */
  lemma {:induction false} ExistingColumnsLookup(columns: seq<(string, string)>, name: string)
    ensures name in ExistingColumns(columns) <==> LastColumnNamed(columns, name).Some?
    ensures name in ExistingColumns(columns) ==>
      ExistingColumns(columns)[name] == Upper(columns[LastColumnNamed(columns, name).value].1)
  {
    if |columns| > 0 {
      ExistingColumnsLookup(columns[..|columns| - 1], name);
    }
  }

  /** Whether the required column at position `k` and all after it are present with a matching type. */
  predicate RequiredFrom(existing: map<string, string>, k: nat)
    requires k <= |Required|
    decreases |Required| - k
  {
    if k == |Required| then true
    else
      var (name, expected) := Required[k];
      name in existing && TypeMatches(expected, existing[name]) && RequiredFrom(existing, k + 1)
  }

  /** `isTableStructureCompatible`. */
  predicate IsTableStructureCompatible(columns: seq<(string, string)>) {
    RequiredFrom(ExistingColumns(columns), 0)
  }

  /** A required column is satisfied by the last column that carries its name, whatever the case. */
  ghost predicate ColumnSatisfied(columns: seq<(string, string)>, name: string, expected: ExpectedType) {
    LastColumnNamed(columns, name).Some? &&
    TypeMatches(expected, Upper(columns[LastColumnNamed(columns, name).value].1))
  }

  lemma {:induction false} RequiredFromAll(existing: map<string, string>, k: nat)
    requires k <= |Required|
    ensures RequiredFrom(existing, k) <==>
      forall j | k <= j < |Required| :: Required[j].0 in existing && TypeMatches(Required[j].1, existing[Required[j].0])
    decreases |Required| - k
  {
    if k < |Required| {
      RequiredFromAll(existing, k + 1);
    }
  }

  /** Compatible exactly when every one of the seven required columns is present with a matching type. */
  lemma CompatibleIffAllRequired(columns: seq<(string, string)>)
    ensures IsTableStructureCompatible(columns) <==>
      forall j | 0 <= j < |Required| :: ColumnSatisfied(columns, Required[j].0, Required[j].1)
  {
    var existing := ExistingColumns(columns);
    RequiredFromAll(existing, 0);
    forall j | 0 <= j < |Required|
      ensures (Required[j].0 in existing && TypeMatches(Required[j].1, existing[Required[j].0])) <==>
        ColumnSatisfied(columns, Required[j].0, Required[j].1)
    {
      ExistingColumnsLookup(columns, Required[j].0);
    }
  }

  /** A missing required column makes the table incompatible. */
  lemma MissingColumnIncompatible(columns: seq<(string, string)>, j: nat)
    requires j < |Required|
    requires forall i | 0 <= i < |columns| :: Lower(columns[i].0) != Required[j].0
    ensures !IsTableStructureCompatible(columns)
  {
    CompatibleIffAllRequired(columns);
    assert LastColumnNamed(columns, Required[j].0).None?;
  }

  /** Columns whose names are not required never change the verdict, wherever they are listed. */
  lemma {:induction false} ExtraColumnIrrelevant(front: seq<(string, string)>, extra: (string, string), back: seq<(string, string)>)
    requires !IsRequiredName(Lower(extra.0))
    ensures IsTableStructureCompatible(front + [extra] + back) == IsTableStructureCompatible(front + back)
  {
    var withExtra := front + [extra] + back;
    var without := front + back;
    CompatibleIffAllRequired(withExtra);
    CompatibleIffAllRequired(without);
    forall j | 0 <= j < |Required|
      ensures ColumnSatisfied(withExtra, Required[j].0, Required[j].1) == ColumnSatisfied(without, Required[j].0, Required[j].1)
    {
      assert Lower(extra.0) != Required[j].0;
      SkipExtra(front, extra, back, Required[j].0);
    }
  }

  /** Looking up a name other than the extra column's sees the same column, shifted. */
  lemma {:induction false} SkipExtra(front: seq<(string, string)>, extra: (string, string), back: seq<(string, string)>, name: string)
    requires Lower(extra.0) != name
    ensures var a := LastColumnNamed(front + [extra] + back, name);
      var b := LastColumnNamed(front + back, name);
      a.Some? == b.Some? &&
      (a.Some? ==> (front + [extra] + back)[a.value] == (front + back)[b.value])
    decreases |back|
  {
    if |back| == 0 {
      assert front + [extra] + back == front + [extra];
      assert front + back == front;
      LastColumnSnoc(front, extra, name);
    } else {
      var lastCol := back[|back| - 1];
      var back' := back[..|back| - 1];
      assert front + [extra] + back == (front + [extra] + back') + [lastCol];
      assert front + back == (front + back') + [lastCol];
      LastColumnSnoc(front + [extra] + back', lastCol, name);
      LastColumnSnoc(front + back', lastCol, name);
      if Lower(lastCol.0) != name {
        SkipExtra(front, extra, back', name);
      }
    }
  }

  /** Appending a column: it is the last one named `name` if it has that name, else nothing changes. */
  lemma LastColumnSnoc(columns: seq<(string, string)>, c: (string, string), name: string)
    ensures LastColumnNamed(columns + [c], name) ==
      if Lower(c.0) == name then Some(|columns|) else LastColumnNamed(columns, name)
  {
    assert (columns + [c])[..|columns|] == columns;
  }

  /** Renaming and retyping columns in another letter case gives the same verdict. */
  lemma CaseInsensitive(columns: seq<(string, string)>, renamed: seq<(string, string)>)
    requires |columns| == |renamed|
    requires forall i | 0 <= i < |columns| ::
      Lower(columns[i].0) == Lower(renamed[i].0) && Upper(columns[i].1) == Upper(renamed[i].1)
    ensures IsTableStructureCompatible(columns) == IsTableStructureCompatible(renamed)
  {
    SameFoldedColumns(columns, renamed);
  }

  lemma {:induction false} SameFoldedColumns(columns: seq<(string, string)>, renamed: seq<(string, string)>)
    requires |columns| == |renamed|
    requires forall i | 0 <= i < |columns| ::
      Lower(columns[i].0) == Lower(renamed[i].0) && Upper(columns[i].1) == Upper(renamed[i].1)
    ensures ExistingColumns(columns) == ExistingColumns(renamed)
  {
    if |columns| > 0 {
      SameFoldedColumns(columns[..|columns| - 1], renamed[..|renamed| - 1]);
    }
  }

  // ---------------------------------------------------------------------------
  // `init`: which DDL runs

  datatype Ddl = DropTable | CreateTable | AddMissingColumns

  /** What escapes `init`: nothing, the `IllegalStateException` asking for a migration, or a failed statement. */
  datatype Failure = MigrationRequired | StatementFailed(ddl: Ddl)

  datatype InitResult = InitResult(attempted: seq<Ddl>, thrown: Option<Failure>)

  /** Whether the `n`-th DDL statement succeeds; statements beyond the list succeed. */
  predicate Succeeds(outcomes: seq<bool>, n: nat) {
    n >= |outcomes| || outcomes[n]
  }

  /** The body of the `try` block: the branch on table existence, the drop flag and compatibility. */
  function InitBranch(tableExists: bool, dropExistingTable: bool, compatible: bool, outcomes: seq<bool>): (r: InitResult)
    ensures DropTable in r.attempted ==> tableExists && dropExistingTable
    ensures r.thrown == Some(MigrationRequired) <==>
      tableExists && !dropExistingTable && !compatible && !Succeeds(outcomes, 0)
    ensures 1 <= |r.attempted| <= 2
  {
    if tableExists then
      if dropExistingTable then
        if !Succeeds(outcomes, 0) then InitResult([DropTable], Some(StatementFailed(DropTable)))
        else if !Succeeds(outcomes, 1) then InitResult([DropTable, CreateTable], Some(StatementFailed(CreateTable)))
        else InitResult([DropTable, CreateTable], None)
      else if compatible then
        if Succeeds(outcomes, 0) then InitResult([AddMissingColumns], None)
        else InitResult([AddMissingColumns], Some(StatementFailed(AddMissingColumns)))
      else
        if Succeeds(outcomes, 0) then InitResult([AddMissingColumns], None)
        else InitResult([AddMissingColumns], Some(MigrationRequired))
    else
      if Succeeds(outcomes, 0) then InitResult([CreateTable], None)
      else InitResult([CreateTable], Some(StatementFailed(CreateTable)))
  }

  /** The outer `catch (e: Exception)`: retry an incremental update and rethrow only its failure. */
  function Fallback(branch: InitResult, outcomes: seq<bool>): (r: InitResult)
    ensures r.attempted == branch.attempted + [AddMissingColumns]
    ensures r.thrown.None? || r.thrown == Some(StatementFailed(AddMissingColumns))
  {
    if Succeeds(outcomes, |branch.attempted|) then InitResult(branch.attempted + [AddMissingColumns], None)
    else InitResult(branch.attempted + [AddMissingColumns], Some(StatementFailed(AddMissingColumns)))
  }

  /**
   * `init` as written: the outer handler catches every `Exception`, and
   * `IllegalStateException` is one, so the migration error is caught by it too.
   */
  function InitAsWritten(tableExists: bool, dropExistingTable: bool, compatible: bool, outcomes: seq<bool>): (r: InitResult)
    ensures DropTable in r.attempted ==> tableExists && dropExistingTable
    ensures r.thrown != Some(MigrationRequired)
  {
    var branch := InitBranch(tableExists, dropExistingTable, compatible, outcomes);
    if branch.thrown.None? then branch else Fallback(branch, outcomes)
  }

  /** An incompatible table whose first update fails but whose retry succeeds initialises without any error. */
  lemma IncompatibleTableSilentlyAccepted()
    ensures InitAsWritten(true, false, false, [false, true]) == InitResult([AddMissingColumns, AddMissingColumns], None)
    ensures InitBranch(true, false, false, [false, true]).thrown == Some(MigrationRequired)
  {
  }

  /**
   * `init` as its comments intend: the migration error reaches the caller, and
   * only the other failures go to the fallback update.
   */
  function Init(tableExists: bool, dropExistingTable: bool, compatible: bool, outcomes: seq<bool>): (r: InitResult)
    ensures DropTable in r.attempted ==> tableExists && dropExistingTable
    ensures r.thrown == Some(MigrationRequired) <==>
      tableExists && !dropExistingTable && !compatible && !Succeeds(outcomes, 0)
  {
    var branch := InitBranch(tableExists, dropExistingTable, compatible, outcomes);
    if branch.thrown.None? || branch.thrown == Some(MigrationRequired) then branch
    else Fallback(branch, outcomes)
  }

  /** Which branch runs: create when absent, drop then create when asked, otherwise only incremental updates. */
  lemma InitBranchSelection(tableExists: bool, dropExistingTable: bool, compatible: bool, outcomes: seq<bool>)
    ensures var r := Init(tableExists, dropExistingTable, compatible, outcomes);
      (!tableExists ==> r.attempted[0] == CreateTable) &&
      (tableExists && dropExistingTable ==> r.attempted[0] == DropTable) &&
      (tableExists && !dropExistingTable ==> forall k | 0 <= k < |r.attempted| :: r.attempted[k] == AddMissingColumns)
    ensures var r := Init(tableExists, dropExistingTable, compatible, outcomes);
      Succeeds(outcomes, 0) && Succeeds(outcomes, 1) ==> r.thrown.None?
  {
  }
}

=== FILE: double_back.dfy ===
/**
 * Double-back-to-exit on Android: the first back press on the main page is
 * remembered (`firstBackClickTime`, epoch milliseconds) and a hint is shown;
 * a second press at most two seconds later exits the app. The composable
 * state, the toast, the activity and the clock become parameters and
 * returned actions.
 */
module DoubleBack {
  import opened Wrappers

  /** The exit window, and the delay before the reset clears the record. */
  const ExitWindowMs: int := 2000
  const ResetDelayMs: int := 2000

  /** `NavController.isCurrent(route)`: some node of the current destination's hierarchy has that route. */
  predicate IsCurrent(hierarchy: Option<seq<Option<string>>>, route: string) {
    hierarchy.Some? && exists i | 0 <= i < |hierarchy.value| :: hierarchy.value[i] == Some(route)
  }

  /** The interception is enabled exactly while the main page is current. */
  function Enabled(hierarchy: Option<seq<Option<string>>>, mainPageRoute: string): (enabled: bool)
    ensures enabled <==> hierarchy.Some? && Some(mainPageRoute) in hierarchy.value
  {
    IsCurrent(hierarchy, mainPageRoute)
  }

  /** The callbacks `HandleDoubleBackToExit` passes in, as changes to the record. */
  function OnFirstBackClick(currentTime: int): (record: Option<int>)
    ensures record == Some(currentTime)
  {
    Some(currentTime)
  }

  function OnDoubleBackClick(): (record: Option<int>)
    ensures record.None?
  {
    None
  }

  /** The reset coroutine: it clears whatever is recorded when it fires. */
  function OnResetTimeoutFires(record: Option<int>): (record': Option<int>)
    ensures record'.None?
  {
    None
  }

  /** What a back press does besides changing the record. */
  datatype Action = FinishAffinity | ShowHint | ScheduleReset(dueAt: int)

  datatype PressResult = PressResult(record: Option<int>, actions: seq<Action>)

  /**
   * A back press at `now`. Disabled: not intercepted. A record within the
   * window (inclusive): exit, when the context is an activity, and clear. A
   * stale record: re-record and hint. No record: record, hint, and schedule the
   * reset.
   */
  function OnBackPressed(enabled: bool, isActivity: bool, record: Option<int>, now: int): (r: PressResult)
    ensures !enabled ==> r == PressResult(record, [])
    ensures enabled && record.Some? && now - record.value <= ExitWindowMs ==>
      r.record == OnDoubleBackClick() && r.actions == (if isActivity then [FinishAffinity] else [])
    ensures enabled && record.Some? && now - record.value > ExitWindowMs ==>
      r == PressResult(OnFirstBackClick(now), [ShowHint])
    ensures enabled && record.None? ==>
      r == PressResult(OnFirstBackClick(now), [ShowHint, ScheduleReset(now + ResetDelayMs)])
  {
    if !enabled then PressResult(record, [])
    else match record
      case Some(lastTime) =>
        if now - lastTime <= ExitWindowMs then
          PressResult(OnDoubleBackClick(), if isActivity then [FinishAffinity] else [])
        else PressResult(OnFirstBackClick(now), [ShowHint])
      case None => PressResult(OnFirstBackClick(now), [ShowHint, ScheduleReset(now + ResetDelayMs)])
  }

  predicate Exits(r: PressResult) {
    FinishAffinity in r.actions
  }

  /** A press exits exactly when enabled in an activity with a press recorded at most 2000 ms before. */
  lemma ExitIffWithinWindow(enabled: bool, isActivity: bool, record: Option<int>, now: int)
    ensures Exits(OnBackPressed(enabled, isActivity, record, now)) <==>
      enabled && isActivity && record.Some? && now - record.value <= 2000
  {
  }

  /** Only the first press of a fresh sequence schedules the reset; no press both exits and records. */
  lemma OnlyFreshPressSchedules(enabled: bool, isActivity: bool, record: Option<int>, now: int)
    ensures var r := OnBackPressed(enabled, isActivity, record, now);
      (exists d :: ScheduleReset(d) in r.actions) <==> enabled && record.None?
    ensures var r := OnBackPressed(enabled, isActivity, record, now);
      enabled ==> (r.record.None? <==> record.Some? && now - record.value <= ExitWindowMs)
  {
    var r := OnBackPressed(enabled, isActivity, record, now);
    if enabled && record.None? {
      assert ScheduleReset(now + ResetDelayMs) in r.actions;
    }
  }

  /**
   * Two presses from a clean start, `gap` ms apart and with the reset not yet
   * fired: the second exits exactly when `gap <= 2000`, so a gap of exactly
   * 2000 ms still exits.
   */
  lemma TwoPresses(isActivity: bool, t: int, gap: int)
    requires isActivity
    ensures var first := OnBackPressed(true, isActivity, None, t);
      Exits(OnBackPressed(true, isActivity, first.record, t + gap)) <==> gap <= 2000
    ensures var first := OnBackPressed(true, isActivity, None, t);
      Exits(OnBackPressed(true, isActivity, first.record, t + 2000))
  {
  }

  /** Once the reset has fired, the next press starts over instead of exiting. */
  lemma ResetStartsOver(isActivity: bool, t: int, later: int)
    ensures var first := OnBackPressed(true, isActivity, None, t);
      var second := OnBackPressed(true, isActivity, OnResetTimeoutFires(first.record), later);
      !Exits(second) && second.record == Some(later)
  {
  }
}

=== FILE: error_handler.dfy ===
/**
 * The server's status pages: which HTTP status and message an uncaught
 * throwable produces, and the bodies of the 404 and 405 pages. The throwable's
 * class is placed in the JDK hierarchy, so a subclass is handled by the branch
 * of its nearest handled ancestor.
 */
module ErrorHandling {
  import opened Wrappers
  import opened ApiResponse

  /** The JDK throwable classes the handler can tell apart, plus two stand-ins for the rest. */
  datatype ExnClass =
    | Throwable | Exception | Error | RuntimeException | IOException
    | IllegalArgumentException | NumberFormatException | PatternSyntaxException
    | IllegalStateException | CancellationException
    | NoSuchElementException | InputMismatchException
    | SecurityException
    | UnsupportedOperationException | ReadOnlyBufferException
    | OtherRuntimeException | OtherException

  /** The direct superclass, as in the JDK. */
  function Parent(c: ExnClass): Option<ExnClass> {
    match c
    case Throwable => None
    case Exception => Some(Throwable)
    case Error => Some(Throwable)
    case RuntimeException => Some(Exception)
    case IOException => Some(Exception)
    case OtherException => Some(Exception)
    case IllegalArgumentException => Some(RuntimeException)
    case IllegalStateException => Some(RuntimeException)
    case NoSuchElementException => Some(RuntimeException)
    case SecurityException => Some(RuntimeException)
    case UnsupportedOperationException => Some(RuntimeException)
    case OtherRuntimeException => Some(RuntimeException)
    case NumberFormatException => Some(IllegalArgumentException)
    case PatternSyntaxException => Some(IllegalArgumentException)
    case CancellationException => Some(IllegalStateException)
    case InputMismatchException => Some(NoSuchElementException)
    case ReadOnlyBufferException => Some(UnsupportedOperationException)
  }

  /** All strict superclasses, from the parent up to `Throwable`. */
  function Ancestors(c: ExnClass): set<ExnClass> {
    match c
    case Throwable => {}
    case Exception | Error => {Throwable}
    case RuntimeException | IOException | OtherException => {Exception, Throwable}
    case IllegalArgumentException | IllegalStateException | NoSuchElementException
      | SecurityException | UnsupportedOperationException | OtherRuntimeException =>
      {RuntimeException, Exception, Throwable}
    case NumberFormatException | PatternSyntaxException => {IllegalArgumentException, RuntimeException, Exception, Throwable}
    case CancellationException => {IllegalStateException, RuntimeException, Exception, Throwable}
    case InputMismatchException => {NoSuchElementException, RuntimeException, Exception, Throwable}
    case ReadOnlyBufferException => {UnsupportedOperationException, RuntimeException, Exception, Throwable}
  }

  /** The ancestor sets are exactly the parent chains. */
  lemma AncestorsFollowParents(c: ExnClass)
    ensures Parent(c).None? ==> Ancestors(c) == {}
    ensures Parent(c).Some? ==> Ancestors(c) == {Parent(c).value} + Ancestors(Parent(c).value)
    ensures c !in Ancestors(c)
  {
  }

  /** Kotlin's `is`: `c` is `a` or one of its subclasses. */
  predicate IsA(c: ExnClass, a: ExnClass) {
    c == a || a in Ancestors(c)
  }

  /** The handler's categories. */
  datatype ExnKind = IllegalArgument | IllegalState | NoSuchElement | Security | UnsupportedOperation | Internal

  /** The `when (cause)` dispatch, first matching branch first. */
  function KindOf(c: ExnClass): ExnKind {
    if IsA(c, IllegalArgumentException) then IllegalArgument
    else if IsA(c, IllegalStateException) then IllegalState
    else if IsA(c, NoSuchElementException) then NoSuchElement
    else if IsA(c, SecurityException) then Security
    else if IsA(c, UnsupportedOperationException) then UnsupportedOperation
    else Internal
  }

  /** The class each non-internal kind stands for. */
  function KindClass(k: ExnKind): ExnClass
    requires k != Internal
  {
    match k
    case IllegalArgument => IllegalArgumentException
    case IllegalState => IllegalStateException
    case NoSuchElement => NoSuchElementException
    case Security => SecurityException
    case UnsupportedOperation => UnsupportedOperationException
  }

  /**
   * The five handled classes are unrelated, so at most one branch can match
   * and the order of the branches decides nothing: a class gets a handled kind
   * exactly when it descends from that kind's class.
   */
  lemma KindIsNearestHandledAncestor(c: ExnClass)
    ensures KindOf(c) == IllegalArgument <==> IsA(c, IllegalArgumentException)
    ensures KindOf(c) == IllegalState <==> IsA(c, IllegalStateException)
    ensures KindOf(c) == NoSuchElement <==> IsA(c, NoSuchElementException)
    ensures KindOf(c) == Security <==> IsA(c, SecurityException)
    ensures KindOf(c) == UnsupportedOperation <==> IsA(c, UnsupportedOperationException)
    ensures KindOf(c) == Internal <==>
      c in {Throwable, Exception, Error, RuntimeException, IOException, OtherException, OtherRuntimeException}
  {
    match c
    case Throwable =>
    case Exception =>
    case Error =>
    case RuntimeException =>
    case IOException =>
    case OtherException =>
    case OtherRuntimeException =>
    case IllegalArgumentException =>
    case NumberFormatException =>
    case PatternSyntaxException =>
    case IllegalStateException =>
    case CancellationException =>
    case NoSuchElementException =>
    case InputMismatchException =>
    case SecurityException =>
    case UnsupportedOperationException =>
    case ReadOnlyBufferException =>
  }

  /** A subclass is handled like its parent, unless the parent is a general class that falls through. */
  lemma SubclassInheritsKind(c: ExnClass)
    requires Parent(c).Some? && KindOf(Parent(c).value) != Internal
    ensures KindOf(c) == KindOf(Parent(c).value)
  {
    AncestorsFollowParents(c);
    KindIsNearestHandledAncestor(c);
    KindIsNearestHandledAncestor(Parent(c).value);
  }

  /** A thrown `cause`: its class and its possibly-null message. */
  datatype Cause = Cause(cls: ExnClass, message: Option<string>)

  /** String interpolation of a nullable message. */
  function Interpolated(m: Option<string>): (s: string)
    ensures m.Some? ==> s == m.value
    ensures m.None? ==> s == "null"
  {
    m.GetOr("null")
  }

  function StatusOf(k: ExnKind): (status: int)
    ensures k == IllegalArgument || k == IllegalState ==> status == 400
    ensures k == NoSuchElement ==> status == 404
    ensures k == Security ==> status == 403
    ensures k == UnsupportedOperation ==> status == 501
    ensures k == Internal ==> status == 500
  {
    match k
    case IllegalArgument => 400
    case IllegalState => 400
    case NoSuchElement => 404
    case Security => 403
    case UnsupportedOperation => 501
    case Internal => 500
  }

  /** The fixed text before the cause's message for each kind; the internal one is for non-production servers. */
  function Prefix(k: ExnKind): string {
    match k
    case IllegalArgument => "请求参数错误: "
    case IllegalState => "请求状态错误: "
    case NoSuchElement => "资源不存在: "
    case Security => "访问被拒绝: "
    case UnsupportedOperation => "功能未实现: "
    case Internal => "服务器内部错误: "
  }

  const ProductionInternalMessage: string := "服务器内部错误，请稍后重试"

  datatype Reply = Reply(status: int, body: BaseApiResponse<()>)

  predicate IsProduction(environment: Option<string>) {
    environment == Some("production")
  }

  /** The reply to an uncaught `cause`; `environment` is the `ENVIRONMENT` variable. */
  function Respond(cause: Cause, environment: Option<string>): (r: Reply)
    ensures r.status == StatusOf(KindOf(cause.cls))
    ensures r.body.code == r.status && r.body.data.None? && r.body.message.Some?
    ensures KindOf(cause.cls) != Internal || !IsProduction(environment) ==>
      r.body.message == Some(Prefix(KindOf(cause.cls)) + Interpolated(cause.message))
    ensures KindOf(cause.cls) == Internal && IsProduction(environment) ==>
      r.body.message == Some(ProductionInternalMessage)
  {
    var kind := KindOf(cause.cls);
    var message :=
      if kind == Internal && IsProduction(environment) then ProductionInternalMessage
      else Prefix(kind) + Interpolated(cause.message);
    Reply(StatusOf(kind), BaseApiResponse(StatusOf(kind), Some(message), None))
  }

  /** In production an internal error's reply does not depend on the cause's message at all. */
  lemma ProductionHidesMessage(a: Cause, b: Cause, environment: Option<string>)
    requires KindOf(a.cls) == Internal && KindOf(b.cls) == Internal && IsProduction(environment)
    ensures Respond(a, environment) == Respond(b, environment)
  {
  }

  /** Outside production, and for every handled kind, different messages give different replies. */
  lemma MessageIsShown(a: Cause, b: Cause, environment: Option<string>)
    requires a.cls == b.cls && a.message.Some? && b.message.Some? && a.message != b.message
    requires KindOf(a.cls) != Internal || !IsProduction(environment)
    ensures Respond(a, environment) != Respond(b, environment)
  {
    var p := Prefix(KindOf(a.cls));
    var ma := Respond(a, environment).body.message.value;
    var mb := Respond(b, environment).body.message.value;
    assert ma[|p|..] == a.message.value;
    assert mb[|p|..] == b.message.value;
  }

  /** The `StatusPages` handlers for bare statuses: 404 and 405 each with a fixed message. */
  function StatusPage(status: int): (r: Option<Reply>)
    ensures r.Some? <==> status == 404 || status == 405
    ensures r.Some? ==> r.value.status == status && r.value.body.code == status && r.value.body.data.None?
    ensures status == 404 ==> r.value.body.message == Some("请求的资源不存在")
    ensures status == 405 ==> r.value.body.message == Some("不支持的请求方法")
  {
    if status == 404 then Some(Reply(404, BaseApiResponse(404, Some("请求的资源不存在"), None)))
    else if status == 405 then Some(Reply(405, BaseApiResponse(405, Some("不支持的请求方法"), None)))
    else None
  }

  /**
   * Every reply the error handling sends, for an uncaught exception or a bare
   * 404/405, reads on the client as a failure (`isCodeSuccess()` is false) with
   * a non-empty `getMessage()`, so a `ResponseFailException` built from it
   * always has something to show.
   */
  lemma ErrorRepliesReadAsFailures(cause: Cause, environment: Option<string>, status: int)
    ensures var b := Respond(cause, environment).body;
      !b.IsCodeSuccess() && !b.IsSuccessTrue() && b.GetMessage() != ""
    ensures StatusPage(status).Some? ==>
      var b := StatusPage(status).value.body;
      !b.IsCodeSuccess() && b.GetMessage() != ""
  {
  }
}

=== FILE: logging.dfy ===
/**
 * kmplog's emit path, shared by `KLog` and `LogManager`: a record is built
 * when the level's priority reaches the configured minimum, and every sink
 * is handed it in list order, a throwing sink being skipped. The clock is
 * a parameter; a sink is its identity plus which records make it throw, and
 * the output is the trace of successful writes.
 */
module Logging {
  import opened Wrappers

  datatype LogLevel = DEBUG | INFO | WARN | ERROR

  function Priority(level: LogLevel): int {
    match level
    case DEBUG => 10
    case INFO => 20
    case WARN => 30
    case ERROR => 40
  }

  /** A `Throwable`, by its description. */
  datatype Throwable = Throwable(description: string)

  /** `LogContent`; context values are `Any?`, kept here as optional strings. */
  datatype LogContent = LogContent(
    timestampMillis: int,
    level: LogLevel,
    tag: string,
    message: string,
    throwable: Option<Throwable>,
    context: Option<map<string, Option<string>>>)

  /** A `LogSink`: whether `write` throws depends on the record. */
  datatype Sink = Sink(id: int, throwsOn: LogContent -> bool)

  /** `ConsoleLogSink`: writes nothing and never throws. */
  const ConsoleSinkId: int := 0
  const ConsoleLogSink: Sink := Sink(ConsoleSinkId, (c: LogContent) => false)

  /** `LogConfig`; the default context is carried but no emit reads it. */
  datatype LogConfig = LogConfig(
    miniLevel: LogLevel,
    sinks: seq<Sink>,
    defaultContext: Option<map<string, Option<string>>>)

  /** `LogConfig()`: everything from DEBUG up, to the console. */
  const DefaultConfig: LogConfig := LogConfig(DEBUG, [ConsoleLogSink], None)

  /** A successful `sink.write(record)`. */
  datatype Written = Written(sinkId: int, record: LogContent)

  /** Reference semantics of the `forEach` with `runCatching`: each sink in order, failures dropped. */
  function Deliver(sinks: seq<Sink>, record: LogContent): (trace: seq<Written>)
    ensures |trace| <= |sinks|
    ensures forall w | w in trace :: w.record == record
    decreases |sinks|
  {
    if |sinks| == 0 then []
    else
      var last := sinks[|sinks| - 1];
      Deliver(sinks[..|sinks| - 1], record) + (if last.throwsOn(record) then [] else [Written(last.id, record)])
  }

  /** The write loop itself: every sink is attempted once, in order. */
  method WriteAll(sinks: seq<Sink>, record: LogContent) returns (trace: seq<Written>, attempts: nat)
    ensures trace == Deliver(sinks, record)
    ensures attempts == |sinks|
  {
    trace, attempts := [], 0;
    var i := 0;
    while i < |sinks|
      invariant 0 <= i <= |sinks|
      invariant attempts == i
      invariant trace == Deliver(sinks[..i], record)
    {
      var sink := sinks[i];
      assert sinks[..i + 1][..i] == sinks[..i];
      if !sink.throwsOn(record) {
        trace := trace + [Written(sink.id, record)];
      }
      attempts := attempts + 1;
      i := i + 1;
    }
    assert sinks[..i] == sinks;
  }

  /** Delivering to two lists in turn is delivering to their concatenation. */
  lemma {:induction false} DeliverAppend(a: seq<Sink>, b: seq<Sink>, record: LogContent)
    ensures Deliver(a + b, record) == Deliver(a, record) + Deliver(b, record)
    decreases |b|
  {
    if |b| == 0 {
      assert a + b == a;
    } else {
      var b' := b[..|b| - 1];
      assert (a + b)[..|a + b| - 1] == a + b';
      assert (a + b)[|a + b| - 1] == b[|b| - 1];
      DeliverAppend(a, b', record);
    }
  }

  /** A sink that throws is skipped: the sinks after it still receive the record. */
  lemma ThrowingSinkIsSkipped(before: seq<Sink>, bad: Sink, after: seq<Sink>, record: LogContent)
    requires bad.throwsOn(record)
    ensures Deliver(before + [bad] + after, record) == Deliver(before, record) + Deliver(after, record)
  {
    DeliverAppend(before + [bad], after, record);
    DeliverAppend(before, [bad], record);
    assert Deliver([bad], record) == [] by {
      assert [bad][..0] == [];
    }
    assert Deliver(before + [bad], record) == Deliver(before, record);
  }

  /** When no sink throws, sink `i` gets the `i`-th write. */
  lemma {:induction false} AllHealthyAllWritten(sinks: seq<Sink>, record: LogContent)
    requires forall i | 0 <= i < |sinks| :: !sinks[i].throwsOn(record)
    ensures |Deliver(sinks, record)| == |sinks|
    ensures forall i | 0 <= i < |sinks| :: Deliver(sinks, record)[i] == Written(sinks[i].id, record)
    decreases |sinks|
  {
    if |sinks| > 0 {
      AllHealthyAllWritten(sinks[..|sinks| - 1], record);
    }
  }

  /** A sink's writes in the trace: one if it does not throw, none if it does. */
  lemma {:induction false} WrittenIffHealthy(sinks: seq<Sink>, record: LogContent, id: int)
    requires forall i, j | 0 <= i < j < |sinks| :: sinks[i].id != sinks[j].id
    ensures Written(id, record) in Deliver(sinks, record) <==>
      exists i | 0 <= i < |sinks| :: sinks[i].id == id && !sinks[i].throwsOn(record)
    decreases |sinks|
  {
    if |sinks| > 0 {
      WrittenIffHealthy(sinks[..|sinks| - 1], record, id);
      assert forall i | 0 <= i < |sinks| - 1 :: sinks[..|sinks| - 1][i] == sinks[i];
    }
  }

  /** The logger object: its current configuration. */
  datatype Logger = Logger(config: LogConfig)

  /** `KLog`/`LogManager` before any `install`. */
  const InitialLogger: Logger := Logger(DefaultConfig)

  /** `install(config)`. */
  function Install(logger: Logger, config: LogConfig): (logger': Logger)
    ensures logger'.config == config
  {
    Logger(config)
  }

  /** The effect of one `emit`: the record built, if any, and the successful writes. */
  datatype Emitted = Emitted(record: Option<LogContent>, trace: seq<Written>)

  /** `emit(level, tag, message, throwable, context)` at clock time `now`. */
  function Emit(logger: Logger, level: LogLevel, tag: string, message: string,
                throwable: Option<Throwable>, context: Option<map<string, Option<string>>>, now: int): (r: Emitted)
    ensures r.record.Some? <==> Priority(level) >= Priority(logger.config.miniLevel)
    ensures r.record.None? ==> r.trace == []
    ensures r.record.Some? ==>
      r.record.value == LogContent(now, level, tag, message, throwable, context) &&
      r.trace == Deliver(logger.config.sinks, r.record.value)
  {
    var cfg := logger.config;
    if Priority(cfg.miniLevel) > Priority(level) then Emitted(None, [])
    else
      var record := LogContent(now, level, tag, message, throwable, context);
      Emitted(Some(record), Deliver(cfg.sinks, record))
  }

  /** Lowering the minimum never suppresses a record that got through. */
  lemma FilterMonotone(logger: Logger, lower: LogLevel, level: LogLevel, tag: string, message: string, now: int)
    requires Priority(lower) <= Priority(logger.config.miniLevel)
    ensures Emit(logger, level, tag, message, None, None, now).record.Some? ==>
      Emit(Install(logger, logger.config.(miniLevel := lower)), level, tag, message, None, None, now).record.Some?
  {
  }

  /** `KLog.d`/`i`/`w`/`e`: the level is fixed and the throwable and context arguments are dropped. */
  function Log(logger: Logger, level: LogLevel, tag: string, message: string,
               throwable: Option<Throwable>, context: Option<map<string, Option<string>>>, now: int): (r: Emitted)
    ensures r.record.Some? ==> r.record.value.throwable.None? && r.record.value.context.None?
    ensures r.record.Some? ==> r.record.value.level == level && r.record.value.message == message
  {
    Emit(logger, level, tag, message, None, None, now)
  }

  function D(logger: Logger, tag: string, message: string,
             throwable: Option<Throwable>, context: Option<map<string, Option<string>>>, now: int): (r: Emitted)
    ensures r.record.Some? ==> r.record.value.level == DEBUG
  {
    Log(logger, DEBUG, tag, message, throwable, context, now)
  }

  function I(logger: Logger, tag: string, message: string,
             throwable: Option<Throwable>, context: Option<map<string, Option<string>>>, now: int): (r: Emitted)
    ensures r.record.Some? ==> r.record.value.level == INFO
  {
    Log(logger, INFO, tag, message, throwable, context, now)
  }

  function W(logger: Logger, tag: string, message: string,
             throwable: Option<Throwable>, context: Option<map<string, Option<string>>>, now: int): (r: Emitted)
    ensures r.record.Some? ==> r.record.value.level == WARN
  {
    Log(logger, WARN, tag, message, throwable, context, now)
  }

  function E(logger: Logger, tag: string, message: string,
             throwable: Option<Throwable>, context: Option<map<string, Option<string>>>, now: int): (r: Emitted)
    ensures r.record.Some? ==> r.record.value.level == ERROR
  {
    Log(logger, ERROR, tag, message, throwable, context, now)
  }
}

=== FILE: multi_state_layout.dfy ===
/**
 * `MultiStateLayout`: the six page states, the transition chosen between two
 * of them, and the one slot each state renders. The `ContentTransform` is
 * reduced to which of the three transitions is chosen and its scale factors;
 * composables and retry callbacks become tokens.
 */
module MultiStateLayout {
  import opened Wrappers

  /**
   * A throwable shown by the error state: either the `ResponseFailException`
   * built from a non-2xx response (its message is the response's
   * `getMessage()`), or any other throwable. `identity` says which object it
   * is: Kotlin compares throwables by reference, so two failures with the same
   * code and message are still different objects, and `Error` states holding
   * them are different states.
   */
  datatype Throwable =
    | ResponseFailException(identity: nat, code: int, message: string)
    | OtherThrowable(identity: nat, name: string, isException: bool)

  /** `MultiStateLayoutState`. */
  datatype MultiStateLayoutState = Content | Loading | Empty | Error(throwable: Option<Throwable>) | Offline | Extension

  /** The three `ContentTransform`s of `getMultiStateTransition`. */
  datatype Transition = ContentEnters | ContentExits | Fade

  /** `scaleIn(initialScale)` of the entering side; a plain fade does not scale. */
  function EnterScale(t: Transition): Option<real> {
    match t
    case ContentEnters => Some(0.8)
    case ContentExits => Some(1.2)
    case Fade => None
  }

  /** `scaleOut(targetScale)` of the exiting side. */
  function ExitScale(t: Transition): Option<real> {
    match t
    case ContentEnters => Some(1.2)
    case ContentExits => Some(0.8)
    case Fade => None
  }

  /** `getMultiStateTransition(initialState, targetState)`. */
  function GetMultiStateTransition(initial: MultiStateLayoutState, target: MultiStateLayoutState): (t: Transition)
    ensures t == ContentEnters <==> target.Content? && !initial.Content?
    ensures t == ContentExits <==> !target.Content? && initial.Content?
    ensures t == Fade <==> target.Content? == initial.Content?
  {
    var isEnteringContent := target.Content?;
    var isExitingContent := initial.Content?;
    if isEnteringContent && !isExitingContent then ContentEnters
    else if !isEnteringContent && isExitingContent then ContentExits
    else Fade
  }

  /**
   * Going back undoes the animation: the reverse change picks the mirror
   * transition, whose scales are the forward ones swapped.
   */
  lemma TransitionMirrors(a: MultiStateLayoutState, b: MultiStateLayoutState)
    ensures GetMultiStateTransition(a, b) == ContentEnters <==> GetMultiStateTransition(b, a) == ContentExits
    ensures GetMultiStateTransition(a, b) == Fade <==> GetMultiStateTransition(b, a) == Fade
    ensures EnterScale(GetMultiStateTransition(a, b)) == ExitScale(GetMultiStateTransition(b, a))
  {
  }

  /** The retry callback handed to the layout. */
  datatype Retry = Retry(id: int)

  /** The slot a state is rendered with, and what is passed to it. */
  datatype Slot =
    | ContentSlot
    | LoadingSlot
    | EmptySlot
    | ErrorSlot(throwable: Option<Throwable>, onRetry: Retry)
    | OfflineSlot(onRetry: Retry)
    | ExtensionSlot

  /** `StateContainer`: the one slot for a state. */
  function StateContainer(state: MultiStateLayoutState, onRetry: Retry): (s: Slot)
    ensures s.ErrorSlot? <==> state.Error?
    ensures s.ErrorSlot? ==> s.throwable == state.throwable && s.onRetry == onRetry
    ensures s.OfflineSlot? <==> state.Offline?
    ensures s.OfflineSlot? ==> s.onRetry == onRetry
  {
    match state
    case Content => ContentSlot
    case Loading => LoadingSlot
    case Empty => EmptySlot
    case Error(t) => ErrorSlot(t, onRetry)
    case Offline => OfflineSlot(onRetry)
    case Extension => ExtensionSlot
  }

  /** The state a slot shows: the inverse of `StateContainer`. */
  function SlotState(s: Slot): MultiStateLayoutState {
    match s
    case ContentSlot => Content
    case LoadingSlot => Loading
    case EmptySlot => Empty
    case ErrorSlot(t, _) => Error(t)
    case OfflineSlot(_) => Offline
    case ExtensionSlot => Extension
  }

  /** Each state is shown by its own slot: the slot determines the state. */
  lemma SlotShowsItsState(state: MultiStateLayoutState, onRetry: Retry)
    ensures SlotState(StateContainer(state, onRetry)) == state
  {
  }

  /** What one composition shows: the transition, when animated, and the slot. */
  datatype Rendered = Rendered(transition: Option<Transition>, slot: Slot)

  /**
   * `MultiStateLayout` recomposed with `state` after showing `previous`.
   * `AnimatedContent` runs its transition only when the target state changes;
   * without animation the slot is swapped directly.
   */
  function Layout(previous: MultiStateLayoutState, state: MultiStateLayoutState, enableAnimation: bool, onRetry: Retry)
    : (r: Rendered)
    ensures r.slot == StateContainer(state, onRetry)
    ensures r.transition.Some? <==> enableAnimation && previous != state
    ensures r.transition.Some? ==> r.transition.value == GetMultiStateTransition(previous, state)
  {
    if enableAnimation && previous != state then
      Rendered(Some(GetMultiStateTransition(previous, state)), StateContainer(state, onRetry))
    else Rendered(None, StateContainer(state, onRetry))
  }

  /**
   * Failing again with an identical response still animates: the new failure
   * is a different throwable object, so the target state changes and the
   * error page fades to the new one.
   */
  lemma RepeatedFailureFades(a: Throwable, b: Throwable, onRetry: Retry)
    requires a.identity != b.identity
    ensures Layout(Error(Some(a)), Error(Some(b)), true, onRetry).transition == Some(Fade)
    ensures Layout(Error(Some(a)), Error(Some(a)), true, onRetry).transition.None?
  {
  }
}

=== FILE: pull_refresh_state.dfy ===
/**
 * The pull-to-refresh engine of `PullRefreshState`: the drag distance, the derived
 * progress, the nested-scroll interception and the release / finish transitions.
 *
 * Pixel distances are `real`s (float rounding is not modelled). Every animation is
 * collapsed to the value it commits when it ends; the duration it would have run
 * for is reported alongside the new state. The `onRefresh` callback is recorded as
 * an event in an output trace.
 */
module PullRefresh {

  /**
   * Construction parameters, in pixels. `damp` is the damping factor as a function
   * of the current progress towards the maximum drag; the source computes
   * 0.7 * (1 - p)^1.5, which Dafny cannot evaluate, so only the two properties the
   * model relies on are required of it (see `DampingOk`).
   */
  datatype Config = Config(threshold: real, maxDrag: real, damp: real -> real)

  /** The damping factor never exceeds 0.7 and never grows as the pull gets longer. */
  ghost predicate DampingOk(damp: real -> real) {
    && (forall p :: 0.0 <= p < 1.0 ==> 0.0 <= damp(p) <= 0.7)
    && (forall p, q :: 0.0 <= p <= q < 1.0 ==> damp(q) <= damp(p))
  }

  /** The constructor does not check it, but every use assumes 0 < threshold <= max. */
  ghost predicate ConfigOk(c: Config) {
    0.0 < c.threshold <= c.maxDrag && DampingOk(c.damp)
  }

  /** The observable fields of `PullRefreshState`. */
  datatype PullState = PullState(isRefreshing: bool, isReleasing: bool, dragDistance: real, progress: real)

  /** `onRefresh()` was called; the state it saw at that moment is recorded. */
  datatype Event = Refresh(distanceAtCall: real, refreshingAtCall: bool)

  function Clamp(x: real, lo: real, hi: real): (r: real)
    requires lo <= hi
    ensures lo <= r <= hi
    ensures lo <= x <= hi ==> r == x
  {
    if x < lo then lo else if x > hi then hi else x
  }

  /** `updateProgress`: the drag distance as a fraction of the threshold, clamped to [0, 1]. */
  function ProgressOf(c: Config, d: real): (p: real)
    requires c.threshold > 0.0
    ensures 0.0 <= p <= 1.0
    ensures d >= c.threshold ==> p == 1.0
    ensures d <= 0.0 ==> p == 0.0
  {
    Clamp(d / c.threshold, 0.0, 1.0)
  }

  /** The invariant every mutation keeps: distance in [0, max] and progress derived from it. */
  ghost predicate Inv(c: Config, s: PullState)
    requires c.threshold > 0.0
  {
    0.0 <= s.dragDistance <= c.maxDrag && s.progress == ProgressOf(c, s.dragDistance)
  }

  /** Assigns `dragDistance` and calls `updateProgress`. */
  function SetDistance(c: Config, s: PullState, d: real): (r: PullState)
    requires c.threshold > 0.0
    ensures r.dragDistance == d && r.progress == ProgressOf(c, d)
    ensures r.isRefreshing == s.isRefreshing && r.isReleasing == s.isReleasing
  {
    s.(dragDistance := d, progress := ProgressOf(c, d))
  }

  /** A freshly remembered state: nothing dragged, refreshing as the caller says. */
  function Initial(c: Config, initialRefreshing: bool): (s: PullState)
    requires ConfigOk(c)
    ensures Inv(c, s)
    ensures s.isRefreshing == initialRefreshing && !s.isReleasing
    ensures s.dragDistance == 0.0 && s.progress == 0.0
  {
    PullState(initialRefreshing, false, 0.0, 0.0)
  }

  // ---------------------------------------------------------------------------
  // Progress

  /** Progress never decreases as the drag distance grows. */
  lemma ProgressMonotone(c: Config, d1: real, d2: real)
    requires c.threshold > 0.0
    requires d1 <= d2
    ensures ProgressOf(c, d1) <= ProgressOf(c, d2)
  {
    DivMonotone(d1, d2, c.threshold);
  }

  lemma DivMonotone(a: real, b: real, t: real)
    requires t > 0.0 && a <= b
    ensures a / t <= b / t
  {
    assert b / t - a / t == (b - a) / t;
  }

  // ---------------------------------------------------------------------------
  // onPull

  datatype Pulled = Pulled(state: PullState, consumed: real)

  /** The damped distance `onPull` moves to when it is neither refreshing nor at the maximum. */
  function DampedDistance(c: Config, d: real, pullDelta: real): real
    requires c.maxDrag > 0.0
  {
    DampedMove(d, pullDelta, c.damp(d / c.maxDrag), c.maxDrag)
  }

  /** Moving from d by the delta scaled by factor f, clamped to [0, m]. */
  function DampedMove(d: real, pullDelta: real, f: real, m: real): real
    requires m > 0.0
  {
    Clamp(d + pullDelta * f, 0.0, m)
  }

  /**
   * `onPull`: while refreshing nothing changes and nothing is consumed; at the
   * maximum the distance stays put; otherwise the damped delta is added and the
   * distance clamped to [0, max]. Outside refreshing the whole delta is consumed.
   */
  function OnPull(c: Config, s: PullState, pullDelta: real): (r: Pulled)
    requires ConfigOk(c) && Inv(c, s)
    ensures Inv(c, r.state)
    ensures r.state.isRefreshing == s.isRefreshing && r.state.isReleasing == s.isReleasing
    ensures s.isRefreshing ==> r == Pulled(s, 0.0)
    ensures !s.isRefreshing ==> r.consumed == pullDelta
    ensures s.dragDistance >= c.maxDrag ==> r.state == s
  {
    if s.isRefreshing then Pulled(s, 0.0)
    else if s.dragDistance >= c.maxDrag then Pulled(s, pullDelta)
    else Pulled(SetDistance(c, s, DampedDistance(c, s.dragDistance, pullDelta)), pullDelta)
  }

  /** p = d / max lies in [0, 1) while d is below the maximum. */
  lemma FractionBelowOne(d: real, m: real)
    requires 0.0 <= d < m
    ensures 0.0 <= d / m < 1.0
  {
    assert d / m * m == d;
  }

  /** The damping factor at distance d lies in [0, 0.7]. */
  lemma DampInRange(c: Config, d: real)
    requires ConfigOk(c) && 0.0 <= d < c.maxDrag
    ensures 0.0 <= c.damp(d / c.maxDrag) <= 0.7
  {
    FractionBelowOne(d, c.maxDrag);
  }

  lemma MulBounds(x: real, f: real, g: real)
    requires x > 0.0 && 0.0 <= f <= g
    ensures 0.0 <= x * f <= x * g
  {
    assert x * g - x * f == x * (g - f);
  }

  /** One damped step below the maximum moves forward by at most 0.7 times the delta. */
  lemma DampedStepBounded(c: Config, d: real, pullDelta: real)
    requires ConfigOk(c) && 0.0 <= d < c.maxDrag && pullDelta > 0.0
    ensures d <= DampedDistance(c, d, pullDelta) <= d + 0.7 * pullDelta
  {
    var f := c.damp(d / c.maxDrag);
    DampInRange(c, d);
    MulBounds(pullDelta, f, 0.7);
  }

  /** A downward pull never retracts and adds at most 0.7 times the delta. */
  lemma PullBounded(c: Config, s: PullState, pullDelta: real)
    requires ConfigOk(c) && Inv(c, s)
    requires pullDelta > 0.0
    ensures var d' := OnPull(c, s, pullDelta).state.dragDistance;
      s.dragDistance <= d' <= s.dragDistance + 0.7 * pullDelta
  {
    if !s.isRefreshing && s.dragDistance < c.maxDrag {
      DampedStepBounded(c, s.dragDistance, pullDelta);
    }
  }

  /** How far one pull of `pullDelta` moves the drag distance. */
  function Increment(c: Config, s: PullState, pullDelta: real): real
    requires ConfigOk(c) && Inv(c, s)
  {
    OnPull(c, s, pullDelta).state.dragDistance - s.dragDistance
  }

  /** Increasing resistance: the same delta moves a longer pull no further than a shorter one. */
  lemma IncrementShrinks(c: Config, s1: PullState, s2: PullState, pullDelta: real)
    requires ConfigOk(c) && Inv(c, s1) && Inv(c, s2)
    requires !s1.isRefreshing && !s2.isRefreshing
    requires pullDelta > 0.0 && s1.dragDistance <= s2.dragDistance
    ensures Increment(c, s2, pullDelta) <= Increment(c, s1, pullDelta)
  {
    PullBounded(c, s1, pullDelta);
    PullBounded(c, s2, pullDelta);
    if s2.dragDistance < c.maxDrag {
      DampOrder(c, s1.dragDistance, s2.dragDistance);
      DampedIncrementShrinks(c, s1.dragDistance, s2.dragDistance, pullDelta);
    }
  }

  /** The damped step itself: a longer pull gets a smaller (or equal) factor. */
  lemma DampedIncrementShrinks(c: Config, d1: real, d2: real, pullDelta: real)
    requires 0.0 <= d1 <= d2 < c.maxDrag && pullDelta > 0.0
    requires 0.0 <= c.damp(d2 / c.maxDrag) <= c.damp(d1 / c.maxDrag)
    ensures DampedDistance(c, d2, pullDelta) - d2 <= DampedDistance(c, d1, pullDelta) - d1
  {
    StepShrinks(d1, d2, pullDelta, c.damp(d1 / c.maxDrag), c.damp(d2 / c.maxDrag), c.maxDrag);
  }

  lemma StepShrinks(d1: real, d2: real, pullDelta: real, f1: real, f2: real, m: real)
    requires 0.0 <= d1 <= d2 < m && pullDelta > 0.0 && 0.0 <= f2 <= f1
    ensures DampedMove(d2, pullDelta, f2, m) - d2 <= DampedMove(d1, pullDelta, f1, m) - d1
  {
    MulBounds(pullDelta, f2, f1);
    ClampStep(d1, d2, pullDelta * f1, pullDelta * f2, m);
  }

  /** The factor at the longer distance is in range and no larger than at the shorter one. */
  lemma DampOrder(c: Config, d1: real, d2: real)
    requires ConfigOk(c) && 0.0 <= d1 <= d2 < c.maxDrag
    ensures 0.0 <= c.damp(d2 / c.maxDrag) <= c.damp(d1 / c.maxDrag)
  {
    DivMonotone(d1, d2, c.maxDrag);
    FractionBelowOne(d1, c.maxDrag);
    FractionBelowOne(d2, c.maxDrag);
  }

  lemma ClampStep(d1: real, d2: real, x1: real, x2: real, m: real)
    requires 0.0 <= d1 <= d2 < m && 0.0 <= x2 <= x1
    ensures Clamp(d2 + x2, 0.0, m) - d2 <= Clamp(d1 + x1, 0.0, m) - d1
  {
  }

  // ---------------------------------------------------------------------------
  // onRelease and finishRefresh

  /**
   * Duration of the snap back to the threshold: 180 ms plus one millisecond per
   * whole pixel of overshoot, at most 120 extra.
   */
  function SnapMs(overshoot: real): (ms: int)
    requires overshoot > 0.0
    ensures 180 <= ms <= 300
    ensures overshoot >= 120.0 ==> ms == 300
  {
    180 + (if overshoot.Floor < 120 then overshoot.Floor else 120)
  }

  /** Fixed duration of the snap back to zero below the threshold. */
  const SettleMs: int := 250
  /** Fixed duration of the return to zero after a refresh. */
  const FinishMs: int := 400

  datatype Released = Released(state: PullState, events: seq<Event>, tweenMs: int)

  /**
   * `onRelease`: a no-op while refreshing. At or past the threshold it starts
   * refreshing, pins the distance at the threshold (snapping back from any
   * overshoot) and only then calls `onRefresh`; below it the distance settles to 0.
   */
  function OnRelease(c: Config, s: PullState): (r: Released)
    requires ConfigOk(c) && Inv(c, s)
    ensures Inv(c, r.state)
    ensures r.state.isReleasing == s.isReleasing
    ensures s.isRefreshing ==> r == Released(s, [], 0)
    ensures !s.isRefreshing && s.dragDistance >= c.threshold ==>
      && r.state.isRefreshing && r.state.dragDistance == c.threshold && r.state.progress == 1.0
      && r.events == [Refresh(c.threshold, true)]
    ensures !s.isRefreshing && s.dragDistance < c.threshold ==>
      && !r.state.isRefreshing && r.state.dragDistance == 0.0 && r.state.progress == 0.0
      && r.events == []
    ensures !s.isRefreshing && s.dragDistance > c.threshold ==>
      r.tweenMs == SnapMs(s.dragDistance - c.threshold)
  {
    if s.isRefreshing then Released(s, [], 0)
    else if s.dragDistance >= c.threshold then
      var pinned := SetDistance(c, s.(isRefreshing := true), c.threshold);
      var ms := if s.dragDistance > c.threshold then SnapMs(s.dragDistance - c.threshold) else 0;
      Released(pinned, [Refresh(pinned.dragDistance, pinned.isRefreshing)], ms)
    else
      Released(SetDistance(c, s, 0.0), [], SettleMs)
  }

  /** Releasing twice without a pull in between ends where releasing once does. */
  lemma ReleaseIdempotent(c: Config, s: PullState)
    requires ConfigOk(c) && Inv(c, s)
    ensures var once := OnRelease(c, s);
      var twice := OnRelease(c, once.state);
      twice.state == once.state && twice.events == []
  {
  }

  datatype Finished = Finished(state: PullState, tweenMs: int)

  /** `finishRefresh`: a no-op unless refreshing; otherwise refreshing ends and the distance returns to 0. */
  function FinishRefresh(c: Config, s: PullState): (r: Finished)
    requires ConfigOk(c) && Inv(c, s)
    ensures Inv(c, r.state)
    ensures r.state.isReleasing == s.isReleasing
    ensures !s.isRefreshing ==> r == Finished(s, 0)
    ensures s.isRefreshing ==>
      !r.state.isRefreshing && r.state.dragDistance == 0.0 && r.state.progress == 0.0
  {
    if !s.isRefreshing then Finished(s, 0)
    else Finished(SetDistance(c, s.(isRefreshing := false), 0.0), FinishMs)
  }

  /**
   * The effect in `rememberPullRefreshState` that follows the caller's `refreshing`
   * flag: turning it on only sets the flag (the indicator does not move), turning
   * it off runs `finishRefresh`.
   */
  function SyncRefreshing(c: Config, s: PullState, refreshing: bool): (r: PullState)
    requires ConfigOk(c) && Inv(c, s)
    ensures Inv(c, r)
    ensures r.isRefreshing == refreshing
    ensures s.isRefreshing == refreshing ==> r == s
    ensures refreshing ==> r.dragDistance == s.dragDistance
    ensures !refreshing ==> r.dragDistance == 0.0 || r == s
  {
    if s.isRefreshing == refreshing then s
    else if refreshing then s.(isRefreshing := true)
    else FinishRefresh(c, s).state
  }

  // ---------------------------------------------------------------------------
  // Nested-scroll interception

  datatype Scrolled = Scrolled(state: PullState, consumed: real)

  /**
   * `onPreScroll` exactly as written: ignored while releasing; an upward delta
   * with something dragged lowers the distance (never below 0) while refreshing
   * and clears it otherwise. The amount retracted is returned as a POSITIVE
   * consumption although the available delta is negative.
   */
  function OnPreScrollAsWritten(c: Config, s: PullState, available: real): (r: Scrolled)
    requires ConfigOk(c) && Inv(c, s)
    ensures r.state == PreScrollState(c, s, available)
    ensures r.consumed == s.dragDistance - r.state.dragDistance
  {
    if s.isReleasing then Scrolled(s, 0.0)
    else if available < 0.0 && s.dragDistance > 0.0 then
      var d' := PreScrollState(c, s, available).dragDistance;
      Scrolled(PreScrollState(c, s, available), s.dragDistance - d')
    else Scrolled(s, 0.0)
  }

  /** The state `onPreScroll` leaves behind (the same in both versions). */
  function PreScrollState(c: Config, s: PullState, available: real): (r: PullState)
    requires ConfigOk(c) && Inv(c, s)
    ensures Inv(c, r)
    ensures r.isRefreshing == s.isRefreshing && r.isReleasing == s.isReleasing
    ensures s.isReleasing || available >= 0.0 ==> r == s
    ensures !s.isReleasing && available < 0.0 && !s.isRefreshing ==> r.dragDistance == 0.0
    ensures !s.isReleasing && available < 0.0 && s.isRefreshing ==>
      r.dragDistance == (if s.dragDistance + available < 0.0 then 0.0 else s.dragDistance + available)
  {
    if s.isReleasing then s
    else if available < 0.0 && s.dragDistance > 0.0 then
      if s.isRefreshing then
        SetDistance(c, s, if s.dragDistance + available < 0.0 then 0.0 else s.dragDistance + available)
      else SetDistance(c, s, 0.0)
    else s
  }

  /** What the child scroller is offered after a pre-scroll: available minus consumed. */
  function LeftForChild(available: real, r: Scrolled): real {
    available - r.consumed
  }

  /**
   * The source returns the retracted amount with the wrong sign: with 30 px
   * dragged and an upward delta of 10 px, the child is offered 40 px upwards,
   * more than the finger moved.
   */
  lemma PreScrollAsWrittenOverscrolls()
    ensures var c := Config(80.0, 140.0, (p: real) => 0.0);
      var s := PullState(false, false, 30.0, ProgressOf(c, 30.0));
      LeftForChild(-10.0, OnPreScrollAsWritten(c, s, -10.0)) == -40.0
  {
  }

  /**
   * `onPreScroll` with the consumption signed like the available delta and
   * never larger than it: the distance changes exactly as in the source.
   */
  function OnPreScroll(c: Config, s: PullState, available: real): (r: Scrolled)
    requires ConfigOk(c) && Inv(c, s)
    ensures r.state == PreScrollState(c, s, available)
    ensures available < 0.0 ==> available <= r.consumed <= 0.0
    ensures available >= 0.0 || s.isReleasing ==> r.consumed == 0.0
    ensures available <= r.state.dragDistance - s.dragDistance ==>
      r.consumed == r.state.dragDistance - s.dragDistance
  {
    var s' := PreScrollState(c, s, available);
    var retracted := s.dragDistance - s'.dragDistance;
    Scrolled(s', if available >= 0.0 then 0.0 else if -retracted < available then available else -retracted)
  }

  /** The corrected pre-scroll never offers the child more than was available. */
  lemma PreScrollNeverOverscrolls(c: Config, s: PullState, available: real)
    requires ConfigOk(c) && Inv(c, s)
    requires available < 0.0
    ensures available <= LeftForChild(available, OnPreScroll(c, s, available)) <= 0.0
  {
  }

  /**
   * `onPostScroll`: while refreshing or releasing, a downward remainder is
   * swallowed whole and the state is untouched; otherwise a downward remainder
   * reaches `onPull` only when the child consumed nothing (the list is at its top).
   */
  function OnPostScroll(c: Config, s: PullState, childConsumed: real, available: real): (r: Scrolled)
    requires ConfigOk(c) && Inv(c, s)
    ensures Inv(c, r.state)
    ensures s.isRefreshing || s.isReleasing ==>
      r.state == s && r.consumed == (if available > 0.0 then available else 0.0)
    ensures !s.isRefreshing && !s.isReleasing && available > 0.0 && childConsumed == 0.0 ==>
      r == Scrolled(OnPull(c, s, available).state, available)
    ensures available <= 0.0 || childConsumed != 0.0 ==> r.state == s
  {
    if s.isRefreshing || s.isReleasing then
      Scrolled(s, if available > 0.0 then available else 0.0)
    else if available > 0.0 && childConsumed == 0.0 then
      var p := OnPull(c, s, available);
      Scrolled(p.state, p.consumed)
    else Scrolled(s, 0.0)
  }

  /**
   * `onPreFling`: when something is dragged and no release or refresh is under
   * way, the release runs with `isReleasing` raised and lowered around it.
   */
  function OnPreFling(c: Config, s: PullState): (r: Released)
    requires ConfigOk(c) && Inv(c, s)
    ensures Inv(c, r.state)
    ensures r.state.isReleasing == s.isReleasing
    ensures s.dragDistance > 0.0 && !s.isReleasing && !s.isRefreshing ==>
      var rel := OnRelease(c, s.(isReleasing := true));
      r == Released(rel.state.(isReleasing := false), rel.events, rel.tweenMs)
    ensures !(s.dragDistance > 0.0 && !s.isReleasing && !s.isRefreshing) ==> r == Released(s, [], 0)
  {
    if s.dragDistance > 0.0 && !s.isReleasing && !s.isRefreshing then
      var rel := OnRelease(c, s.(isReleasing := true));
      Released(rel.state.(isReleasing := false), rel.events, rel.tweenMs)
    else Released(s, [], 0)
  }

  // ---------------------------------------------------------------------------
  // Whole gestures

  /** One input to the engine: a scroll callback, a fling, or the caller's `refreshing` flag. */
  datatype Input =
    | PreScroll(available: real)
    | PostScroll(childConsumed: real, available: real)
    | Fling
    | Sync(refreshing: bool)

  datatype Trace = Trace(state: PullState, events: seq<Event>)

  function Step(c: Config, s: PullState, i: Input): (r: Trace)
    requires ConfigOk(c) && Inv(c, s)
    ensures Inv(c, r.state)
  {
    match i
    case PreScroll(a) => Trace(OnPreScroll(c, s, a).state, [])
    case PostScroll(k, a) => Trace(OnPostScroll(c, s, k, a).state, [])
    case Fling => var r := OnPreFling(c, s); Trace(r.state, r.events)
    case Sync(b) => Trace(SyncRefreshing(c, s, b), [])
  }

  /** Runs the inputs in order, concatenating the `onRefresh` calls they produce. */
  function Run(c: Config, s: PullState, inputs: seq<Input>): (r: Trace)
    requires ConfigOk(c) && Inv(c, s)
    ensures Inv(c, r.state)
    decreases |inputs|
  {
    if |inputs| == 0 then Trace(s, [])
    else
      var first := Step(c, s, inputs[0]);
      var rest := Run(c, first.state, inputs[1..]);
      Trace(rest.state, first.events + rest.events)
  }

  /** Every `onRefresh` call happens with the indicator pinned at the threshold and refreshing on. */
  lemma {:induction false} RefreshOnlyWhenPinned(c: Config, s: PullState, inputs: seq<Input>)
    requires ConfigOk(c) && Inv(c, s)
    ensures forall e | e in Run(c, s, inputs).events :: e == Refresh(c.threshold, true)
    decreases |inputs|
  {
    if |inputs| > 0 {
      RefreshOnlyWhenPinned(c, Step(c, s, inputs[0]).state, inputs[1..]);
    }
  }

  /** True when no input hands the caller's `refreshing = false` back to the engine. */
  predicate NoFinish(inputs: seq<Input>) {
    forall i | 0 <= i < |inputs| :: inputs[i] != Sync(false)
  }

  /**
   * At most one `onRefresh` per cycle: once refreshing, no input other than the
   * caller's finish signal can trigger another refresh, and refreshing stays on.
   */
  lemma {:induction false} NoRefreshWhileRefreshing(c: Config, s: PullState, inputs: seq<Input>)
    requires ConfigOk(c) && Inv(c, s)
    requires s.isRefreshing && NoFinish(inputs)
    ensures Run(c, s, inputs).events == []
    ensures Run(c, s, inputs).state.isRefreshing
    decreases |inputs|
  {
    if |inputs| > 0 {
      assert inputs[0] != Sync(false);
      var first := Step(c, s, inputs[0]);
      assert first.events == [] && first.state.isRefreshing;
      assert NoFinish(inputs[1..]) by {
        forall i | 0 <= i < |inputs[1..]| ensures inputs[1..][i] != Sync(false) {
          assert inputs[1..][i] == inputs[i + 1];
        }
      }
      NoRefreshWhileRefreshing(c, first.state, inputs[1..]);
    }
  }

  /**
   * A release past the threshold starts a refresh, and the refresh finishing
   * (`refreshing` synced back to false) returns the state to rest: nothing
   * pulled and no progress.
   */
  lemma FullCycleReturnsToRest(c: Config, s: PullState)
    requires ConfigOk(c) && Inv(c, s)
    requires !s.isRefreshing && !s.isReleasing && s.dragDistance >= c.threshold
    ensures var released := OnPreFling(c, s).state;
      var done := SyncRefreshing(c, released, false);
      released.isRefreshing && !done.isRefreshing && done.dragDistance == 0.0 && done.progress == 0.0
  {
  }
}

=== FILE: pull_refresh_view.dfy ===
/**
 * The display values `PullRefreshIndicator` and `PullRefreshBox` derive from the
 * pull-refresh state: indicator scale, alpha and spinner, the content and
 * indicator offsets, and the tween durations. Density conversion is left out, so
 * pixels and dp are the same unit here.
 */
module PullRefreshView {
  import PullRefresh

  /** Height of the indicator slot; the indicator hides this far above the content. */
  const IndicatorHeight: real := 56.0

  /** Indicator scale: grows from 0.5 with the progress while pulling, otherwise full size. */
  function IndicatorScale(scale: bool, refreshing: bool, progress: real): (r: real)
    requires 0.0 <= progress <= 1.0
    ensures 0.5 <= r <= 1.0
    ensures scale && !refreshing && progress < 1.0 ==> r == 0.5 + 0.5 * progress && r < 1.0
    ensures !(scale && !refreshing && progress < 1.0) ==> r == 1.0
  {
    if scale && !refreshing && progress < 1.0 then 0.5 + progress * 0.5 else 1.0
  }

  /** Indicator alpha: visible as soon as anything is pulled or a refresh runs. */
  function IndicatorAlpha(refreshing: bool, progress: real): (r: real)
    ensures r == 1.0 <==> progress > 0.0 || refreshing
    ensures r == 0.0 <==> !(progress > 0.0 || refreshing)
  {
    if progress > 0.0 || refreshing then 1.0 else 0.0
  }

  /** Which progress indicator is drawn, if any. */
  datatype Spinner = Indeterminate | Determinate(progress: real) | NoSpinner

  function SpinnerFor(refreshing: bool, progress: real): (r: Spinner)
    ensures refreshing <==> r == Indeterminate
    ensures !refreshing && progress > 0.0 <==> r == Determinate(progress)
    ensures r == NoSpinner <==> !refreshing && progress <= 0.0
  {
    if refreshing then Indeterminate
    else if progress > 0.0 then Determinate(progress)
    else NoSpinner
  }

  /** A drawn spinner is always visible: the spinner choice and the alpha agree. */
  lemma SpinnerVisibleIffAlpha(refreshing: bool, progress: real)
    ensures SpinnerFor(refreshing, progress) != NoSpinner <==> IndicatorAlpha(refreshing, progress) == 1.0
  {
  }

  /**
   * `animationDuration` of `PullRefreshBox`: zero unless refreshing with the
   * indicator pulled out; 180 ms at or below the threshold; otherwise the same
   * overshoot-dependent duration the release uses.
   */
  function SnapDurationMs(isRefreshing: bool, offset: real, threshold: real): (ms: int)
    ensures !(isRefreshing && offset > 0.0) ==> ms == 0
    ensures isRefreshing && offset > 0.0 ==> 180 <= ms <= 300
    ensures isRefreshing && offset > 0.0 && offset <= threshold ==> ms == 180
    ensures isRefreshing && offset > threshold && offset > 0.0 ==>
      ms == 180 + (if (offset - threshold).Floor < 120 then (offset - threshold).Floor else 120)
  {
    if isRefreshing && offset > 0.0 then
      if offset - threshold > 0.0 then PullRefresh.SnapMs(offset - threshold) else 180
    else 0
  }

  /** The Box and the state machine use the same snap duration for the same overshoot. */
  lemma SnapDurationAgreesWithRelease(c: PullRefresh.Config, s: PullRefresh.PullState)
    requires PullRefresh.ConfigOk(c) && PullRefresh.Inv(c, s)
    requires !s.isRefreshing && s.dragDistance > c.threshold
    ensures PullRefresh.OnRelease(c, s).tweenMs == SnapDurationMs(true, s.dragDistance, c.threshold)
  {
  }

  /** Tween length for the indicator offset. */
  function IndicatorTweenMs(isRefreshing: bool, offset: real, progress: real, threshold: real): (ms: int)
    ensures ms == 400 <==> !isRefreshing && offset == 0.0 && progress == 0.0
    ensures isRefreshing && offset > 0.0 ==> ms == SnapDurationMs(isRefreshing, offset, threshold)
  {
    if !isRefreshing && offset == 0.0 && progress == 0.0 then 400
    else if isRefreshing && offset > 0.0 then SnapDurationMs(isRefreshing, offset, threshold)
    else 0
  }

  /** Where the content is pushed to: along with the drag while it is visible, else 0. */
  function ContentTarget(enableContentOffset: bool, isRefreshing: bool, progress: real, dragDistance: real): (r: real)
    ensures enableContentOffset && (progress > 0.0 || isRefreshing) ==> r == dragDistance
    ensures !(enableContentOffset && (progress > 0.0 || isRefreshing)) ==> r == 0.0
  {
    if enableContentOffset && (progress > 0.0 || isRefreshing) then dragDistance else 0.0
  }

  /** Tween length for the content offset. */
  function ContentTweenMs(isRefreshing: bool, target: real, offset: real, progress: real, threshold: real): (ms: int)
    ensures ms == 400 <==> target == 0.0 && progress == 0.0
    ensures !(target == 0.0 && progress == 0.0) && isRefreshing && target > 0.0 ==>
      ms == SnapDurationMs(isRefreshing, offset, threshold)
  {
    if target == 0.0 && progress == 0.0 then 400
    else if isRefreshing && target > 0.0 then SnapDurationMs(isRefreshing, offset, threshold)
    else 0
  }

  /** Vertical position of the indicator box: slides down from fully hidden at -56. */
  function IndicatorY(indicatorOffset: real): (y: real)
    ensures indicatorOffset == 0.0 ==> y == -IndicatorHeight
    ensures y + IndicatorHeight == indicatorOffset
  {
    indicatorOffset - IndicatorHeight
  }

  /** Everything drawn for one pull-refresh state. */
  datatype Frame = Frame(scale: real, alpha: real, spinner: Spinner, indicatorY: real, contentY: real)

  /**
   * One frame of `PullRefreshBox` with the default indicator, once its tweens
   * have settled. The default indicator is given the box's `refreshing`
   * parameter, the caller's flag, while the offsets read the state's own
   * `isRefreshing`; the two differ from a release until the caller's flag follows.
   */
  function Render(c: PullRefresh.Config, s: PullRefresh.PullState, refreshing: bool, enableContentOffset: bool): (f: Frame)
    requires PullRefresh.ConfigOk(c) && PullRefresh.Inv(c, s)
    ensures 0.5 <= f.scale <= 1.0
    ensures f.spinner == Indeterminate <==> refreshing
    ensures f.indicatorY == s.dragDistance - IndicatorHeight
    ensures -IndicatorHeight <= f.indicatorY <= c.maxDrag - IndicatorHeight
    ensures f.contentY == 0.0 || f.contentY == s.dragDistance
  {
    Frame(
      IndicatorScale(true, refreshing, s.progress),
      IndicatorAlpha(refreshing, s.progress),
      SpinnerFor(refreshing, s.progress),
      IndicatorY(s.dragDistance),
      ContentTarget(enableContentOffset, s.isRefreshing, s.progress, s.dragDistance))
  }

  /** At rest (nothing pulled, not refreshing) nothing is drawn and the indicator is hidden. */
  lemma RestFrameIsHidden(c: PullRefresh.Config, s: PullRefresh.PullState, enableContentOffset: bool)
    requires PullRefresh.ConfigOk(c) && PullRefresh.Inv(c, s)
    requires !s.isRefreshing && s.dragDistance == 0.0
    ensures var f := Render(c, s, false, enableContentOffset);
      f.alpha == 0.0 && f.spinner == NoSpinner && f.indicatorY == -IndicatorHeight && f.contentY == 0.0
  {
  }

  /**
   * Once the caller's flag agrees with the state, a pulled indicator is
   * visible, and exactly when it is, the content follows the drag.
   */
  lemma PulledFrameFollowsDrag(c: PullRefresh.Config, s: PullRefresh.PullState)
    requires PullRefresh.ConfigOk(c) && PullRefresh.Inv(c, s)
    ensures var f := Render(c, s, s.isRefreshing, true);
      f.alpha == 1.0 <==> s.dragDistance > 0.0 || s.isRefreshing
    ensures s.dragDistance > 0.0 || s.isRefreshing ==> Render(c, s, s.isRefreshing, true).contentY == s.dragDistance
  {
    PullRefresh.ProgressMonotone(c, 0.0, s.dragDistance);
    if s.dragDistance > 0.0 {
      PositiveProgress(c, s.dragDistance);
    }
  }

  /**
   * Right after a release past the threshold the state is refreshing but the
   * caller's flag may still be false: the indicator then shows a full
   * determinate ring at full size, not the spinning one, while the content stays pulled down.
   */
  lemma StaleFlagShowsFullRing(c: PullRefresh.Config, s: PullRefresh.PullState)
    requires PullRefresh.ConfigOk(c) && PullRefresh.Inv(c, s)
    requires s.isRefreshing && s.dragDistance == c.threshold
    ensures var f := Render(c, s, false, true);
      f.spinner == Determinate(1.0) && f.scale == 1.0 && f.alpha == 1.0 && f.contentY == c.threshold
  {
  }

  lemma PositiveProgress(c: PullRefresh.Config, d: real)
    requires PullRefresh.ConfigOk(c) && d > 0.0
    ensures PullRefresh.ProgressOf(c, d) > 0.0
  {
    assert d / c.threshold > 0.0;
  }
}

=== FILE: router_registry.dfy ===
/**
 * `RouterRegistry`: route strings mapped to their screen handlers, where a
 * later registration for a route replaces the earlier one.
 */
module RouterRegistry {
  import opened Wrappers

  /** A `ScreenRouteHandler`; `content` stands for the screen it builds. */
  datatype Handler = Handler(route: string, content: int)

  type Registry = map<string, Handler>

  /** Every handler is stored under its own route. */
  ghost predicate WellFormed(reg: Registry) {
    forall r | r in reg :: reg[r].route == r
  }

  /** `register(handler)`. */
  function Register(reg: Registry, h: Handler): (reg': Registry)
    ensures GetHandler(reg', h.route) == Some(h) && IsRegistered(reg', h.route)
    ensures forall r | r != h.route :: GetHandler(reg', r) == GetHandler(reg, r)
    ensures WellFormed(reg) ==> WellFormed(reg')
  {
    reg[h.route := h]
  }

  /** `registerAll(h1, ..., hn)`: `register` for each in order. */
  function RegisterAll(reg: Registry, hs: seq<Handler>): (reg': Registry)
    ensures WellFormed(reg) ==> WellFormed(reg')
    decreases |hs|
  {
    if |hs| == 0 then reg else RegisterAll(Register(reg, hs[0]), hs[1..])
  }

  /** `getHandler(route)`. */
  function GetHandler(reg: Registry, route: string): (r: Option<Handler>)
    ensures r.Some? <==> route in reg
    ensures r.Some? ==> r.value == reg[route]
  {
    if route in reg then Some(reg[route]) else None
  }

  /** `isRegistered(route)`. */
  predicate IsRegistered(reg: Registry, route: string) {
    route in reg
  }

  /** `getAllRoutes()`: a copy of the key set. */
  function GetAllRoutes(reg: Registry): (routes: set<string>)
    ensures forall r :: r in routes <==> IsRegistered(reg, r)
  {
    reg.Keys
  }

  /** The last handler in `hs` for `route`, if any. */
  function LastFor(hs: seq<Handler>, route: string): (r: Option<Handler>)
    ensures r.Some? ==> r.value in hs && r.value.route == route
    ensures r.None? <==> forall i | 0 <= i < |hs| :: hs[i].route != route
  {
    if |hs| == 0 then None
    else if hs[|hs| - 1].route == route then Some(hs[|hs| - 1])
    else LastFor(hs[..|hs| - 1], route)
  }

  /**
   * After `registerAll(hs)`, a route has the last of its handlers in `hs`, and
   * a route not in `hs` keeps what it had.
   */
  lemma {:induction false} RegisterAllLastWins(reg: Registry, hs: seq<Handler>, route: string)
    ensures GetHandler(RegisterAll(reg, hs), route) ==
      (if LastFor(hs, route).Some? then LastFor(hs, route) else GetHandler(reg, route))
    decreases |hs|
  {
    if |hs| > 0 {
      RegisterAllLastWins(Register(reg, hs[0]), hs[1..], route);
      LastForSplit(hs, route);
    }
  }

  /** The last handler of `h :: rest` is the last one of `rest`, or else `h` itself. */
  lemma {:induction false} LastForSplit(hs: seq<Handler>, route: string)
    requires |hs| > 0
    ensures LastFor(hs, route) ==
      (if LastFor(hs[1..], route).Some? then LastFor(hs[1..], route)
       else if hs[0].route == route then Some(hs[0]) else None)
    decreases |hs|
  {
    if |hs| > 1 && hs[|hs| - 1].route != route {
      assert hs[1..][..|hs[1..]| - 1] == hs[..|hs| - 1][1..];
      LastForSplit(hs[..|hs| - 1], route);
    }
  }

  /** The registered routes after `registerAll` are the old ones plus those in `hs`. */
  lemma RegisterAllRoutes(reg: Registry, hs: seq<Handler>)
    ensures GetAllRoutes(RegisterAll(reg, hs)) == GetAllRoutes(reg) + set i | 0 <= i < |hs| :: hs[i].route
  {
    forall route
      ensures route in GetAllRoutes(RegisterAll(reg, hs)) <==>
        route in GetAllRoutes(reg) || exists i | 0 <= i < |hs| :: hs[i].route == route
    {
      RegisterAllLastWins(reg, hs, route);
      if exists i | 0 <= i < |hs| :: hs[i].route == route {
        assert LastFor(hs, route).Some?;
      }
    }
  }
}

=== FILE: user_routes.dfy ===
/**
 * The `/users` routes: `GET` lists every user, `POST` validates the request,
 * rejects a taken username or email, and otherwise stores the user. Rate
 * limiting and JSON (de)serialisation are outside the model.
 */
module UserRoutes {
  import opened Wrappers
  import opened ApiResponse
  import UserValidation
  import UserService

  /** An HTTP reply: the status line and the JSON body. */
  datatype Reply<T> = Reply(status: int, body: BaseApiResponse<T>)

  const ListedMessage: string := "成功"
  const CreatedMessage: string := "创建成功"
  const UsernameTaken: string := "用户名已存在"
  const EmailTaken: string := "邮箱已被注册"

  /** `GET /users`. */
  function GetUsers(t: UserService.Table, order: seq<int>): (r: Reply<seq<UserService.UserResponse>>)
    requires IsListing(t, order)
    ensures r.status == 200 && r.body.code == 200 && r.body.message == Some(ListedMessage)
    ensures r.body.data.Some? && |r.body.data.value| == |order|
    ensures forall i | 0 <= i < |order| ::
      order[i] in t && r.body.data.value[i] == UserService.ToUserResponse(UserService.UserOf(order[i], t[order[i]]))
  {
    var users := UserService.GetAllUsers(t, order);
    Reply(200, BaseApiResponse(200, Some(ListedMessage), Some(seq(|users|, i requires 0 <= i < |users| => UserService.ToUserResponse(users[i])))))
  }

  /** The listing names every stored user exactly once. */
  lemma GetListsEveryUserOnce(t: UserService.Table, order: seq<int>)
    requires IsListing(t, order)
    ensures var data := GetUsers(t, order).body.data.value;
      |data| == |t| &&
      (forall id | id in t :: exists i :: 0 <= i < |data| && data[i].id == id) &&
      (forall i, j | 0 <= i < j < |data| :: data[i].id != data[j].id)
  {
    UserService.ListingHasEveryRowOnce(t, order);
    var data := GetUsers(t, order).body.data.value;
    forall id | id in t
      ensures exists i :: 0 <= i < |data| && data[i].id == id
    {
      var i :| 0 <= i < |order| && order[i] == id;
      assert data[i].id == id;
    }
  }

  /** An error reply: the body code is the status and there is no data. */
  function Rejection(status: int, message: string): (r: Reply<UserService.UserResponse>)
    ensures r.status == status && r.body.code == status
    ensures r.body.message == Some(message) && r.body.data.None?
  {
    Reply(status, BaseApiResponse(status, Some(message), None))
  }

  /**
   * `POST /users` against table `t`; `freshId` is the key the insert would
   * generate. The password is stored as sent, without hashing.
   */
  function PostUser(t: UserService.Table, req: UserValidation.CreateUserRequest, now: UserService.Instant, freshId: int)
    : (r: (Reply<UserService.UserResponse>, UserService.Table))
    requires freshId !in t
    ensures r.0.status == r.0.body.code
    ensures r.0.status in {201, 400, 409}
    ensures r.0.status != 201 ==> r.1 == t && r.0.body.data.None?
    ensures r.0.status == 201 ==> r.1.Keys == t.Keys + {freshId} && UserService.OthersUnchanged(t, r.1, freshId)
  {
    match UserValidation.Validate(req)
    case Some(message) => (Rejection(400, message), t)
    case None =>
      if UserService.GetUserByUsername(t, req.username).Some? then
        (Rejection(409, UsernameTaken), t)
      else if req.email.Some? && UserService.GetUserByEmail(t, req.email.value).Some? then
        (Rejection(409, EmailTaken), t)
      else
        var created := UserService.CreateUser(t, req, req.password, now, freshId);
        (Reply(201, BaseApiResponse(201, Some(CreatedMessage), Some(UserService.ToUserResponse(created.1)))), created.0)
  }

  /** Whether the request's email, if any, is already stored. */
  predicate EmailClash(t: UserService.Table, req: UserValidation.CreateUserRequest) {
    req.email.Some? && UserService.EmailInUse(t, req.email.value)
  }

  /**
   * The decision order of `POST /users` on a table with unique keys: the
   * validator's message first, then a taken username, then a taken email;
   * otherwise exactly one user is created.
   */
  lemma PostDecision(t: UserService.Table, req: UserValidation.CreateUserRequest, now: UserService.Instant, freshId: int)
    requires freshId !in t && UserService.UniqueKeys(t)
    ensures var r := PostUser(t, req, now, freshId);
      (UserValidation.Validate(req).Some? <==> r.0.status == 400) &&
      (UserValidation.Validate(req).Some? ==> r.0.body.message == UserValidation.Validate(req)) &&
      (r.0.status == 409 && r.0.body.message == Some(UsernameTaken) <==>
        UserValidation.Validate(req).None? && UserService.UsernameInUse(t, req.username)) &&
      (r.0.status == 409 && r.0.body.message == Some(EmailTaken) <==>
        UserValidation.Validate(req).None? && !UserService.UsernameInUse(t, req.username) && EmailClash(t, req)) &&
      (r.0.status == 201 <==>
        UserValidation.Validate(req).None? && !UserService.UsernameInUse(t, req.username) && !EmailClash(t, req))
  {
    UserService.UsernameLookupFinds(t, req.username);
    if req.email.Some? {
      UserService.EmailLookupFinds(t, req.email.value);
    }
  }

  /** A created user is stored under the fresh id with the password as sent, and the reply describes it. */
  lemma PostCreatesOneUser(t: UserService.Table, req: UserValidation.CreateUserRequest, now: UserService.Instant, freshId: int)
    requires freshId !in t
    requires PostUser(t, req, now, freshId).0.status == 201
    ensures var r := PostUser(t, req, now, freshId);
      freshId in r.1 && |r.1| == |t| + 1 &&
      r.1[freshId].password == req.password &&
      r.1[freshId].username == req.username && r.1[freshId].email == req.email &&
      r.1[freshId].status == UserService.StatusInactive &&
      r.0.body.message == Some(CreatedMessage) &&
      r.0.body.data == Some(UserService.ToUserResponse(UserService.UserOf(freshId, r.1[freshId])))
  {
    var r := PostUser(t, req, now, freshId);
    var created := UserService.CreateUser(t, req, req.password, now, freshId);
    assert UserValidation.Validate(req).None?;
    assert r == (Reply(201, BaseApiResponse(201, Some(CreatedMessage), Some(UserService.ToUserResponse(created.1)))), created.0);
    assert r.1 == t[freshId := r.1[freshId]];
  }

  /** `POST /users` never breaks the uniqueness of usernames and emails. */
  lemma PostKeepsUniqueKeys(t: UserService.Table, req: UserValidation.CreateUserRequest, now: UserService.Instant, freshId: int)
    requires freshId !in t && UserService.UniqueKeys(t)
    ensures UserService.UniqueKeys(PostUser(t, req, now, freshId).1)
  {
    PostDecision(t, req, now, freshId);
    var r := PostUser(t, req, now, freshId);
    if r.0.status == 201 {
      var row := r.1[freshId];
      forall k | k in t
        ensures t[k].username != row.username
        ensures row.email.Some? ==> t[k].email != row.email
      {
        assert !UserService.UsernameInUse(t, req.username);
        if row.email.Some? {
          assert !UserService.EmailInUse(t, req.email.value);
        }
      }
    }
  }
}

=== FILE: user_service.dfy ===
/**
 * `UserService`: the `users` table as a map from generated id to row, and the
 * record semantics of the create, lookup, update, last-login and delete
 * operations. The clock is the parameter `now`; timestamps stay abstract
 * instants (their text rendering is not modelled). A freshly generated id is a
 * parameter that is not yet a key.
 */
module UserService {
  import opened Wrappers
  import UserValidation

  type Instant = int

  const StatusActive: string := "ACTIVE"
  const StatusInactive: string := "INACTIVE"
  const StatusBanned: string := "BANNED"
  const RoleUser: string := "USER"
  const RoleAdmin: string := "ADMIN"

  /** One stored row of `users`, everything but the key. */
  datatype Row = Row(
    username: string,
    email: Option<string>,
    password: string,
    nickname: Option<string>,
    avatar: Option<string>,
    phone: Option<string>,
    status: string,
    role: string,
    createdAt: Instant,
    updatedAt: Option<Instant>,
    lastLoginAt: Option<Instant>)

  type Table = map<int, Row>

  /** The `User` data class. */
  datatype User = User(
    id: int,
    username: string,
    email: Option<string>,
    password: string,
    nickname: Option<string>,
    avatar: Option<string>,
    phone: Option<string>,
    status: string,
    role: string,
    createdAt: Instant,
    updatedAt: Option<Instant>,
    lastLoginAt: Option<Instant>)

  /** The `UserResponse` DTO: a user without its password. */
  datatype UserResponse = UserResponse(
    id: int,
    username: string,
    email: Option<string>,
    nickname: Option<string>,
    avatar: Option<string>,
    phone: Option<string>,
    status: string,
    role: string,
    createdAt: Instant,
    updatedAt: Option<Instant>,
    lastLoginAt: Option<Instant>)

  // ---------------------------------------------------------------------------
  // Rows and users

  /** `resultRowToUser`: the row read back under its key. */
  function UserOf(id: int, row: Row): (u: User)
    ensures u.id == id
  {
    User(id, row.username, row.email, row.password, row.nickname, row.avatar, row.phone,
         row.status, row.role, row.createdAt, row.updatedAt, row.lastLoginAt)
  }

  /** The row a user corresponds to, forgetting its id. */
  function RowOf(u: User): Row {
    Row(u.username, u.email, u.password, u.nickname, u.avatar, u.phone,
        u.status, u.role, u.createdAt, u.updatedAt, u.lastLoginAt)
  }

  /** Reading a row back loses nothing, and a user is its id plus its row. */
  lemma RowUserRoundTrip(id: int, row: Row, u: User)
    ensures RowOf(UserOf(id, row)) == row
    ensures UserOf(u.id, RowOf(u)) == u
  {
  }

  // ---------------------------------------------------------------------------
  // Lookups

  /** `getAllUsers`: every row in the order the database lists them (`order`, see `IsListing`). */
  function GetAllUsers(t: Table, order: seq<int>): (r: seq<User>)
    requires IsListing(t, order)
    ensures |r| == |order|
    ensures forall i | 0 <= i < |r| :: r[i].id == order[i] && r[i].id in t && RowOf(r[i]) == t[order[i]]
  {
    seq(|order|, i requires 0 <= i < |order| => UserOf(order[i], t[order[i]]))
  }

  /** A listing has one entry per row, so the list has as many users as the table has rows. */
  lemma ListingHasEveryRowOnce(t: Table, order: seq<int>)
    requires IsListing(t, order)
    ensures |order| == |t|
    ensures forall k | k in t :: exists i :: 0 <= i < |order| && order[i] == k
  {
    DistinctCard(order);
    forall k
      ensures k in t.Keys <==> k in (set j | j in order)
    {
      assert k in t <==> k in order;
    }
    assert t.Keys == set j | j in order;
  }

  /** A sequence without repeats has as many distinct elements as entries. */
  lemma {:induction false} DistinctCard(s: seq<int>)
    requires forall i, j | 0 <= i < j < |s| :: s[i] != s[j]
    ensures |set k | k in s| == |s|
  {
    if |s| > 0 {
      var rest := s[..|s| - 1];
      DistinctCard(rest);
      var last := s[|s| - 1];
      assert last !in rest;
      assert (set k | k in s) == (set k | k in rest) + {last};
    }
  }

  /** `getUserById`: the id is the primary key. */
  function GetUserById(t: Table, id: int): (r: Option<User>)
    ensures r.Some? <==> id in t
    ensures r.Some? ==> r.value.id == id && RowOf(r.value) == t[id]
  {
    if id in t then Some(UserOf(id, t[id])) else None
  }

  /** A one-element set has a member, and no two different ones. */
  lemma Singleton(s: set<int>)
    requires |s| == 1
    ensures exists x :: x in s
    ensures forall a, b | a in s && b in s :: a == b
  {
    assert s != {};
    forall a, b | a in s && b in s
      ensures a == b
    {
      assert |s - {a}| == 0;
      assert b !in s - {a};
    }
  }

  /** `singleOrNull` over the rows with the given keys: the user when there is exactly one. */
  function SingleOrNull(t: Table, ids: set<int>): (r: Option<User>)
    requires ids <= t.Keys
    ensures r.Some? <==> |ids| == 1
    ensures r.Some? ==> r.value.id in ids && RowOf(r.value) == t[r.value.id]
  {
    if |ids| == 1 then
      Singleton(ids);
      var id :| id in ids;
      Some(UserOf(id, t[id]))
    else None
  }

  function WithUsername(t: Table, username: string): (ids: set<int>)
    ensures ids <= t.Keys
    ensures forall k :: k in ids <==> k in t && t[k].username == username
  {
    set k | k in t && t[k].username == username
  }

  function WithEmail(t: Table, email: string): (ids: set<int>)
    ensures ids <= t.Keys
    ensures forall k :: k in ids <==> k in t && t[k].email == Some(email)
  {
    set k | k in t && t[k].email == Some(email)
  }

  /** `getUserByUsername`. */
  function GetUserByUsername(t: Table, username: string): (r: Option<User>)
    ensures r.Some? ==> r.value.id in t && r.value.username == username && RowOf(r.value) == t[r.value.id]
  {
    SingleOrNull(t, WithUsername(t, username))
  }

  /** `getUserByEmail`. */
  function GetUserByEmail(t: Table, email: string): (r: Option<User>)
    ensures r.Some? ==> r.value.id in t && r.value.email == Some(email) && RowOf(r.value) == t[r.value.id]
  {
    SingleOrNull(t, WithEmail(t, email))
  }

  /**
   * The unique indexes on `username` and `email`: no two rows share a username,
   * and no two rows share a non-null email.
   */
  predicate UniqueKeys(t: Table) {
    forall a, b | a in t && b in t && a != b ::
      t[a].username != t[b].username && (t[a].email.Some? ==> t[a].email != t[b].email)
  }

  predicate UsernameInUse(t: Table, username: string) {
    exists k | k in t :: t[k].username == username
  }

  predicate EmailInUse(t: Table, email: string) {
    exists k | k in t :: t[k].email == Some(email)
  }

  /** With unique keys a lookup finds a user exactly when one has that username. */
  lemma UsernameLookupFinds(t: Table, username: string)
    requires UniqueKeys(t)
    ensures GetUserByUsername(t, username).Some? <==> UsernameInUse(t, username)
  {
    var ids := WithUsername(t, username);
    if UsernameInUse(t, username) {
      var k :| k in t && t[k].username == username;
      forall j | j in ids
        ensures j == k
      {
        assert t[j].username == t[k].username;
      }
      assert ids == {k};
    } else {
      forall j | j in t
        ensures j !in ids
      {
        assert t[j].username != username;
      }
      assert ids == {};
    }
  }

  /** With unique keys a lookup finds a user exactly when one has that email. */
  lemma EmailLookupFinds(t: Table, email: string)
    requires UniqueKeys(t)
    ensures GetUserByEmail(t, email).Some? <==> EmailInUse(t, email)
  {
    var ids := WithEmail(t, email);
    if EmailInUse(t, email) {
      var k :| k in t && t[k].email == Some(email);
      forall j | j in ids
        ensures j == k
      {
        assert t[j].email == t[k].email;
      }
      assert ids == {k};
    } else {
      forall j | j in t
        ensures j !in ids
      {
        assert t[j].email != Some(email);
      }
      assert ids == {};
    }
  }

  // ---------------------------------------------------------------------------
  // Writes

  /** Everything but the row under `id` is as it was. */
  ghost predicate OthersUnchanged(t: Table, t': Table, id: int) {
    (forall k | k != id :: k in t <==> k in t') &&
    (forall k | k in t && k != id :: t'[k] == t[k])
  }

  /**
   * `createUser(request, passwordHash)`: a new INACTIVE, USER-role row with no
   * login yet, created and updated at `now`, stored under a fresh id; the user
   * returned is that row.
   */
  function CreateUser(t: Table, req: UserValidation.CreateUserRequest, passwordHash: string, now: Instant, freshId: int)
    : (r: (Table, User))
    requires freshId !in t
    ensures r.0.Keys == t.Keys + {freshId} && OthersUnchanged(t, r.0, freshId)
    ensures GetUserById(r.0, freshId) == Some(r.1)
    ensures r.1.username == req.username && r.1.email == req.email && r.1.nickname == req.nickname
    ensures r.1.avatar == req.avatar && r.1.phone == req.phone && r.1.password == passwordHash
    ensures r.1.status == StatusInactive && r.1.role == RoleUser && r.1.lastLoginAt.None?
    ensures r.1.createdAt == now && r.1.updatedAt == Some(now)
  {
    var row := Row(req.username, req.email, passwordHash, req.nickname, req.avatar, req.phone,
                   StatusInactive, RoleUser, now, Some(now), None);
    (t[freshId := row], UserOf(freshId, row))
  }

  /**
   * `createUser(user)`, the legacy overload: the row takes the user's fields
   * with `lastLoginAt` null; the returned copy only gets the id and timestamps.
   */
  function CreateUserFrom(t: Table, user: User, now: Instant, freshId: int): (r: (Table, User))
    requires freshId !in t
    ensures r.0.Keys == t.Keys + {freshId} && OthersUnchanged(t, r.0, freshId)
    ensures r.1 == user.(id := freshId, createdAt := now, updatedAt := Some(now))
    ensures r.0[freshId] == RowOf(r.1).(lastLoginAt := None)
  {
    var row := Row(user.username, user.email, user.password, user.nickname, user.avatar, user.phone,
                   user.status, user.role, now, Some(now), None);
    (t[freshId := row], user.(id := freshId, createdAt := now, updatedAt := Some(now)))
  }

  /** The legacy overload returns what it stored unless the argument carried a last-login time. */
  lemma CreateUserFromMirrorsRow(t: Table, user: User, now: Instant, freshId: int)
    requires freshId !in t
    ensures var r := CreateUserFrom(t, user, now, freshId);
      GetUserById(r.0, freshId) == Some(r.1) <==> user.lastLoginAt.None?
  {
    var r := CreateUserFrom(t, user, now, freshId);
    if user.lastLoginAt.Some? {
      assert GetUserById(r.0, freshId).value.lastLoginAt != r.1.lastLoginAt;
    }
  }

  /** The row `updateUser` writes: nulls and a blank password keep the prev value. */
  function Patched(prev: Row, user: User, now: Instant): (row: Row)
    ensures row.email == (if user.email.Some? then user.email else prev.email)
    ensures row.password == (if UserValidation.IsBlank(user.password) then prev.password else user.password)
    ensures row.nickname == (if user.nickname.Some? then user.nickname else prev.nickname)
    ensures row.avatar == (if user.avatar.Some? then user.avatar else prev.avatar)
    ensures row.phone == (if user.phone.Some? then user.phone else prev.phone)
    ensures row.status == user.status && row.role == user.role && row.updatedAt == Some(now)
    ensures row.username == prev.username && row.createdAt == prev.createdAt && row.lastLoginAt == prev.lastLoginAt
  {
    prev.(
      email := if user.email.Some? then user.email else prev.email,
      password := if UserValidation.IsBlank(user.password) then prev.password else user.password,
      nickname := if user.nickname.Some? then user.nickname else prev.nickname,
      avatar := if user.avatar.Some? then user.avatar else prev.avatar,
      phone := if user.phone.Some? then user.phone else prev.phone,
      status := user.status,
      role := user.role,
      updatedAt := Some(now))
  }

  /** A patch whose optional fields are all null and whose password is blank changes only status, role and `updatedAt`. */
  lemma EmptyPatchKeepsProfile(prev: Row, user: User, now: Instant)
    requires user.email.None? && user.nickname.None? && user.avatar.None? && user.phone.None?
    requires UserValidation.IsBlank(user.password)
    ensures Patched(prev, user, now) == prev.(status := user.status, role := user.role, updatedAt := Some(now))
  {
  }

  /** `updateUser(id, user)`: patch the row with that id and read it back; null when absent. */
  function UpdateUser(t: Table, id: int, user: User, now: Instant): (r: (Table, Option<User>))
    ensures r.0.Keys == t.Keys && OthersUnchanged(t, r.0, id)
    ensures r.1.None? <==> id !in t
    ensures id !in t ==> r.0 == t
    ensures id in t ==> r.0[id] == Patched(t[id], user, now) && r.1 == GetUserById(r.0, id)
  {
    if id in t then
      var t' := t[id := Patched(t[id], user, now)];
      (t', Some(UserOf(id, t'[id]).(updatedAt := Some(now))))
    else (t, None)
  }

  /** `updateLastLogin(id)`: both timestamps become the same `now`; nothing else changes. */
  function UpdateLastLogin(t: Table, id: int, now: Instant): (t': Table)
    ensures t'.Keys == t.Keys && OthersUnchanged(t, t', id)
    ensures id in t ==> t'[id] == t[id].(lastLoginAt := Some(now), updatedAt := Some(now))
    ensures id !in t ==> t' == t
  {
    if id in t then t[id := t[id].(lastLoginAt := Some(now), updatedAt := Some(now))] else t
  }

  /** `deleteUser(id, hardDelete)`: hard removes the row, soft marks it BANNED. */
  function DeleteUser(t: Table, id: int, hardDelete: bool, now: Instant): (t': Table)
    ensures OthersUnchanged(t, t', id)
    ensures hardDelete ==> t'.Keys == t.Keys - {id}
    ensures !hardDelete ==> t'.Keys == t.Keys
    ensures !hardDelete && id in t ==> t'[id] == t[id].(status := StatusBanned, updatedAt := Some(now))
  {
    if hardDelete then t - {id}
    else if id in t then t[id := t[id].(status := StatusBanned, updatedAt := Some(now))]
    else t
  }

  /** A soft delete can be told from a hard one: the row is still found, banned. */
  lemma SoftDeleteKeepsRow(t: Table, id: int, now: Instant)
    requires id in t
    ensures GetUserById(DeleteUser(t, id, false, now), id).Some?
    ensures GetUserById(DeleteUser(t, id, false, now), id).value.status == StatusBanned
    ensures GetUserById(DeleteUser(t, id, true, now), id).None?
  {
  }

  /** Recording a login and deleting a user (soft or hard) keep usernames and emails unique. */
  lemma WritesKeepUniqueKeys(t: Table, id: int, now: Instant, hardDelete: bool)
    requires UniqueKeys(t)
    ensures UniqueKeys(UpdateLastLogin(t, id, now))
    ensures UniqueKeys(DeleteUser(t, id, hardDelete, now))
  {
  }

  // ---------------------------------------------------------------------------
  // Responses

  /** `toUserResponse`: every field but the password. */
  function ToUserResponse(u: User): (r: UserResponse)
    ensures r.id == u.id && r.username == u.username && r.email == u.email
    ensures r.nickname == u.nickname && r.avatar == u.avatar && r.phone == u.phone
    ensures r.status == u.status && r.role == u.role
    ensures r.createdAt == u.createdAt && r.updatedAt == u.updatedAt && r.lastLoginAt == u.lastLoginAt
  {
    UserResponse(u.id, u.username, u.email, u.nickname, u.avatar, u.phone,
                 u.status, u.role, u.createdAt, u.updatedAt, u.lastLoginAt)
  }

  /** Two users give the same response exactly when they differ at most in their password. */
  lemma ResponseForgetsOnlyPassword(a: User, b: User)
    ensures ToUserResponse(a) == ToUserResponse(b) <==> a.(password := b.password) == b
  {
    if ToUserResponse(a) == ToUserResponse(b) {
      assert ToUserResponse(a).nickname == ToUserResponse(b).nickname;
    }
  }
}

=== FILE: web_history.dfy ===
/**
 * `syncPlatformNavigation` on the web: the browser session history follows
 * the navigation stack. The history is a list of entries with a current
 * index; `pushState` drops the forward entries and appends, `replaceState`
 * overwrites the current entry. Every URL written is the current pathname
 * with the active route as its fragment.
 */
module WebHistory {
  import opened Wrappers

  /**
   * A history entry's URL: its path, its query string (`location.search`,
   * empty or starting with `?`) and its fragment, if it has one.
   */
  datatype Location = Location(pathname: string, search: string, fragment: Option<string>)

  /** `location.hash`: empty when there is no fragment or it is empty, else `#` and the fragment. */
  function Hash(loc: Location): (h: string)
    ensures h == "" <==> loc.fragment.None? || loc.fragment.value == ""
    ensures h != "" ==> h == "#" + loc.fragment.value
  {
    match loc.fragment
    case None => ""
    case Some(f) => if f == "" then "" else "#" + f
  }

  /** Kotlin's `removePrefix("#")`. */
  function RemoveHashPrefix(s: string): (r: string)
    ensures |s| > 0 && s[0] == '#' ==> s == "#" + r
    ensures !(|s| > 0 && s[0] == '#') ==> r == s
  {
    if |s| > 0 && s[0] == '#' then s[1..] else s
  }

  datatype History = History(entries: seq<Location>, index: nat)

  ghost predicate Valid(h: History) {
    h.index < |h.entries|
  }

  function Current(h: History): Location
    requires Valid(h)
  {
    h.entries[h.index]
  }

  /**
   * The URL `pathname + "#" + route`: same path, the route as fragment, and
   * no query string, since `location.pathname` does not include it.
   */
  function RouteUrl(h: History, route: string): (loc: Location)
    requires Valid(h)
    ensures loc.pathname == Current(h).pathname && loc.fragment == Some(route)
    ensures loc.search == ""
  {
    Location(Current(h).pathname, "", Some(route))
  }

  /** `history.pushState`: forward entries are discarded and the new one becomes current. */
  function PushState(h: History, loc: Location): (h': History)
    requires Valid(h)
    ensures Valid(h') && Current(h') == loc
    ensures h'.index == h.index + 1 && |h'.entries| == h.index + 2
    ensures h'.entries[..h'.index] == h.entries[..h.index + 1]
  {
    History(h.entries[..h.index + 1] + [loc], h.index + 1)
  }

  /** `history.replaceState`: only the current entry changes. */
  function ReplaceState(h: History, loc: Location): (h': History)
    requires Valid(h)
    ensures Valid(h') && Current(h') == loc
    ensures h'.index == h.index && |h'.entries| == |h.entries|
    ensures forall i | 0 <= i < |h.entries| && i != h.index :: h'.entries[i] == h.entries[i]
  {
    History(h.entries[h.index := loc], h.index)
  }

  /** The effect's state: the stack size last seen and the browser history. */
  datatype Sync = Sync(previousStackSize: nat, history: History)

  /** One stack emission: its size and the route of its active configuration. */
  datatype Emission = Emission(size: nat, activeRoute: string)

  /** The subscriber: a size change pushes (growth) or replaces (shrink) and is remembered. */
  function OnEmission(s: Sync, e: Emission): (s': Sync)
    requires Valid(s.history)
    ensures Valid(s'.history)
    ensures e.size == s.previousStackSize ==> s' == s
    ensures e.size != s.previousStackSize ==>
      s'.previousStackSize == e.size && Current(s'.history) == RouteUrl(s.history, e.activeRoute)
    ensures e.size > s.previousStackSize ==> s'.history == PushState(s.history, RouteUrl(s.history, e.activeRoute))
    ensures e.size < s.previousStackSize ==> s'.history == ReplaceState(s.history, RouteUrl(s.history, e.activeRoute))
  {
    if e.size == s.previousStackSize then s
    else
      var url := RouteUrl(s.history, e.activeRoute);
      var h := if e.size > s.previousStackSize then PushState(s.history, url) else ReplaceState(s.history, url);
      Sync(e.size, h)
  }

  /** The effect's start: the current URL is replaced only when its hash is not the active route's. */
  function Start(h: History, stackSize: nat, activeRoute: string): (s: Sync)
    requires Valid(h)
    ensures Valid(s.history) && s.previousStackSize == stackSize
    ensures Hash(Current(h)) == "#" + activeRoute ==> s.history == h
    ensures Hash(Current(h)) != "#" + activeRoute ==> s.history == ReplaceState(h, RouteUrl(h, activeRoute))
  {
    if Hash(Current(h)) != "#" + activeRoute then Sync(stackSize, ReplaceState(h, RouteUrl(h, activeRoute)))
    else Sync(stackSize, h)
  }

  /** The browser's back button moves to the previous entry, before `popstate` fires. */
  function Back(h: History): (h': History)
    requires Valid(h)
    ensures Valid(h') && h'.entries == h.entries
    ensures h'.index == if h.index > 0 then h.index - 1 else 0
  {
    if h.index > 0 then h.(index := h.index - 1) else h
  }

  /** The `popstate` listener: rewrite the URL when its hash is not the active route. */
  function OnPopState(h: History, activeRoute: string): (h': History)
    requires Valid(h)
    ensures Valid(h')
    ensures h' == h <==> RemoveHashPrefix(Hash(Current(h))) == activeRoute
    ensures h' != h ==> h' == ReplaceState(h, RouteUrl(h, activeRoute))
  {
    if RemoveHashPrefix(Hash(Current(h))) != activeRoute then
      var h' := ReplaceState(h, RouteUrl(h, activeRoute));
      HashOfRoute(Current(h').pathname, activeRoute);
      h'
    else h
  }

  /** The hash of a URL whose fragment is `route` reads back as `route`. */
  lemma HashOfRoute(pathname: string, route: string)
    ensures RemoveHashPrefix(Hash(Location(pathname, "", Some(route)))) == route
  {
    if route != "" {
      assert ("#" + route)[1..] == route;
    }
  }

  /** After a `popstate`, the URL names the active route. */
  lemma PopStateMatchesActiveRoute(h: History, activeRoute: string)
    requires Valid(h)
    ensures RemoveHashPrefix(Hash(Current(OnPopState(h, activeRoute)))) == activeRoute
  {
    HashOfRoute(Current(h).pathname, activeRoute);
  }

  /** Feeding the subscriber a sequence of emissions. */
  function Run(s: Sync, es: seq<Emission>): (s': Sync)
    requires Valid(s.history)
    ensures Valid(s'.history)
    decreases |es|
  {
    if |es| == 0 then s else Run(OnEmission(s, es[0]), es[1..])
  }

  /**
   * Over any run, the remembered size is the last emitted size (or the
   * starting one), and the path part of the current URL never changes.
   */
  lemma {:induction false} RunTracksSizeAndKeepsPath(s: Sync, es: seq<Emission>)
    requires Valid(s.history)
    ensures Run(s, es).previousStackSize == if |es| == 0 then s.previousStackSize else es[|es| - 1].size
    ensures Current(Run(s, es).history).pathname == Current(s.history).pathname
    decreases |es|
  {
    if |es| > 0 {
      RunTracksSizeAndKeepsPath(OnEmission(s, es[0]), es[1..]);
      if |es| > 1 {
        assert es[1..][|es[1..]| - 1] == es[|es| - 1];
      }
    }
  }

  /**
   * Opening a page and going back through the stack (the app's own back, not
   * the browser's): the push adds an entry and the pop overwrites it, so the
   * history has grown by one entry, the entries up to the starting one are
   * kept, and the current (last) entry names the page gone back to. No
   * forward entry is left; when the starting entry already named that page,
   * it now appears twice in a row.
   */
  lemma PushThenPop(s: Sync, n: nat, detailRoute: string, homeRoute: string)
    requires Valid(s.history) && s.previousStackSize == n
    ensures var s' := OnEmission(OnEmission(s, Emission(n + 1, detailRoute)), Emission(n, homeRoute));
      s'.previousStackSize == n &&
      s'.history.index == s.history.index + 1 &&
      |s'.history.entries| == s.history.index + 2 &&
      s'.history.entries[..s.history.index + 1] == s.history.entries[..s.history.index + 1] &&
      Current(s'.history).fragment == Some(homeRoute)
  {
    var pushed := OnEmission(s, Emission(n + 1, detailRoute));
    var s' := OnEmission(pushed, Emission(n, homeRoute));
    assert pushed.history.entries[..s.history.index + 1] == s.history.entries[..s.history.index + 1];
    assert s'.history.entries[..s.history.index + 1] == pushed.history.entries[..s.history.index + 1];
  }

  /**
   * Opening a page and then pressing the browser's back button: the browser
   * steps back to the entry the push left behind, and once the stack's active
   * route is the starting page again the `popstate` listener finds the URL
   * already matching and leaves the history alone.
   */
  lemma BrowserBackNeedsNoRewrite(s: Sync, n: nat, detailRoute: string, homeRoute: string)
    requires Valid(s.history) && s.previousStackSize == n
    requires Current(s.history).fragment == Some(homeRoute)
    ensures var back := Back(OnEmission(s, Emission(n + 1, detailRoute)).history);
      Current(back) == Current(s.history) && OnPopState(back, homeRoute) == back
  {
    HashOfRoute(Current(s.history).pathname, homeRoute);
  }

  /**
   * Every URL the effect writes drops the query string: a page opened at
   * `/app?lang=en` whose hash is not the active route's is rewritten at start
   * to `/app#route`, and any push or replace afterwards leaves no query either.
   */
  lemma WritesDropQuery(h: History, stackSize: nat, activeRoute: string, e: Emission)
    requires Valid(h)
    ensures var s := Start(h, stackSize, activeRoute);
      (Hash(Current(h)) != "#" + activeRoute ==> Current(s.history).search == "") &&
      (e.size != s.previousStackSize ==> Current(OnEmission(s, e).history).search == "")
    ensures OnPopState(h, activeRoute) != h ==> Current(OnPopState(h, activeRoute)).search == ""
  {
  }
}

=== FILE: wrappers.dfy ===
/**
 * Building blocks used throughout the model: the optional value standing for
 * Kotlin's nullable types, and the order in which a database lists a table.
 */
module Wrappers {

  /** `None` stands for Kotlin's `null`, `Some(v)` for a present value. */
  datatype Option<+T> = None | Some(value: T) {

    /** The value, or `default` when absent (Kotlin's `?:`). */
    function GetOr(default: T): (r: T)
      ensures Some? ==> r == value
      ensures None? ==> r == default
    {
      match this
      case Some(v) => v
      case None => default
    }
  }

  /**
   * `order` is the order a query lists the rows of table `t` in: every key
   * exactly once.
   */
  ghost predicate IsListing<K(!new), V>(t: map<K, V>, order: seq<K>) {
    (forall i, j | 0 <= i < j < |order| :: order[i] != order[j]) &&
    (forall k :: k in t <==> k in order)
  }
}
